=== FILE: README.md ===
# headercheck's header engine, in Dafny

This project models the engine of headercheck. headercheck is a tool that
checks every source file for a license or copyright header rendered from a
template. In fix mode it also inserts or rewrites that header. The model
covers these parts:

- **the locator** (`Locator`): where a shebang line ends, which lines are
  build/lint directives (`//go:…`, `// +build`, `//nolint…`, `//lint:…`,
  `# shellcheck …`), which lines are comments, and the header block that
  starts after the shebang and the leading blank/directive lines;
- **template rendering** (`Render`): the `%author%`, `%creation_date%` and
  `%last_update_date%` substitutions with values supplied by a Git
  collaborator;
- **template selection** (`Rules`): the include/exclude test and the
  filtering of rules by path;
- **the matchers** (`Matcher`):
  - the semantic comparison, which masks variable text, collapses
    whitespace and trims;
  - the structural comparison, which ignores trailing newlines;
  - the date pass of the mask, given concretely and on its own (inside the
    semantic comparison every pass, the date pass included, is an abstract
    mask);
- **the rewrite planner** (`Planner`):
  - `normalizeNewlines`;
  - the two splices `insertHeader` and `replaceHeader`;
  - `upsertHeaderBeforeDirectives`, which rebuilds a file as: shebang line,
    new header, directive block, top-of-file comments, the old header
    moved down, then the untouched rest;
- **the per-file policy** (`Policy`): `processFile` after the file has been
  read. It covers:
  - the template-file and applicability exits;
  - the non-UTF-8 exit;
  - the choice of the matching rule;
  - the Git "not touched" skip;
  - the matched and unmatched branches in check and fix mode;
  - `New`'s loading of templates;
- **the exported helpers** (`Public`) of `internal/engine/public.go`;
- **configuration loading** (`Config`): `config.Load`. It covers:
  - the candidate files and which one decides;
  - the flexible `templates` list, where entries are strings or mappings;
  - the global include/exclude;
  - path normalization and the dropping of blank paths.

`Scenarios` replays the engine's unit tests as lemmas about whole files,
written line by line. These are the tests for:

- header detection after a shebang;
- insertion after a shebang;
- the single blank line after a replaced header;
- the header placed above Go directives;
- top-of-file comments moved below the header;
- the no-op on a correct header;
- insertion when the header is missing, with `%author%` rendered from Git's answer.

Bytes are `char`s below 256 (`ByteStrings.Byte`), so Go strings and byte
slices are both `Bytes` and literals stay readable. Whitespace is Go's
ASCII whitespace. The `\s` of the collapse step is RE2's class: tab, LF,
FF, CR and space.

Several things are parameters rather than code:

- the file system;
- `filepath.Clean`, `filepath.Rel`, `filepath.Join` and `filepath.IsAbs`;
- `utf8.Valid`;
- regular-expression matching of include/exclude;
- the masking passes of the semantic comparison (the date pass is also
  modelled on its own, outside the comparison);
- the Git collaborator.

`processFile` takes the bytes read (or the read failure) and whether the
write would succeed. It returns the result together with the bytes it
would write.

Some observations come out of the proofs:

- **The two top-comment scans differ.** The first scan of the upsert takes
  `//`, `#`, `/*` and `*` lines. The scan redone after the old header is
  cut uses `isLineComment`, which also takes `;` lines
  (`Planner.TopCommentScansDiffer`). The difference never reaches the
  output: the first scan's result is used only when no header was
  detected, and then it takes nothing (`Planner.NoHeaderTopCommentsEmpty`).
- **The semantic re-check is redundant.** In `handleMatchedHeader` the
  semantic re-check always succeeds, because the rule only got there by
  matching semantically (`Policy.MatchedRecheckIsRedundant`).
- **Two `len(trules) == 0` exits are dead.** Rendering never changes which
  rules apply, so the exit in `processFile` and the one in `handleNoMatch`
  are never taken once `hasAnyTemplateForPath` has held
  (`Policy.ApplicableRulesNonEmpty`).
- **`insertHeader` and `replaceHeader` are not used by `processFile`.**
  Every write goes through the upsert (`Policy.WritesAreUpserts`).
- **`normalizeNewlines` is not idempotent.** On `"\r\r\n"` a second pass
  changes the result again (`Planner.NormalizeNotIdempotent`).
- **The default template path is joined with the root twice** when the
  first join is not absolute (`Config.NoConfigGivesDefault`). The CLI
  always passes an absolute root, so this does not show there.
- **Blank template entries are treated differently by kind.** A blank
  *string* entry in `templates` is kept and made absolute, while a blank
  *mapping* entry is dropped (`Config.BlankEntriesDiffer`).

## Model

| member | source | states |
|---|---|---|
| Locator.ScanLines | internal/engine/engine.go:357-374 | the line scan stops at a line boundary; every line it passed is accepted; the line it stops at is not |
| Locator.FindShebangEnd | internal/engine/engine.go:346-354 | zero without a leading `#!`; otherwise one past the first newline, or the whole content when there is none |
| Locator.SkipBlankAndDirectives | internal/engine/engine.go:357-374 | the end of the maximal run of blank and directive lines from the given offset |
| Locator.DetectHeaderBlock | internal/engine/engine.go:255-286 | the header is empty exactly when the search start holds no comment line (and then start = end = 0); otherwise it is the slice from the search start to the first non-header line, every line in it a non-directive comment line |
| Locator.DetectedHeaderNotBlank | internal/engine/engine.go:263-285 | a detected header always holds non-whitespace text |
| Locator.DirectiveIsComment | internal/engine/engine.go:288-339 | every directive line is also a comment line and never blank, which is why header collection excludes directives explicitly |
| Locator.IndentationIgnored | internal/engine/engine.go:288-339 | lines are classified on their trimmed text: leading and trailing whitespace change neither whether a line is a comment (`isLineComment`), a directive (`isGoPreambleDirective`) or a header line |
| Scenarios.SlashComment | internal/engine/engine.go:288-339 | a `//` comment whose text (possibly empty, e.g. `// License` or `// generated`) starts with none of `go:`, `+build`, `nolint`, `lint:` is a comment (`isLineComment`) and a header line, and not a directive (`isGoPreambleDirective`) |
| Scenarios.HashComment | internal/engine/engine.go:288-318 | a `#` comment, bare or with text (e.g. `# SPDX-License-Identifier`) that does not start with `shellcheck` in any case, is a comment and a header line, and not a directive |
| Scenarios.SlashDirective | internal/engine/engine.go:309-339 | a `//go:` or `//nolint` line is a directive: it never belongs to a header, yet it is still a top comment |
| Scenarios.CodeLine | internal/engine/engine.go:288-301 | a line whose trimmed text starts with none of the comment markers (a single `/` is allowed) is neither a comment, a directive nor a header line |
| Scenarios.BlankLine | internal/engine/engine.go:288-292 | a whitespace-only line counts as a comment, a header line and a skippable preamble line |
| Matcher.CollapseSpace | internal/engine/engine.go:236-237 | every `\s` run becomes one space: no `\s` byte other than a space remains, no two spaces are adjacent, and the non-space bytes are kept in order |
| Matcher.CollapseInteriorSpace | internal/engine/engine.go:237 | an interior `\s` run of any length between two non-space bytes becomes exactly one space, and the text on each side collapses as if it stood alone |
| Matcher.InteriorSpaceRunsMatch | internal/engine/engine.go:219-243 | two headers that differ only in the length of one interior whitespace run match semantically, for any masks that keep a whitespace run between two texts and mask each side on its own (so headers with years, dates or hashes are covered) |
| Matcher.SemanticMatchIsEquivalence | internal/engine/engine.go:219-243 | on non-empty headers semantic matching is reflexive, symmetric and transitive, and it never accepts an empty header |
| Matcher.TrailingBlankLinesMatch | internal/engine/engine.go:236-242 | two headers that differ only in the length of their trailing whitespace run match semantically, for any masks that keep a trailing whitespace run after the masked text |
| Matcher.CollapseTrailingSpace | internal/engine/engine.go:237 | a trailing `\s` run of any length collapses to a single space |
| Matcher.TrailingNewlinesIgnored | internal/engine/engine.go:248-252 | appending CR/LF bytes keeps a header structurally equal |
| Matcher.StructuralIsExactWithoutTrailingNewline | internal/engine/engine.go:248-252 | without trailing CR/LF, structural equality is byte equality |
| Matcher.StructurallyEqualIff | internal/engine/engine.go:248-252 | structural equality holds exactly when the two headers share a prefix and each continues it with CR/LF bytes only |
| Matcher.DateMatchAt | internal/engine/engine.go:227 | a date match is 8 to 10 bytes long, begins with four digits and starts at a word boundary |
| Matcher.MaskDatesFrom | internal/engine/engine.go:227 | text in which no date matches is left unchanged |
| Matcher.WholeDateMasked | internal/engine/engine.go:226-227 | a `yyyy-mm-dd` or `yyyy/mm/dd` date becomes `<DATE>` |
| Matcher.DatesMaskAlike | internal/engine/engine.go:226-227 | any two such dates mask to the same text |
| Planner.NormalizeNewlines | internal/engine/engine.go:183-185 | content without CRLF is returned unchanged |
| Planner.NormalizeOnlyDropsCR | internal/engine/engine.go:183-185 | normalizing only deletes CR bytes: all other bytes survive in order |
| Planner.NormalizeRemovesPairedCR | internal/engine/engine.go:183-185 | when every CR starts a CRLF, no CR is left |
| Planner.NormalizeNotIdempotent | internal/engine/engine.go:183-185 | `"\r\r\n"` normalizes to `"\r\n"`, and a second pass gives `"\n"` |
| Planner.NormalizeAppend | internal/engine/engine.go:183-185 | normalizing distributes over a concatenation whose seam does not split a CRLF |
| Planner.NormalizeCRLFAnywhere | internal/engine/engine.go:183-185 | a CRLF becomes one LF wherever it stands, and the text on each side is normalized on its own |
| Planner.InsertHeader | internal/engine/engine.go:387-397 | the output is the shebang line, then the header, then one newline, then the rest of the content with only leading CR/LF bytes removed |
| Planner.ReplaceHeader | internal/engine/engine.go:376-385 | the output is the content before `start`, then the header, then one newline, then the content after `end` with only leading CR/LF bytes removed |
| Planner.InsertIsReplaceAtShebangEnd | internal/engine/engine.go:376-397 | inserting is replacing the empty range at the end of the shebang line |
| Planner.TopCommentScansDiffer | internal/engine/engine.go:454 | every line the first top-comment scan takes is also taken by `isLineComment`, and a `;` line is taken only by the latter |
| Planner.SplitTop | internal/engine/engine.go:406-464 | shebang, directives, top comments and rest concatenate back to the content, and the first part is the shebang line |
| Planner.Emit | internal/engine/engine.go:527-555 | the output starts with the shebang line, then the separator newline the emitter adds when there is a shebang, then the header, and it ends with the untouched rest |
| Planner.UpsertParts | internal/engine/engine.go:466-524 | the rest is a suffix of the content that lies past the old header when there was one; without a header the directive block is the leading blank/directive run and there are no top comments |
| Planner.ReplaceParts | internal/engine/engine.go:470-524 | after cutting the old header out and splitting again, the shebang line is the original one and the rest lies past the old header |
| Planner.ShebangSurvivesCut | internal/engine/engine.go:476-483 | cutting a header out never changes where the shebang line ends |
| Planner.CutKeepsLeadingRun | internal/engine/engine.go:484-502 | after the cut, the blank/directive scan still reaches at least the old header's start |
| Planner.NoHeaderTopCommentsEmpty | internal/engine/engine.go:437-464 | with no header detected the first top-comment scan takes nothing |
| Planner.UpsertHeaderBeforeDirectives | internal/engine/engine.go:403-556 | the output starts with the shebang line, a newline when there is a shebang, then the new header |
| Planner.UpsertWithoutHeader | internal/engine/engine.go:403-556 | without an old header the output is shebang, separator, header, one blank line, the normalized directive block, then the content from the search start, unchanged |
| Planner.UpsertWithHeader | internal/engine/engine.go:466-555 | with an old header, the output is, on the content with that header cut out: shebang line, separator, new header, one blank line, the normalized directive block, the normalized top comments, the demoted old header, then the untouched rest |
| Planner.UpsertKeepsTail | internal/engine/engine.go:403-556 | the content after the old header (or after the directives when there is none) ends the output unchanged |
| Planner.UpsertDemotesOldHeader | internal/engine/engine.go:540-554 | a preserved old header reappears, CR/LF-trimmed and followed by a blank line, right before the untouched rest |
| Planner.DemotedHeader | internal/engine/engine.go:550-554 | a non-blank preserved header is emitted trimmed of CR/LF and followed by one blank line, directly before the rest |
| Rules.HasAnyTemplateForPath | internal/engine/engine.go:579-590 | true exactly when some rule's include/exclude accepts the path |
| Rules.FilterTemplatesForPath | internal/engine/engine.go:623-635 | the result holds exactly the rules that accept the path |
| Rules.FilterAppend | internal/engine/engine.go:623-635 | filtering distributes over concatenation, so it keeps the original order |
| Rules.FilterIdempotent | internal/engine/engine.go:623-635 | filtering twice is filtering once |
| Rules.FilterNonEmptyIffAny | internal/engine/engine.go:579-635 | the filtered list is non-empty exactly when `hasAnyTemplateForPath` holds |
| Render.DisabledGitRendering | internal/engine/engine.go:188-216 | with Git disabled every rule renders with author `unknown` and empty dates, so the rendering does not depend on the file |
| Render.DisabledGitPlaceholders | internal/engine/engine.go:190-207 | with Git disabled, `%author%` renders as `unknown` and each date placeholder as nothing |
| Render.ResolveVars | internal/engine/engine.go:190-202 | an empty author becomes `unknown` and a non-empty one is kept; the dates are used as reported |
| Render.RenderBody | internal/engine/engine.go:205-208 | a body with no placeholder is left unchanged |
| Render.PlaceholderRenderedInPlace | internal/engine/engine.go:204-207 | in text with no other `%`, each of the three placeholders is replaced in place by its value and nothing else changes |
| Render.RenderWithoutPercent | internal/engine/engine.go:204-207 | text without any `%` renders to itself |
| ByteStrings.ReplaceAllSplice | internal/engine/engine.go:205 | `strings.ReplaceAll` replaces the first occurrence of the pattern in place and continues after it |
| ByteStrings.ReplaceLoneOccurrence | internal/engine/engine.go:205 | a lone occurrence, in text that lacks the pattern's first byte elsewhere, is replaced in place and nothing else changes |
| Render.RenderWithPlaceholdersIsIdentity | internal/engine/engine.go:205-208 | substitution is literal: rendering with each placeholder as its own value changes nothing |
| Render.RenderRule | internal/engine/engine.go:209-214 | rendering keeps the template path and the include/exclude patterns |
| Render.RenderAll | internal/engine/engine.go:188-216 | one rendered rule per configured rule, in the same order |
| Render.RenderThenFilter | internal/engine/engine.go:163-164 | rendering then filtering equals filtering then rendering |
| Policy.HandleNonUTF8File | internal/engine/engine.go:594-602 | processing continues exactly when the content is valid UTF-8; otherwise the result is no action, with the warning exactly when forced |
| Policy.FindMatchingTemplateIndex | internal/engine/engine.go:604-620 | the index of the first rule that accepts the path and semantically matches the header, or -1 when no rule does |
| Policy.ShouldSkipDueToGit | internal/engine/engine.go:637-643 | skip exactly when Git is respected and the file is not touched; never with Git disabled |
| Policy.FixReportsOnlyWrites | internal/engine/engine.go:667-695 | in fix mode an insert or replace is reported exactly when bytes were written and the write succeeded; when nothing is written the result is no action or a read error |
| Policy.MatchedRecheckIsRedundant | internal/engine/engine.go:664-666 | for a header that already matched semantically, dropping the semantic re-check changes no outcome |
| Policy.ProcessFile | internal/engine/engine.go:141-180 | nothing is written in check mode, no path yields a remove, and a write error arises exactly when a write fails |
| Policy.Reconcile | internal/engine/engine.go:162-179 | once past the early exits, the outcome is never a read error, a warning or a remove; bytes are written only in fix mode, and a write error arises exactly when a write fails |
| Policy.ProcessFileEarlyExits | internal/engine/engine.go:141-162 | the early exits in order: template file, no applicable rule, read failure, invalid UTF-8; otherwise reconciliation proceeds |
| Policy.ApplicableRulesNonEmpty | internal/engine/engine.go:148-168 | the rendered, filtered rules are non-empty exactly when `hasAnyTemplateForPath` holds, so the later empty-rules exits are dead |
| Policy.CheckModeReports | internal/engine/engine.go:171-179 | check mode never writes; it reports no action when some applicable rule matches, otherwise a replace when a header exists and an insert when none does |
| Policy.FixMatchedOutcome | internal/engine/engine.go:645-673 | with a match, fix mode leaves the file alone exactly when the header is structurally equal or Git says the file is untouched; otherwise it rewrites with the matched body as a replace |
| Policy.FixNoMatchOutcome | internal/engine/engine.go:675-701 | without a match, fix mode upserts the first applicable body, as a replace when a header exists and an insert otherwise |
| Policy.MissingHeaderIsInserted | internal/engine/engine.go:675-701 | a file without a header is never matched: fix mode inserts the first applicable body and check mode reports an insert |
| Policy.WritesAreUpserts | internal/engine/engine.go:141-180 | whatever is written is the read content upserted with the body of an applicable rule |
| Policy.LoadRules | internal/engine/engine.go:54-72 | loading fails exactly when a template with a non-blank path cannot be read; every loaded rule has its template's content with CRLF normalized |
| Policy.LoadRulesAppend | internal/engine/engine.go:56-70 | loading a concatenation loads each part and joins the results in order, failing when either part fails |
| Policy.LoadOneRule | internal/engine/engine.go:56-70 | one rule is dropped when its path is blank, fails the load when its template cannot be read, and is otherwise kept with the template's normalized bytes |
| Public.ConcatLines | internal/engine/public.go:41 | same length as the input, every newline becomes a space and nothing else changes |
| Public.RenderTemplatesFor | internal/engine/public.go:31-38 | one rendered body per configured rule, in order |
| Public.AcceptsPath | internal/engine/public.go:46-49 | true exactly when some rule accepts the path relative to the root |
| Public.FilteredIsRenderedApplicable | internal/engine/public.go:53-62 | the filtered bodies are the applicable rules rendered, and non-empty exactly when the path is accepted |
| Public.FilteredBodiesAreRendered | internal/engine/public.go:53-62 | every filtered body is one of the unfiltered rendered bodies |
| Config.OnlyCandidatesAreRead | internal/config/config.go:38-68 | `Load` reads nothing but its candidate files: two file systems that agree on them load the same configuration |
| Config.ExplicitPathDecides | internal/config/config.go:39-44 | with an explicit path only that file matters, and when it is missing the defaults are used even if a conventionally named file exists |
| Config.FirstPresent | internal/config/config.go:53-58 | the first candidate that exists; every earlier one is missing |
| Config.FindConfig | internal/config/config.go:53-68 | no configuration exactly when every candidate is missing; otherwise the first existing candidate decides, as a parsed document, a read error or a parse error |
| Config.MixedEntriesDecode | internal/config/config.go:74-94 | a string entry and a mapping entry decode, in order, to a bare path and to a path carrying the mapping's include and exclude |
| Config.UnusableEntriesIgnored | internal/config/config.go:76-94 | entries that are neither strings nor mappings with a non-blank path decode to nothing |
| Config.DecodeAppend | internal/config/config.go:73-96 | decoding goes entry by entry: a list decodes to the concatenation of its parts' decodings |
| Config.GlobalExpr | internal/config/config.go:101-106 | a global include/exclude is the document's value exactly when that is a non-blank string, and empty otherwise |
| Config.UnusableListKeepsDefault | internal/config/config.go:97-99 | a document whose `templates` decode to nothing loads the single default template, which takes the document's global include and exclude |
| Config.NormalizeIdempotent | internal/config/config.go:110-122 | normalizing twice is normalizing once when joining with the root yields an absolute path |
| Config.NormalizeWithoutGlobals | internal/config/config.go:115-120 | without global expressions only the path is resolved; an entry's own include and exclude, given or empty, are kept |
| Config.DropBlank | internal/config/config.go:124-131 | keeps exactly the templates with a non-blank path, and the whole list when none is blank |
| Config.DropBlankAppend | internal/config/config.go:125-130 | dropping blank paths distributes over concatenation, so the kept templates keep their order and multiplicity |
| Config.Finish | internal/config/config.go:109-131 | every template left has a non-blank path, and an empty include/exclude remains only when the global one is empty; when no resolved path is blank, every template is kept, normalized, in order |
| Config.FinishAppend | internal/config/config.go:109-131 | finishing distributes over concatenation |
| Config.FinishOne | internal/config/config.go:110-130 | one template finishes to itself normalized, or to nothing when its resolved path is blank |
| Config.Load | internal/config/config.go:31-134 | loading fails exactly when the first existing candidate cannot be read or parsed; loaded templates have non-blank paths |
| Config.LoadFoundConfig | internal/config/config.go:69-134 | with a document found, the globals are its non-blank strings, and the templates are the entries (the document's, or the default when it lists none) normalized, with blank paths dropped, in their order |
| Config.FinishFillsMissing | internal/config/config.go:109-122 | templates without their own include/exclude all take the global ones |
| Config.GlobalDefaultsFillMissing | internal/config/config_test.go:49-68 | when no entry gives its own include/exclude, every loaded template carries the document's globals |
| Config.NoConfigGivesDefault | internal/config/config.go:33-35 | with no configuration file there is one template, `.header.txt` under the root (joined again when that is not absolute) |
| Config.BlankEntriesDiffer | internal/config/config.go:78-93 | a blank string entry survives decoding and is made absolute, while a mapping entry with a blank path is dropped |
| Config.ParsesStringAndObjects | internal/config/config_test.go:23-47 | the test document loads two templates in order, both resolved against the root; the mapping keeps its own include and exclude and the string entry takes the global include |
| Scenarios.DetectAfterShebang | internal/engine/engine_test.go:35-48 | after the 20-byte shebang line `#!/usr/bin/env bash`, the comment line and the blank line after it are the header, at offsets 20 to 35 |
| Scenarios.InsertAfterShebang | internal/engine/engine_test.go:50-58 | inserting into a shell script keeps the shebang first and puts the header right after it |
| Scenarios.ReplaceOldHeader | internal/engine/engine_test.go:60-71 | replacing `// old` leaves exactly one blank line before `package x` |
| Scenarios.GoDirectivesUpsert | internal/engine/engine_test.go:73-96 | a file that starts with `//go:build` and `//nolint` has no header; the header goes above the directives and a blank line follows them |
| Scenarios.TopCommentsUpsert | internal/engine/engine_test.go:144-161 | the two leading comment lines and the blank line after them are exactly the detected header; with the old header kept, the output is the new header, a blank line, those comments and the rest, unchanged |
| Scenarios.InsertedAtTop | internal/engine/engine.go:675-701 | when a file has neither a shebang line nor a header, fix mode writes the first applicable body at the very start of the output and reports an insert |
| Scenarios.InsertWhenMissing | internal/engine/engine_test.go:239-262 | a file holding only `package main` gets the first applicable body at its start, reported as an insert |
| Scenarios.AliceRendered | internal/engine/engine_test.go:242-247 | `// Header` / `// Author: %author%` renders to `// Header` / `// Author: Alice` when Git reports Alice |
| Scenarios.InsertRenderedWhenMissing | internal/engine/engine_test.go:239-262 | with that template and Git reporting Alice, fix mode on `package main` writes the rendered header, one blank line, then `package main`, as an insert |
| Scenarios.DirectivesFileGetsHeader | internal/engine/engine_test.go:73-96 | the directive file of the upsert scenario, through the policy: fix mode writes the upserted file as an insert, and check mode reports an insert without writing |
| Scenarios.TrailingBreaksHeaderIsKept | internal/engine/engine.go:645-660 | a header that differs from the first applicable body only in its run of trailing line breaks (one blank line more, or fewer, including bodies that already end in a blank line) is kept in both modes, whenever the masks keep trailing line breaks after the masked text |
| Scenarios.NoopWhenHeaderAlreadyCorrect | internal/engine/engine_test.go:221-237 | a file already carrying its header is left alone in both modes |

## Left out

- File system access, `Process`/`WalkDir` and the CLI: file contents and write success are parameters of `processFile`.
- Regular expressions: include/exclude matching is an abstract `MatchFn`. The five masking passes of the semantic comparison (date, time, e-mail, hash and year) are one abstract `Mask`, so `SemanticallyMatches` does not run the concrete date pass. That pass is modelled on its own (`Matcher.MaskDates`) and only its own lemmas use it. The whitespace lemmas ask of the mask only what the real passes guarantee: none of their patterns matches whitespace, so a `\s` run between two texts survives masking unchanged.
- `utf8.Valid`, `filepath.Clean`, `filepath.Rel`, `filepath.Join` and `filepath.IsAbs` are parameters.
- The Git subprocess and `internal/gitmeta` are not part of this model: Git answers are a function from path to author, dates and "touched". Errors returned with an answer are ignored by the engine, so they are not modelled. `Disabled` models `gitmeta.Disabled()`, a non-nil collaborator that answers empty values and "touched". The `Git == nil` branch of `shouldSkipDueToGit` is not modelled: with a nil collaborator `renderTemplates` would already have failed on its first Git call, so that branch is never reached.
- Unicode whitespace: `strings.TrimSpace` and `strings.ToLower` are modelled on ASCII only.
- `Verbose` printing, the `Path` field of results and the partial configuration `Load` returns together with an error (every caller discards it).
- YAML parsing: a configuration file arrives as the decoded generic value. Mapping keys are strings; non-string keys are not modelled.
- Policy.HandleMatchedHeader: has no contract of its own; its outcomes are stated by `Policy.FixMatchedOutcome` and `Policy.MatchedRecheckIsRedundant`.
- Policy.HandleNoMatch: has no contract of its own; its outcomes are stated by `Policy.FixNoMatchOutcome`, `Policy.CheckModeReports` and `Policy.MissingHeaderIsInserted`.
- Idempotence of fix mode on arbitrary files is not stated. Only the scenarios above, where a second run is a no-op by `Scenarios.NoopWhenHeaderAlreadyCorrect`, touch it.
- Public.RenderTemplatesForFiltered: its contract is stated by `Public.FilteredIsRenderedApplicable`.
- The `DetectHeaderBlock`, `HeaderSemanticallyMatches`, `InsertHeader`, `ReplaceHeader` and `NormalizeNewlines` wrappers of `internal/engine/public.go` return their unexported function's result unchanged, so they are the `Locator`, `Matcher` and `Planner` functions of the same names.
- Policy.IsTemplatePath and Policy.RelativePath: predicates over the abstract path functions, with no contract beyond their definition.
- Scenarios.NoopWhenHeaderAlreadyCorrect: the masks are abstract, so the lemma requires that they leave `// H`, `// H\n` and `// H\n\n` unchanged, which the real passes do.
- Planner.ReplaceHeader: requires `start` and `end` to lie within the content. Go panics on an out-of-range slice, and that panic is not modelled.
- Config.Load: its own contract states when loading fails and what every loaded template satisfies. The exact template list, in order, is stated by `Config.LoadFoundConfig` and `Config.NoConfigGivesDefault`.
- Policy.WriteBack, Render.Ask, Matcher.SemanticallyMatches, Config.Candidates, Config.DecodeEntry, Config.DecodeTemplates, Config.Overlay and Config.NormalizeTemplate: their contracts only restate their definitions. What they mean is stated by the lemmas above that use them.
- Render.RenderTemplates: has no contract of its own. It is stated by `Render.DisabledGitRendering`, `Render.RenderThenFilter` and the rendering scenarios.

=== FILE: bytestrings.dfy ===
/** Byte strings and the handful of Go `bytes`/`strings` helpers the header
    engine relies on: whitespace and CR/LF trimming, prefix tests, literal
    replacement and ASCII lower-casing.

    Go's `[]byte` and `string` are both byte sequences. Here a byte is a
    `char` below 256, so that file contents in the scenarios can be written
    as ordinary string literals. */
module ByteStrings {

  type Byte = c: char | c as int < 0x100 witness '\0'
  type Bytes = seq<Byte>

  datatype Option<+T> = None | Some(value: T)

  /** `unicode.IsSpace` on the ASCII range: tab, LF, VT, FF, CR and space. */
  predicate IsSpace(b: Byte) {
    b == ' ' || b == '\t' || b == '\n' || b as int == 0x0B || b as int == 0x0C || b == '\r'
  }

  /** The cut set "\r\n" used by `bytes.Trim`, `TrimLeft` and `TrimRight`. */
  predicate IsCRLF(b: Byte) {
    b == '\r' || b == '\n'
  }

  /** The number of leading bytes of `s` that are cut. */
  function LeadingCut(s: Bytes, cut: Byte -> bool): (n: nat)
    ensures n <= |s|
    ensures forall i :: 0 <= i < n ==> cut(s[i])
    ensures n == |s| || !cut(s[n])
  {
    if |s| > 0 && cut(s[0]) then 1 + LeadingCut(s[1..], cut) else 0
  }

  /** The length of `s` without its trailing run of cut bytes. */
  function KeptLength(s: Bytes, cut: Byte -> bool): (n: nat)
    ensures n <= |s|
    ensures forall i :: n <= i < |s| ==> cut(s[i])
    ensures n == 0 || !cut(s[n - 1])
  {
    if |s| > 0 && cut(s[|s| - 1]) then KeptLength(s[..|s| - 1], cut) else |s|
  }

  /** Drops the longest prefix whose bytes are all cut. */
  function TrimLeft(s: Bytes, cut: Byte -> bool): Bytes {
    s[LeadingCut(s, cut)..]
  }

  /** Drops the longest suffix whose bytes are all cut. */
  function TrimRight(s: Bytes, cut: Byte -> bool): Bytes {
    s[..KeptLength(s, cut)]
  }

  /** Both ends: `bytes.Trim` with a cut set. */
  function Trim(s: Bytes, cut: Byte -> bool): Bytes {
    TrimRight(TrimLeft(s, cut), cut)
  }

  /** `strings.TrimSpace` / `bytes.TrimSpace`. */
  function TrimSpace(s: Bytes): Bytes {
    Trim(s, IsSpace)
  }

  /** `bytes.Trim(s, "\n\r")`. */
  function TrimCRLF(s: Bytes): Bytes {
    Trim(s, IsCRLF)
  }

  /** `strings.TrimSpace(s) == ""`. */
  predicate IsBlank(s: Bytes) {
    TrimSpace(s) == []
  }

  predicate AllSpace(s: Bytes) {
    forall i :: 0 <= i < |s| ==> IsSpace(s[i])
  }

  lemma TrimEmptyIffAllCut(s: Bytes, cut: Byte -> bool)
    ensures Trim(s, cut) == [] <==> forall i :: 0 <= i < |s| ==> cut(s[i])
  {
    var l := TrimLeft(s, cut);
    assert l != [] ==> l[0] == s[|s| - |l|];
    forall i | |s| - |l| <= i < |s| ensures s[i] == l[i - (|s| - |l|)] {
    }
  }

  lemma BlankIffAllSpace(s: Bytes)
    ensures IsBlank(s) <==> AllSpace(s)
  {
    TrimEmptyIffAllCut(s, IsSpace);
  }

  /** Text that is not blank keeps something when trimmed of CR/LF. */
  lemma NonBlankSurvivesCRLFTrim(s: Bytes)
    requires !IsBlank(s)
    ensures TrimCRLF(s) != []
  {
    TrimEmptyIffAllCut(s, IsCRLF);
    BlankIffAllSpace(s);
  }

  /** The run of leading cut bytes is the one ending at the first byte that
      is not cut. */
  lemma LeadingCutIs(s: Bytes, cut: Byte -> bool, n: nat)
    requires n <= |s| && (forall i :: 0 <= i < n ==> cut(s[i])) && (n == |s| || !cut(s[n]))
    ensures LeadingCut(s, cut) == n
  {
  }

  /** The kept length is the one just past the last byte that is not cut. */
  lemma KeptLengthIs(s: Bytes, cut: Byte -> bool, n: nat)
    requires n <= |s| && (forall i :: n <= i < |s| ==> cut(s[i])) && (n == 0 || !cut(s[n - 1]))
    ensures KeptLength(s, cut) == n
  {
  }

  /** Leading padding of cut bytes goes with the leading cut;
      trailing padding stays when `s` has a byte that is not cut. */
  lemma TrimLeftPadding(ws1: Bytes, s: Bytes, ws2: Bytes, cut: Byte -> bool)
    requires forall i :: 0 <= i < |ws1| ==> cut(ws1[i])
    requires LeadingCut(s, cut) < |s|
    ensures TrimLeft(ws1 + s + ws2, cut) == TrimLeft(s, cut) + ws2
  {
    var a := LeadingCut(s, cut);
    calc {
      TrimLeft(ws1 + s + ws2, cut);
    == { TrimLeftOfPadded(ws1, s, ws2, cut); }
      (ws1 + s + ws2)[|ws1| + a..];
    == { DropPrefix(ws1, s, ws2, a); }
      s[a..] + ws2;
    }
  }

  lemma TrimLeftOfPadded(ws1: Bytes, s: Bytes, ws2: Bytes, cut: Byte -> bool)
    requires forall i :: 0 <= i < |ws1| ==> cut(ws1[i])
    requires LeadingCut(s, cut) < |s|
    ensures TrimLeft(ws1 + s + ws2, cut) == (ws1 + s + ws2)[|ws1| + LeadingCut(s, cut)..]
  {
    LeadingCutOfPadded(ws1, s, ws2, cut);
  }

  lemma LeadingCutOfPadded(ws1: Bytes, s: Bytes, ws2: Bytes, cut: Byte -> bool)
    requires forall i :: 0 <= i < |ws1| ==> cut(ws1[i])
    requires LeadingCut(s, cut) < |s|
    ensures LeadingCut(ws1 + s + ws2, cut) == |ws1| + LeadingCut(s, cut)
  {
    var x := ws1 + s + ws2;
    var a := LeadingCut(s, cut);
    forall i | 0 <= i < |ws1| + a ensures cut(x[i]) {
      if i >= |ws1| { assert x[i] == s[i - |ws1|]; }
    }
    assert x[|ws1| + a] == s[a];
    LeadingCutIs(x, cut, |ws1| + a);
  }

  lemma DropPrefix(ws1: Bytes, s: Bytes, ws2: Bytes, a: nat)
    requires a <= |s|
    ensures (ws1 + s + ws2)[|ws1| + a..] == s[a..] + ws2
  {
  }

  /** Trailing padding of cut bytes goes with the trailing cut. */
  lemma TrimRightPadding(l: Bytes, ws2: Bytes, cut: Byte -> bool)
    requires forall i :: 0 <= i < |ws2| ==> cut(ws2[i])
    ensures TrimRight(l + ws2, cut) == TrimRight(l, cut)
  {
    var k := KeptLength(l, cut);
    forall i | k <= i < |l + ws2| ensures cut((l + ws2)[i]) {
      if i >= |l| { assert (l + ws2)[i] == ws2[i - |l|]; }
    }
    if k > 0 {
      assert (l + ws2)[k - 1] == l[k - 1];
    }
    KeptLengthIs(l + ws2, cut, k);
    assert (l + ws2)[..k] == l[..k];
  }

  /** Padding made only of cut bytes, on either side, is trimmed away. */
  lemma TrimPadding(ws1: Bytes, s: Bytes, ws2: Bytes, cut: Byte -> bool)
    requires forall i :: 0 <= i < |ws1| ==> cut(ws1[i])
    requires forall i :: 0 <= i < |ws2| ==> cut(ws2[i])
    ensures Trim(ws1 + s + ws2, cut) == Trim(s, cut)
  {
    var x := ws1 + s + ws2;
    if LeadingCut(s, cut) < |s| {
      TrimLeftPadding(ws1, s, ws2, cut);
      TrimRightPadding(TrimLeft(s, cut), ws2, cut);
    } else {
      TrimEmptyIffAllCut(s, cut);
      TrimEmptyIffAllCut(x, cut);
      forall i | 0 <= i < |x| ensures cut(x[i]) {
        if i < |ws1| {
          assert x[i] == ws1[i];
        } else if i < |ws1| + |s| {
          assert x[i] == s[i - |ws1|];
        } else {
          assert x[i] == ws2[i - |ws1| - |s|];
        }
      }
    }
  }

  /** Trimming never changes a first byte that is not cut. */
  lemma TrimKeepsFirstByte(s: Bytes, cut: Byte -> bool)
    requires |s| > 0 && !cut(s[0])
    ensures |Trim(s, cut)| > 0 && Trim(s, cut)[0] == s[0]
  {
    assert TrimLeft(s, cut) == s;
    var r := TrimRight(s, cut);
    assert !cut(s[0]);
  }

  /** `suffix` ends `s` (`bytes.HasSuffix`). Prefixes use Dafny's `<=`. */
  predicate IsSuffix(suffix: Bytes, s: Bytes) {
    |suffix| <= |s| && s[|s| - |suffix|..] == suffix
  }

  predicate OccursAt(s: Bytes, pat: Bytes, i: nat) {
    i + |pat| <= |s| && s[i..i + |pat|] == pat
  }

  predicate Contains(s: Bytes, pat: Bytes) {
    exists i: nat :: i <= |s| && OccursAt(s, pat, i)
  }

  /** `strings.ReplaceAll` / `bytes.ReplaceAll` for a non-empty pattern:
      leftmost, non-overlapping occurrences are replaced. */
  function ReplaceAll(s: Bytes, pat: Bytes, rep: Bytes): (r: Bytes)
    requires |pat| > 0
    ensures !Contains(s, pat) ==> r == s
    decreases |s|
  {
    if pat <= s then
      assert OccursAt(s, pat, 0);
      rep + ReplaceAll(s[|pat|..], pat, rep)
    else if s == [] then []
    else
      assert forall i: nat :: i <= |s[1..]| && OccursAt(s[1..], pat, i) ==> OccursAt(s, pat, i + 1);
      [s[0]] + ReplaceAll(s[1..], pat, rep)
  }

  /** Replacing a pattern by itself is the identity. */
  lemma {:induction false} ReplaceBySelf(s: Bytes, pat: Bytes)
    requires |pat| > 0
    ensures ReplaceAll(s, pat, pat) == s
    decreases |s|
  {
    if pat <= s {
      ReplaceBySelf(s[|pat|..], pat);
      assert s == pat + s[|pat|..];
    } else if s != [] {
      ReplaceBySelf(s[1..], pat);
      assert s == [s[0]] + s[1..];
    }
  }

  /** No byte of `s` is `m`. */
  predicate Lacks(s: Bytes, m: Byte) {
    forall i :: 0 <= i < |s| ==> s[i] != m
  }

  /** A pattern whose first byte does not occur in `s` does not occur
      in it. */
  lemma LacksFirstByte(s: Bytes, pat: Bytes)
    requires |pat| > 0 && Lacks(s, pat[0])
    ensures !Contains(s, pat)
  {
    forall i: nat | i <= |s| ensures !OccursAt(s, pat, i) {
      if i + |pat| <= |s| {
        assert s[i..i + |pat|][0] == s[i];
      }
    }
  }

  /** An occurrence of the pattern that is preceded only by bytes that
      start no occurrence is replaced, and the scan resumes after it. */
  lemma {:induction false} ReplaceAllSplice(a: Bytes, pat: Bytes, rep: Bytes, b: Bytes)
    requires |pat| > 0
    requires forall i :: 0 <= i < |a| ==> !OccursAt(a + pat + b, pat, i)
    ensures ReplaceAll(a + pat + b, pat, rep) == a + rep + ReplaceAll(b, pat, rep)
    decreases |a|, 1
  {
    if a == [] {
      assert a + pat + b == pat + b;
      ReplaceAtStart(pat, rep, b);
    } else {
      ReplaceAllSpliceCons(a, pat, rep, b);
    }
  }

  lemma {:induction false} ReplaceAllSpliceCons(a: Bytes, pat: Bytes, rep: Bytes, b: Bytes)
    requires |pat| > 0 && a != []
    requires forall i :: 0 <= i < |a| ==> !OccursAt(a + pat + b, pat, i)
    ensures ReplaceAll(a + pat + b, pat, rep) == a + rep + ReplaceAll(b, pat, rep)
    decreases |a|, 0
  {
    var t := a[1..] + pat + b;
    ConsSplit(a, pat + b);
    assert a + pat + b == [a[0]] + t;
    ReplaceStep(a[0], t, pat, rep);
    ShiftNoOccurrence(a[0], t, pat, |a| - 1);
    ReplaceAllSplice(a[1..], pat, rep, b);
    Regroup(a, rep, ReplaceAll(b, pat, rep));
  }

  lemma Assoc(x: Bytes, y: Bytes, z: Bytes)
    ensures x + (y + z) == x + y + z
  {
  }

  lemma ConsSplit(a: Bytes, y: Bytes)
    requires a != []
    ensures a + y == [a[0]] + (a[1..] + y)
  {
    assert a == [a[0]] + a[1..];
  }

  lemma ReplaceAtStart(pat: Bytes, rep: Bytes, b: Bytes)
    requires |pat| > 0
    ensures ReplaceAll(pat + b, pat, rep) == rep + ReplaceAll(b, pat, rep)
  {
    assert (pat + b)[|pat|..] == b;
  }

  lemma ReplaceStep(x: Byte, t: Bytes, pat: Bytes, rep: Bytes)
    requires |pat| > 0 && !OccursAt([x] + t, pat, 0)
    ensures ReplaceAll([x] + t, pat, rep) == [x] + ReplaceAll(t, pat, rep)
  {
    assert ([x] + t)[1..] == t;
  }

  lemma Regroup(a: Bytes, y: Bytes, z: Bytes)
    requires |a| > 0
    ensures [a[0]] + (a[1..] + y + z) == a + y + z
  {
    assert a == [a[0]] + a[1..];
  }

  /** Occurrences in `t` are occurrences in `[x] + t`, one byte later. */
  lemma ShiftNoOccurrence(x: Byte, t: Bytes, pat: Bytes, n: nat)
    requires forall i :: 0 <= i < n + 1 ==> !OccursAt([x] + t, pat, i)
    ensures forall i :: 0 <= i < n ==> !OccursAt(t, pat, i)
  {
    forall i | 0 <= i < n ensures !OccursAt(t, pat, i) {
      assert !OccursAt([x] + t, pat, i + 1);
      if i + |pat| <= |t| {
        assert ([x] + t)[i + 1..i + 1 + |pat|] == t[i..i + |pat|];
      }
    }
  }

  /** A lone occurrence, surrounded by text without the pattern's first
      byte, is replaced and nothing else changes. */
  lemma ReplaceLoneOccurrence(a: Bytes, pat: Bytes, rep: Bytes, b: Bytes)
    requires |pat| > 0 && Lacks(a, pat[0]) && Lacks(b, pat[0])
    ensures ReplaceAll(a + pat + b, pat, rep) == a + rep + b
  {
    forall i | 0 <= i < |a| ensures !OccursAt(a + pat + b, pat, i) {
      assert (a + pat + b)[i] == a[i];
    }
    ReplaceAllSplice(a, pat, rep, b);
    LacksFirstByte(b, pat);
  }

  /** A pattern `m p m` does not occur in a text that holds `m` only at the
      two ends of a different pattern `m q m`. */
  lemma OtherDelimitedAbsent(a: Bytes, q: Bytes, b: Bytes, p: Bytes, m: Byte)
    requires Lacks(a, m) && Lacks(b, m)
    requires |q| >= 2 && q[0] == m && q[|q| - 1] == m && Lacks(q[1..|q| - 1], m)
    requires |p| >= 2 && p[0] == m && p[|p| - 1] == m && p != q
    ensures !Contains(a + q + b, p)
  {
    var s := a + q + b;
    forall k | 0 <= k < |s| && k != |a| && k != |a| + |q| - 1 ensures s[k] != m {
      if k < |a| {
        assert s[k] == a[k];
      } else if k >= |a| + |q| {
        assert s[k] == b[k - |a| - |q|];
      } else {
        assert s[k] == q[1..|q| - 1][k - |a| - 1];
      }
    }
    forall i: nat | i <= |s| && OccursAt(s, p, i) ensures false {
    }
  }

  function LowerByte(b: Byte): Byte {
    if 'A' <= b <= 'Z' then (b as int + 32) as char else b
  }

  /** `strings.ToLower` on the ASCII range. */
  function ToLower(s: Bytes): (r: Bytes)
    ensures |r| == |s|
    ensures forall i :: 0 <= i < |s| ==> r[i] == LowerByte(s[i])
  {
    seq(|s|, i requires 0 <= i < |s| => LowerByte(s[i]))
  }
}

=== FILE: config.dfy ===
/** Configuration loading (`config.Load`): choosing the configuration file,
    decoding its flexible `templates` list, applying the global include and
    exclude defaults, making template paths absolute and dropping blank
    ones.

    YAML decoding itself is not modelled: a configuration file arrives as
    the generic value `yaml.Unmarshal` produces, and the file system and
    `path/filepath` are parameters. */
module Config {
  import opened ByteStrings

  /** The generic values of a decoded YAML document that `Load` inspects:
      strings, lists, string-keyed maps, and anything else. */
  datatype Yaml = YString(text: Bytes) | YList(items: seq<Yaml>) | YMap(fields: map<Bytes, Yaml>) | YOther

  /** A template entry: its path and its include/exclude expressions (empty
      when not given). */
  datatype TemplateDef = TemplateDef(path: Bytes, includeExpr: Bytes, excludeExpr: Bytes)

  /** The loaded configuration: templates plus the global include/exclude. */
  datatype Config = Config(templates: seq<TemplateDef>, includeExpr: Bytes, excludeExpr: Bytes)

  /** What reading and parsing one candidate file gives: it does not exist,
      it cannot be read for another reason, it is not a YAML mapping, or
      its top-level mapping. */
  datatype ConfigFile = Missing | Unreadable | Malformed | Parsed(doc: map<Bytes, Yaml>)

  /** `filepath.Join` and `filepath.IsAbs`. */
  datatype PathOps = PathOps(join: (Bytes, Bytes) -> Bytes, isAbs: Bytes -> bool)

  datatype LoadError = ReadError(path: Bytes) | ParseError(path: Bytes)

  /** `Load`'s outcome. On error the source also returns the defaults, which
      every caller discards. */
  datatype LoadResult = Loaded(cfg: Config) | LoadFailed(err: LoadError)

  /** The keys `Load` reads from a document and from a mapping entry. */
  const TemplatesKey: Bytes := "templates"
  const IncludeKey: Bytes := "include"
  const ExcludeKey: Bytes := "exclude"
  const PathKey: Bytes := "path"

  const DefaultTemplateName: Bytes := ".header.txt"

  const CandidateNames: seq<Bytes> := [".headercheck.yaml", ".headercheck.yml", "headercheck.yaml", "headercheck.yml"]

  /** `p` made absolute against `root` when it is relative. */
  function Absolute(root: Bytes, p: Bytes, ops: PathOps): (r: Bytes)
    ensures ops.isAbs(p) ==> r == p
    ensures !ops.isAbs(p) ==> r == ops.join(root, p)
  {
    if ops.isAbs(p) then p else ops.join(root, p)
  }

  /** The files tried, in order: the explicit path alone when one is given,
      otherwise the four conventional names under the root. */
  function Candidates(explicitPath: Bytes, root: Bytes, ops: PathOps): (cs: seq<Bytes>)
    ensures explicitPath != [] ==> cs == [Absolute(root, explicitPath, ops)]
    ensures explicitPath == [] ==> |cs| == |CandidateNames|
    ensures explicitPath == [] ==> forall i :: 0 <= i < |cs| ==> cs[i] == ops.join(root, CandidateNames[i])
  {
    if explicitPath != [] then [Absolute(root, explicitPath, ops)]
    else seq(|CandidateNames|, i requires 0 <= i < |CandidateNames| => ops.join(root, CandidateNames[i]))
  }

  /** Index of the first candidate from `k` on that exists, or `|cs|`. */
  function FirstPresent(cs: seq<Bytes>, files: Bytes -> ConfigFile, k: nat): (i: nat)
    requires k <= |cs|
    ensures k <= i <= |cs|
    ensures forall j :: k <= j < i ==> files(cs[j]).Missing?
    ensures i < |cs| ==> !files(cs[i]).Missing?
    decreases |cs| - k
  {
    if k == |cs| || !files(cs[k]).Missing? then k else FirstPresent(cs, files, k + 1)
  }

  /** The outcome of the candidate loop. */
  datatype Found = NoConfig | FoundConfig(doc: map<Bytes, Yaml>) | FindFailed(err: LoadError)

  /** The candidate loop: missing files are skipped and the first file that
      exists decides, whether it parses or not. */
  function FindConfig(cs: seq<Bytes>, files: Bytes -> ConfigFile): (r: Found)
    ensures r.NoConfig? <==> forall j :: 0 <= j < |cs| ==> files(cs[j]).Missing?
    ensures r.FoundConfig? ==> exists i :: 0 <= i < |cs| && files(cs[i]) == Parsed(r.doc)
                                           && forall j :: 0 <= j < i ==> files(cs[j]).Missing?
    ensures r.FindFailed? ==> exists i :: 0 <= i < |cs| && (forall j :: 0 <= j < i ==> files(cs[j]).Missing?)
                                          && (files(cs[i]).Unreadable? ==> r.err == ReadError(cs[i]))
                                          && (files(cs[i]).Malformed? ==> r.err == ParseError(cs[i]))
                                          && !files(cs[i]).Parsed?
  {
    var i := FirstPresent(cs, files, 0);
    if i == |cs| then NoConfig
    else if files(cs[i]).Parsed? then FoundConfig(files(cs[i]).doc)
    else if files(cs[i]).Unreadable? then FindFailed(ReadError(cs[i]))
    else FindFailed(ParseError(cs[i]))
  }

  /** `v[key].(string)`, or the empty string when absent or not a string. */
  function StringField(m: map<Bytes, Yaml>, key: Bytes): (s: Bytes)
    ensures key in m && m[key].YString? ==> s == m[key].text
    ensures !(key in m && m[key].YString?) ==> s == []
  {
    if key in m && m[key].YString? then m[key].text else []
  }

  /** One item of the `templates` list: a string is a path, kept even when
      blank; a mapping is kept only when its path is not blank; anything
      else is ignored. */
  function DecodeEntry(item: Yaml): (d: Option<TemplateDef>)
    ensures item.YString? ==> d == Some(TemplateDef(item.text, [], []))
    ensures item.YMap? ==> (d.Some? <==> !IsBlank(StringField(item.fields, PathKey)))
    ensures item.YMap? && d.Some? ==>
              d.value == TemplateDef(StringField(item.fields, PathKey), StringField(item.fields, IncludeKey),
                                     StringField(item.fields, ExcludeKey))
    ensures !item.YString? && !item.YMap? ==> d.None?
  {
    match item
    case YString(v) => Some(TemplateDef(v, [], []))
    case YMap(m) =>
      var def := TemplateDef(StringField(m, PathKey), StringField(m, IncludeKey), StringField(m, ExcludeKey));
      if IsBlank(def.path) then None else Some(def)
    case _ => None
  }

  /** The decoding loop over the `templates` list. */
  function DecodeTemplates(items: seq<Yaml>): (defs: seq<TemplateDef>)
    ensures |defs| <= |items|
    ensures forall d :: d in defs ==> exists i :: 0 <= i < |items| && DecodeEntry(items[i]) == Some(d)
  {
    if items == [] then []
    else
      var rest := DecodeTemplates(items[1..]);
      assert forall i :: 1 <= i < |items| ==> items[i] == items[1..][i - 1];
      match DecodeEntry(items[0])
      case Some(d) => [d] + rest
      case None => rest
  }

  /** Decoding is item by item: a list decodes to the concatenation of its
      parts' decodings. */
  lemma {:induction false} DecodeAppend(a: seq<Yaml>, b: seq<Yaml>)
    ensures DecodeTemplates(a + b) == DecodeTemplates(a) + DecodeTemplates(b)
    decreases |a|
  {
    if a == [] {
      assert a + b == b;
    } else {
      assert (a + b)[1..] == a[1..] + b;
      DecodeAppend(a[1..], b);
    }
  }

  /** The templates a parsed document lists; empty when the key is absent
      or is not a list. */
  function DocumentTemplates(doc: map<Bytes, Yaml>): seq<TemplateDef> {
    if TemplatesKey in doc && doc[TemplatesKey].YList? then DecodeTemplates(doc[TemplatesKey].items) else []
  }

  /** A global include or exclude: taken only when a non-blank string. */
  function GlobalExpr(doc: map<Bytes, Yaml>, key: Bytes): (s: Bytes)
    ensures s == [] || (key in doc && doc[key] == YString(s) && !IsBlank(s))
    ensures key in doc && doc[key].YString? && !IsBlank(doc[key].text) ==> s == doc[key].text
  {
    if key in doc && doc[key].YString? && !IsBlank(doc[key].text) then doc[key].text else []
  }

  /** The configuration before normalization: the defaults, overridden by
      what the document gives. An empty decoded list keeps the default
      template. */
  function Overlay(defaults: Config, doc: map<Bytes, Yaml>): (cfg: Config)
    ensures DocumentTemplates(doc) != [] ==> cfg.templates == DocumentTemplates(doc)
    ensures DocumentTemplates(doc) == [] ==> cfg.templates == defaults.templates
    ensures cfg.includeExpr == GlobalExpr(doc, IncludeKey) && cfg.excludeExpr == GlobalExpr(doc, ExcludeKey)
  {
    var defs := DocumentTemplates(doc);
    Config(if |defs| > 0 then defs else defaults.templates, GlobalExpr(doc, IncludeKey), GlobalExpr(doc, ExcludeKey))
  }

  /** One template normalized: its path made absolute, and an empty include
      or exclude replaced by the global one. */
  function NormalizeTemplate(t: TemplateDef, root: Bytes, ops: PathOps, includeExpr: Bytes, excludeExpr: Bytes): (n: TemplateDef)
    ensures n.path == Absolute(root, t.path, ops)
    ensures t.includeExpr != [] ==> n.includeExpr == t.includeExpr
    ensures t.includeExpr == [] ==> n.includeExpr == includeExpr
    ensures t.excludeExpr != [] ==> n.excludeExpr == t.excludeExpr
    ensures t.excludeExpr == [] ==> n.excludeExpr == excludeExpr
  {
    TemplateDef(Absolute(root, t.path, ops),
                if t.includeExpr == [] then includeExpr else t.includeExpr,
                if t.excludeExpr == [] then excludeExpr else t.excludeExpr)
  }

  /** The normalization loop over every template. */
  function NormalizeAll(ts: seq<TemplateDef>, root: Bytes, ops: PathOps, includeExpr: Bytes, excludeExpr: Bytes): (out: seq<TemplateDef>)
    ensures |out| == |ts|
    ensures forall i :: 0 <= i < |ts| ==> out[i] == NormalizeTemplate(ts[i], root, ops, includeExpr, excludeExpr)
  {
    seq(|ts|, i requires 0 <= i < |ts| => NormalizeTemplate(ts[i], root, ops, includeExpr, excludeExpr))
  }

  /** The removal of templates with a blank path, keeping the order. */
  function DropBlank(ts: seq<TemplateDef>): (out: seq<TemplateDef>)
    ensures |out| <= |ts|
    ensures forall d :: d in out <==> d in ts && !IsBlank(d.path)
    ensures (forall i :: 0 <= i < |ts| ==> !IsBlank(ts[i].path)) ==> out == ts
  {
    if ts == [] then []
    else
      var rest := DropBlank(ts[1..]);
      assert forall d :: d in ts <==> d == ts[0] || d in ts[1..];
      if IsBlank(ts[0].path) then rest else [ts[0]] + rest
  }

  /** Normalization followed by the removal of blank paths: every template
      left has a non-blank path, and an include or exclude is empty only
      when the global one it defaulted to is. */
  function Finish(ts: seq<TemplateDef>, root: Bytes, ops: PathOps, includeExpr: Bytes, excludeExpr: Bytes): (out: seq<TemplateDef>)
    ensures |out| <= |ts|
    ensures forall i :: 0 <= i < |out| ==> !IsBlank(out[i].path)
    ensures forall i :: 0 <= i < |out| ==> (out[i].includeExpr == [] ==> includeExpr == [])
                                           && (out[i].excludeExpr == [] ==> excludeExpr == [])
    ensures (forall i :: 0 <= i < |ts| ==> !IsBlank(Absolute(root, ts[i].path, ops)))
            ==> |out| == |ts| && forall i :: 0 <= i < |ts| ==> out[i] == NormalizeTemplate(ts[i], root, ops, includeExpr, excludeExpr)
  {
    DroppedSound(NormalizeAll(ts, root, ops, includeExpr, excludeExpr), includeExpr, excludeExpr);
    if forall i :: 0 <= i < |ts| ==> !IsBlank(Absolute(root, ts[i].path, ops)) then
      NothingBlankToDrop(ts, root, ops, includeExpr, excludeExpr);
      DropBlank(NormalizeAll(ts, root, ops, includeExpr, excludeExpr))
    else
      DropBlank(NormalizeAll(ts, root, ops, includeExpr, excludeExpr))
  }

  /** What survives the drop was normalized: its include or exclude is
      empty only when the global one is. */
  lemma DroppedSound(normalized: seq<TemplateDef>, includeExpr: Bytes, excludeExpr: Bytes)
    requires forall i :: 0 <= i < |normalized| ==>
               (normalized[i].includeExpr == [] ==> includeExpr == []) && (normalized[i].excludeExpr == [] ==> excludeExpr == [])
    ensures forall i :: 0 <= i < |DropBlank(normalized)| ==>
              (DropBlank(normalized)[i].includeExpr == [] ==> includeExpr == [])
              && (DropBlank(normalized)[i].excludeExpr == [] ==> excludeExpr == [])
  {
    var out := DropBlank(normalized);
    forall i | 0 <= i < |out| ensures out[i] in normalized {
      assert out[i] in out;
    }
  }

  lemma NothingBlankToDrop(ts: seq<TemplateDef>, root: Bytes, ops: PathOps, includeExpr: Bytes, excludeExpr: Bytes)
    requires forall i :: 0 <= i < |ts| ==> !IsBlank(Absolute(root, ts[i].path, ops))
    ensures DropBlank(NormalizeAll(ts, root, ops, includeExpr, excludeExpr)) == NormalizeAll(ts, root, ops, includeExpr, excludeExpr)
  {
    var normalized := NormalizeAll(ts, root, ops, includeExpr, excludeExpr);
    assert forall i :: 0 <= i < |normalized| ==> !IsBlank(normalized[i].path);
  }

  /** The configuration used when no file is found. */
  function Defaults(root: Bytes, ops: PathOps): Config {
    Config([TemplateDef(ops.join(root, DefaultTemplateName), [], [])], [], [])
  }

  /** `Load`. */
  function Load(explicitPath: Bytes, root: Bytes, ops: PathOps, files: Bytes -> ConfigFile): (r: LoadResult)
    ensures r.Loaded? ==> forall i :: 0 <= i < |r.cfg.templates| ==> !IsBlank(r.cfg.templates[i].path)
    ensures r.Loaded? ==> forall i :: 0 <= i < |r.cfg.templates| ==>
              (r.cfg.templates[i].includeExpr == [] ==> r.cfg.includeExpr == [])
              && (r.cfg.templates[i].excludeExpr == [] ==> r.cfg.excludeExpr == [])
    ensures r.LoadFailed? <==> FindConfig(Candidates(explicitPath, root, ops), files).FindFailed?
  {
    var defaults := Defaults(root, ops);
    match FindConfig(Candidates(explicitPath, root, ops), files)
    case FindFailed(err) => LoadFailed(err)
    case NoConfig =>
      Loaded(defaults.(templates := Finish(defaults.templates, root, ops, [], [])))
    case FoundConfig(doc) =>
      var cfg := Overlay(defaults, doc);
      Loaded(cfg.(templates := Finish(cfg.templates, root, ops, cfg.includeExpr, cfg.excludeExpr)))
  }

  /** With a configuration file found, the global include and exclude are
      the document's non-blank strings, and the templates are exactly the
      normalized entries (the document's, or the default when it lists none)
      whose normalized path is not blank. */
  lemma LoadFoundConfig(explicitPath: Bytes, root: Bytes, ops: PathOps, files: Bytes -> ConfigFile, doc: map<Bytes, Yaml>)
    requires FindConfig(Candidates(explicitPath, root, ops), files) == FoundConfig(doc)
    ensures var r := Load(explicitPath, root, ops, files);
            var source := if DocumentTemplates(doc) != [] then DocumentTemplates(doc) else Defaults(root, ops).templates;
            && r.Loaded?
            && r.cfg.includeExpr == GlobalExpr(doc, IncludeKey)
            && r.cfg.excludeExpr == GlobalExpr(doc, ExcludeKey)
            && (forall t :: t in r.cfg.templates <==>
                  !IsBlank(t.path)
                  && (exists d :: d in source &&
                        t == NormalizeTemplate(d, root, ops, GlobalExpr(doc, IncludeKey), GlobalExpr(doc, ExcludeKey))))
            && r.cfg.templates
               == DropBlank(NormalizeAll(source, root, ops, GlobalExpr(doc, IncludeKey), GlobalExpr(doc, ExcludeKey)))
  {
    var cfg := Overlay(Defaults(root, ops), doc);
    NormalizedMembers(cfg.templates, root, ops, cfg.includeExpr, cfg.excludeExpr);
  }

  /** The normalized templates are exactly the normalizations of the
      given ones. */
  lemma NormalizedMembers(ts: seq<TemplateDef>, root: Bytes, ops: PathOps, includeExpr: Bytes, excludeExpr: Bytes)
    ensures forall t :: t in NormalizeAll(ts, root, ops, includeExpr, excludeExpr) <==>
              exists d :: d in ts && t == NormalizeTemplate(d, root, ops, includeExpr, excludeExpr)
  {
    var normalized := NormalizeAll(ts, root, ops, includeExpr, excludeExpr);
    forall t ensures t in normalized <==> exists d :: d in ts && t == NormalizeTemplate(d, root, ops, includeExpr, excludeExpr) {
      if t in normalized {
        var i :| 0 <= i < |normalized| && normalized[i] == t;
        assert ts[i] in ts;
      }
      if exists d :: d in ts && t == NormalizeTemplate(d, root, ops, includeExpr, excludeExpr) {
        var d :| d in ts && t == NormalizeTemplate(d, root, ops, includeExpr, excludeExpr);
        var i :| 0 <= i < |ts| && ts[i] == d;
        assert normalized[i] == t;
      }
    }
  }

  /** Entries that give no include or exclude decode with both empty. */
  lemma ListedWithoutOwnExprs(items: seq<Yaml>)
    requires forall i :: 0 <= i < |items| ==> items[i].YMap? && IncludeKey !in items[i].fields && ExcludeKey !in items[i].fields
    ensures forall d :: d in DecodeTemplates(items) ==> d.includeExpr == [] && d.excludeExpr == []
  {
    forall d | d in DecodeTemplates(items) ensures d.includeExpr == [] && d.excludeExpr == [] {
      var i :| 0 <= i < |items| && DecodeEntry(items[i]) == Some(d);
    }
  }

  /** Templates without their own include or exclude all take the global
      ones when finished. */
  lemma FinishFillsMissing(ts: seq<TemplateDef>, root: Bytes, ops: PathOps, includeExpr: Bytes, excludeExpr: Bytes)
    requires forall d :: d in ts ==> d.includeExpr == [] && d.excludeExpr == []
    ensures forall t :: t in Finish(ts, root, ops, includeExpr, excludeExpr) ==>
              t.includeExpr == includeExpr && t.excludeExpr == excludeExpr
  {
    var normalized := NormalizeAll(ts, root, ops, includeExpr, excludeExpr);
    forall t | t in Finish(ts, root, ops, includeExpr, excludeExpr)
      ensures t.includeExpr == includeExpr && t.excludeExpr == excludeExpr
    {
      assert t in normalized;
      var i :| 0 <= i < |normalized| && normalized[i] == t;
      assert ts[i] in ts;
    }
  }

  /** When no listed entry gives its own include or exclude, every loaded
      template carries the document's global ones (or none, when the
      document gives none). */
  lemma GlobalDefaultsFillMissing(explicitPath: Bytes, root: Bytes, ops: PathOps, files: Bytes -> ConfigFile,
                                  doc: map<Bytes, Yaml>)
    requires FindConfig(Candidates(explicitPath, root, ops), files) == FoundConfig(doc)
    requires TemplatesKey in doc && doc[TemplatesKey].YList?
    requires forall i :: 0 <= i < |doc[TemplatesKey].items| ==>
               doc[TemplatesKey].items[i].YMap? && IncludeKey !in doc[TemplatesKey].items[i].fields
               && ExcludeKey !in doc[TemplatesKey].items[i].fields
    ensures Load(explicitPath, root, ops, files).Loaded?
    ensures forall t :: t in Load(explicitPath, root, ops, files).cfg.templates ==>
              t.includeExpr == GlobalExpr(doc, IncludeKey) && t.excludeExpr == GlobalExpr(doc, ExcludeKey)
  {
    var cfg := Overlay(Defaults(root, ops), doc);
    ListedWithoutOwnExprs(doc[TemplatesKey].items);
    assert Defaults(root, ops).templates == [TemplateDef(ops.join(root, DefaultTemplateName), [], [])];
    FinishFillsMissing(cfg.templates, root, ops, cfg.includeExpr, cfg.excludeExpr);
  }

  /** Without a configuration file the single default template is used; its
      path, already joined with the root, is joined a second time when that
      join did not make it absolute. */
  lemma NoConfigGivesDefault(explicitPath: Bytes, root: Bytes, ops: PathOps, files: Bytes -> ConfigFile)
    requires forall c :: c in Candidates(explicitPath, root, ops) ==> files(c).Missing?
    ensures var first := ops.join(root, DefaultTemplateName);
            var path := if ops.isAbs(first) then first else ops.join(root, first);
            Load(explicitPath, root, ops, files)
            == Loaded(Config(if IsBlank(path) then [] else [TemplateDef(path, [], [])], [], []))
  {
    var cs := Candidates(explicitPath, root, ops);
    assert forall j :: 0 <= j < |cs| ==> cs[j] in cs;
  }

  /** A blank string entry is not dropped when decoded: it is made absolute
      against the root first and survives whenever that gives a non-blank
      path. A mapping entry with a blank path is dropped when decoded. */
  lemma BlankEntriesDiffer(root: Bytes, ops: PathOps, text: Bytes, fields: map<Bytes, Yaml>)
    requires IsBlank(text) && IsBlank(StringField(fields, PathKey))
    ensures DecodeTemplates([YString(text)]) == [TemplateDef(text, [], [])]
    ensures DecodeTemplates([YMap(fields)]) == []
    ensures !IsBlank(Absolute(root, text, ops)) ==>
              Finish([TemplateDef(text, [], [])], root, ops, [], []) == [TemplateDef(Absolute(root, text, ops), [], [])]
  {
    assert [YString(text)][1..] == [];
    assert [YMap(fields)][1..] == [];
    assert [TemplateDef(text, [], [])][1..] == [];
  }

  /** Dropping blank paths is element by element: a concatenation drops
      from each part, so the kept templates stay in order and keep their
      multiplicity. */
  lemma {:induction false} DropBlankAppend(a: seq<TemplateDef>, b: seq<TemplateDef>)
    ensures DropBlank(a + b) == DropBlank(a) + DropBlank(b)
    decreases |a|
  {
    if a == [] {
      assert a + b == b;
    } else {
      assert (a + b)[0] == a[0];
      assert (a + b)[1..] == a[1..] + b;
      DropBlankAppend(a[1..], b);
      if !IsBlank(a[0].path) {
        assert [a[0]] + (DropBlank(a[1..]) + DropBlank(b)) == ([a[0]] + DropBlank(a[1..])) + DropBlank(b);
      }
    }
  }

  /** Finishing is template by template: a concatenation finishes to the
      concatenation of its parts (and, by `FinishOne`, one template to
      itself normalized, or to nothing when its normalized path is blank). */
  lemma FinishAppend(a: seq<TemplateDef>, b: seq<TemplateDef>, root: Bytes, ops: PathOps, includeExpr: Bytes, excludeExpr: Bytes)
    ensures Finish(a + b, root, ops, includeExpr, excludeExpr)
            == Finish(a, root, ops, includeExpr, excludeExpr) + Finish(b, root, ops, includeExpr, excludeExpr)
  {
    var na := NormalizeAll(a, root, ops, includeExpr, excludeExpr);
    var nb := NormalizeAll(b, root, ops, includeExpr, excludeExpr);
    NormalizeAllAppend(a, b, root, ops, includeExpr, excludeExpr);
    DropBlankAppend(na, nb);
  }

  lemma NormalizeAllAppend(a: seq<TemplateDef>, b: seq<TemplateDef>, root: Bytes, ops: PathOps, includeExpr: Bytes, excludeExpr: Bytes)
    ensures NormalizeAll(a + b, root, ops, includeExpr, excludeExpr)
            == NormalizeAll(a, root, ops, includeExpr, excludeExpr) + NormalizeAll(b, root, ops, includeExpr, excludeExpr)
  {
  }

  lemma FinishOne(d: TemplateDef, root: Bytes, ops: PathOps, includeExpr: Bytes, excludeExpr: Bytes)
    ensures Finish([d], root, ops, includeExpr, excludeExpr)
            == if IsBlank(Absolute(root, d.path, ops)) then [] else [NormalizeTemplate(d, root, ops, includeExpr, excludeExpr)]
  {
    var n := NormalizeAll([d], root, ops, includeExpr, excludeExpr);
    assert n == [NormalizeTemplate(d, root, ops, includeExpr, excludeExpr)];
    assert n[1..] == [];
  }

  /** The candidate loop stops at the same index for two file systems that
      agree on the candidates from `k` on. */
  lemma {:induction false} FirstPresentAgrees(cs: seq<Bytes>, f1: Bytes -> ConfigFile, f2: Bytes -> ConfigFile, k: nat)
    requires k <= |cs|
    requires forall j :: k <= j < |cs| ==> f1(cs[j]) == f2(cs[j])
    ensures FirstPresent(cs, f1, k) == FirstPresent(cs, f2, k)
    decreases |cs| - k
  {
    if k < |cs| && f1(cs[k]).Missing? {
      FirstPresentAgrees(cs, f1, f2, k + 1);
    }
  }

  /** `Load` reads nothing but its candidates: two file systems that agree
      on them load the same configuration. With an explicit path that one
      file alone decides, so a missing explicit file gives the defaults even
      when a conventionally named file exists. */
  lemma OnlyCandidatesAreRead(explicitPath: Bytes, root: Bytes, ops: PathOps, f1: Bytes -> ConfigFile, f2: Bytes -> ConfigFile)
    requires forall c :: c in Candidates(explicitPath, root, ops) ==> f1(c) == f2(c)
    ensures Load(explicitPath, root, ops, f1) == Load(explicitPath, root, ops, f2)
  {
    var cs := Candidates(explicitPath, root, ops);
    assert forall j :: 0 <= j < |cs| ==> cs[j] in cs;
    FindConfigAgrees(cs, f1, f2);
  }

  lemma FindConfigAgrees(cs: seq<Bytes>, f1: Bytes -> ConfigFile, f2: Bytes -> ConfigFile)
    requires forall j :: 0 <= j < |cs| ==> f1(cs[j]) == f2(cs[j])
    ensures FindConfig(cs, f1) == FindConfig(cs, f2)
  {
    FirstPresentAgrees(cs, f1, f2, 0);
  }

  lemma ExplicitPathDecides(explicitPath: Bytes, root: Bytes, ops: PathOps, f1: Bytes -> ConfigFile, f2: Bytes -> ConfigFile)
    requires explicitPath != []
    requires f1(Absolute(root, explicitPath, ops)) == f2(Absolute(root, explicitPath, ops))
    ensures Load(explicitPath, root, ops, f1) == Load(explicitPath, root, ops, f2)
    ensures f1(Absolute(root, explicitPath, ops)).Missing? ==> Load(explicitPath, root, ops, f1) == Load([], root, ops, _ => Missing)
  {
    OnlyCandidatesAreRead(explicitPath, root, ops, f1, f2);
    if f1(Absolute(root, explicitPath, ops)).Missing? {
      NoConfigGivesDefault(explicitPath, root, ops, f1);
      NoConfigGivesDefault([], root, ops, _ => Missing);
    }
  }

  /** A document whose `templates` decode to nothing (absent, not a list, or
      no usable entry) keeps the default template, which then takes the
      document's global include and exclude. */
  lemma UnusableListKeepsDefault(explicitPath: Bytes, root: Bytes, ops: PathOps, files: Bytes -> ConfigFile,
                                 doc: map<Bytes, Yaml>)
    requires FindConfig(Candidates(explicitPath, root, ops), files) == FoundConfig(doc)
    requires DocumentTemplates(doc) == []
    ensures var inc := GlobalExpr(doc, IncludeKey);
            var exc := GlobalExpr(doc, ExcludeKey);
            var path := Absolute(root, ops.join(root, DefaultTemplateName), ops);
            Load(explicitPath, root, ops, files)
            == Loaded(Config(if IsBlank(path) then [] else [TemplateDef(path, inc, exc)], inc, exc))
  {
    var d := TemplateDef(ops.join(root, DefaultTemplateName), [], []);
    FinishOne(d, root, ops, GlobalExpr(doc, IncludeKey), GlobalExpr(doc, ExcludeKey));
  }

  /** Entries of any other kind are ignored, and so are mappings without a
      usable path. */
  lemma {:induction false} UnusableEntriesIgnored(items: seq<Yaml>)
    requires forall i :: 0 <= i < |items| ==>
               !items[i].YString? && (items[i].YMap? ==> IsBlank(StringField(items[i].fields, PathKey)))
    ensures DecodeTemplates(items) == []
    decreases |items|
  {
    if items != [] {
      assert forall i :: 0 <= i < |items[1..]| ==> items[1..][i] == items[i + 1];
      UnusableEntriesIgnored(items[1..]);
    }
  }

  /** Normalizing twice is normalizing once when joining with the root gives
      an absolute path: the path is then left alone and the include and
      exclude are no longer empty to be filled (or stay empty). */
  lemma NormalizeIdempotent(t: TemplateDef, root: Bytes, ops: PathOps, includeExpr: Bytes, excludeExpr: Bytes)
    requires ops.isAbs(Absolute(root, t.path, ops))
    ensures var n := NormalizeTemplate(t, root, ops, includeExpr, excludeExpr);
            NormalizeTemplate(n, root, ops, includeExpr, excludeExpr) == n
  {
  }

  /** Without global expressions normalization only resolves the path:
      an entry's own include and exclude, given or empty, are kept. */
  lemma NormalizeWithoutGlobals(t: TemplateDef, root: Bytes, ops: PathOps)
    ensures NormalizeTemplate(t, root, ops, [], []) == t.(path := Absolute(root, t.path, ops))
  {
  }

  /** The document of `TestLoad_ParsesTemplatesStringAndObjects`: a string
      entry, a mapping entry with its own include and exclude, and a global
      include. */
  const HeaderTxt: Bytes := ".header.txt"
  const FooTxt: Bytes := "foo.txt"
  const SrcOnly: Bytes := "^src/"
  const NoVendor: Bytes := "^vendor/"
  const GoOnly: Bytes := ".*\\.go$"
  const FooEntry: map<Bytes, Yaml> := map[PathKey := YString(FooTxt), IncludeKey := YString(SrcOnly), ExcludeKey := YString(NoVendor)]
  const MixedItems: seq<Yaml> := [YString(HeaderTxt), YMap(FooEntry)]
  const MixedDoc: map<Bytes, Yaml> := map[TemplatesKey := YList(MixedItems), IncludeKey := YString(GoOnly)]

  lemma NotBlank(s: Bytes)
    requires |s| > 0 && !IsSpace(s[0])
    ensures !IsBlank(s)
  {
    BlankIffAllSpace(s);
  }

  /** A string entry and a mapping entry decode, in order, to a bare path
      and to a path with the mapping's include and exclude. */
  lemma MixedEntriesDecode()
    ensures DecodeTemplates(MixedItems) == [TemplateDef(HeaderTxt, [], []), TemplateDef(FooTxt, SrcOnly, NoVendor)]
  {
    assert MixedItems == [YString(HeaderTxt)] + [YMap(FooEntry)];
    DecodeAppend([YString(HeaderTxt)], [YMap(FooEntry)]);
    StringEntryDecodes();
    FooEntryDecodes();
  }

  lemma StringEntryDecodes()
    ensures DecodeTemplates([YString(HeaderTxt)]) == [TemplateDef(HeaderTxt, [], [])]
  {
    assert [YString(HeaderTxt)][1..] == [];
  }

  lemma FooEntryDecodes()
    ensures DecodeTemplates([YMap(FooEntry)]) == [TemplateDef(FooTxt, SrcOnly, NoVendor)]
  {
    NotBlank(FooTxt);
    assert StringField(FooEntry, PathKey) == FooTxt;
    assert StringField(FooEntry, IncludeKey) == SrcOnly;
    assert StringField(FooEntry, ExcludeKey) == NoVendor;
    assert [YMap(FooEntry)][1..] == [];
  }

  /** What `Load` reads from that document. */
  lemma MixedDocFields()
    ensures DocumentTemplates(MixedDoc) == [TemplateDef(HeaderTxt, [], []), TemplateDef(FooTxt, SrcOnly, NoVendor)]
    ensures GlobalExpr(MixedDoc, IncludeKey) == GoOnly && GlobalExpr(MixedDoc, ExcludeKey) == []
  {
    MixedDocTemplates();
    MixedDocGlobals();
  }

  lemma MixedDocTemplates()
    ensures DocumentTemplates(MixedDoc) == [TemplateDef(HeaderTxt, [], []), TemplateDef(FooTxt, SrcOnly, NoVendor)]
  {
    MixedEntriesDecode();
    assert MixedDoc[TemplatesKey] == YList(MixedItems);
  }

  lemma MixedDocGlobals()
    ensures GlobalExpr(MixedDoc, IncludeKey) == GoOnly && GlobalExpr(MixedDoc, ExcludeKey) == []
  {
    NotBlank(GoOnly);
    assert IncludeKey in MixedDoc && MixedDoc[IncludeKey] == YString(GoOnly);
    assert ExcludeKey !in MixedDoc;
  }

  /** Two templates whose resolved paths are not blank are both kept,
      normalized, in order. */
  lemma FinishKeepsTwo(d0: TemplateDef, d1: TemplateDef, root: Bytes, ops: PathOps, includeExpr: Bytes, excludeExpr: Bytes)
    requires !IsBlank(Absolute(root, d0.path, ops)) && !IsBlank(Absolute(root, d1.path, ops))
    ensures Finish([d0, d1], root, ops, includeExpr, excludeExpr)
            == [NormalizeTemplate(d0, root, ops, includeExpr, excludeExpr), NormalizeTemplate(d1, root, ops, includeExpr, excludeExpr)]
  {
    assert [d0, d1] == [d0] + [d1];
    FinishAppend([d0], [d1], root, ops, includeExpr, excludeExpr);
    FinishOne(d0, root, ops, includeExpr, excludeExpr);
    FinishOne(d1, root, ops, includeExpr, excludeExpr);
  }

  /** `TestLoad_ParsesTemplatesStringAndObjects`: both entries are loaded in
      order with their paths resolved against the root; the mapping keeps
      its own include and exclude, and the string entry takes the global
      include (the document gives no global exclude). */
  lemma ParsesStringAndObjects(explicitPath: Bytes, root: Bytes, ops: PathOps, files: Bytes -> ConfigFile)
    requires FindConfig(Candidates(explicitPath, root, ops), files) == FoundConfig(MixedDoc)
    requires !IsBlank(Absolute(root, HeaderTxt, ops)) && !IsBlank(Absolute(root, FooTxt, ops))
    ensures Load(explicitPath, root, ops, files)
            == Loaded(Config([TemplateDef(Absolute(root, HeaderTxt, ops), GoOnly, []),
                              TemplateDef(Absolute(root, FooTxt, ops), SrcOnly, NoVendor)], GoOnly, []))
  {
    MixedDocFields();
    FinishKeepsTwo(TemplateDef(HeaderTxt, [], []), TemplateDef(FooTxt, SrcOnly, NoVendor), root, ops, GoOnly, []);
  }
}

=== FILE: locator.dfy ===
/** The header locator: where the shebang line ends, which lines are
    top-of-file directives or comments, and where the leading comment block
    (the header region) starts and ends.

    Lines are the `\n`-terminated pieces that `bytes.IndexByte(.., '\n')` and
    `bufio.Reader.ReadString('\n')` produce; the last line may lack its
    newline. */
module Locator {
  import opened ByteStrings

  /** One past the end of the line starting at `p`: one past the first `\n`
      at or after `p`, or `|c|` when there is none. */
  function LineEnd(c: Bytes, p: nat): (e: nat)
    requires p < |c|
    ensures p < e <= |c|
    ensures forall i :: p <= i < e - 1 ==> c[i] != '\n'
    ensures e == |c| || c[e - 1] == '\n'
    decreases |c| - p
  {
    if c[p] == '\n' then p + 1
    else if p + 1 == |c| then |c|
    else LineEnd(c, p + 1)
  }

  /** The line starting at `p`, with its newline when it has one. */
  function Line(c: Bytes, p: nat): Bytes
    requires p < |c|
  {
    c[p..LineEnd(c, p)]
  }

  /** Every line that starts in `[p, q)` (a scan begun at `p`) is accepted. */
  ghost predicate LinesAccepted(c: Bytes, p: nat, q: nat, accept: Bytes -> bool)
    requires p <= q <= |c|
  {
    forall i {:trigger Line(c, i)} :: p <= i < q && (i == p || c[i - 1] == '\n') ==> accept(Line(c, i))
  }

  /** `q` ends a line of a scan begun at `p` (or is the end of the content). */
  predicate AtLineBoundary(c: Bytes, p: nat, q: nat)
    requires p <= q <= |c|
  {
    q == p || q == |c| || c[q - 1] == '\n'
  }

  /** Advances line by line from `p` while `accept` holds of the line; the
      loop shape shared by `skipBlankAndDirectives`, the header collection of
      `detectHeaderBlock` and the two block scans of the upsert. */
  function ScanLines(c: Bytes, p: nat, accept: Bytes -> bool): (q: nat)
    requires p <= |c|
    ensures p <= q <= |c|
    ensures AtLineBoundary(c, p, q)
    ensures LinesAccepted(c, p, q, accept)
    ensures q < |c| ==> !accept(Line(c, q))
    decreases |c| - p
  {
    if p == |c| || !accept(Line(c, p)) then p
    else
      var e := LineEnd(c, p);
      ScanLines(c, e, accept)
  }

  /** `findShebangEnd`: zero unless the content starts with `#!`; otherwise
      one past the first newline, or the whole content when it has none. */
  function FindShebangEnd(c: Bytes): (r: nat)
    ensures r <= |c|
    ensures !("#!" <= c) ==> r == 0
    ensures "#!" <= c ==>
      && 2 <= r
      && (forall i :: 0 <= i < r - 1 ==> c[i] != '\n')
      && (r == |c| || c[r - 1] == '\n')
  {
    if "#!" <= c then LineEnd(c, 0) else 0
  }

  /** `isLineComment`: blank, or starting (after trimming) with one of the
      line or block comment markers `//`, `#`, `;`, `/*`, `*`, `*/`. */
  predicate IsLineComment(line: Bytes) {
    var s := TrimSpace(line);
    s == [] || "//" <= s || "#" <= s || ";" <= s || "/*" <= s || "*" <= s || "*/" <= s
  }

  /** `isGoPreambleDirective`: `//go:*`, `// +build`, `//nolint*`, `//lint:*`
      (spaces allowed after the slashes), or `#` followed by `shellcheck` in
      any letter case. */
  predicate IsGoPreambleDirective(line: Bytes) {
    var s := TrimSpace(line);
    if !("//" <= s) then
      "#" <= s && "shellcheck" <= ToLower(TrimSpace(s[1..]))
    else
      var t := TrimSpace(s[2..]);
      t != [] && ("go:" <= t || "+build" <= t || "nolint" <= t || "lint:" <= t)
  }

  predicate IsBlankOrDirective(line: Bytes) {
    IsBlank(line) || IsGoPreambleDirective(line)
  }

  /** A line that may belong to a header: a comment or blank line that is not
      a directive. */
  predicate IsHeaderLine(line: Bytes) {
    IsLineComment(line) && !IsGoPreambleDirective(line)
  }

  /** `skipBlankAndDirectives`: the end of the run of blank and directive
      lines starting at `p`. */
  function SkipBlankAndDirectives(c: Bytes, p: nat): (q: nat)
    requires p <= |c|
    ensures p <= q <= |c|
    ensures AtLineBoundary(c, p, q)
    ensures LinesAccepted(c, p, q, IsBlankOrDirective)
    ensures q < |c| ==> !IsBlankOrDirective(Line(c, q))
  {
    ScanLines(c, p, IsBlankOrDirective)
  }

  /** `(header, start, end)` as returned by `detectHeaderBlock`. */
  datatype Region = Region(header: Bytes, start: nat, end: nat)

  /** Where header detection begins: after the shebang and the leading run
      of blank and directive lines. */
  function HeaderSearchStart(c: Bytes): (p: nat)
    ensures FindShebangEnd(c) <= p <= |c|
  {
    SkipBlankAndDirectives(c, FindShebangEnd(c))
  }

  /** `detectHeaderBlock`: the contiguous comment block at the search start,
      or `(empty, 0, 0)` when that position holds no comment line. */
  function DetectHeaderBlock(c: Bytes): (r: Region)
    ensures r.header == [] <==>
              (HeaderSearchStart(c) == |c| || !IsHeaderLine(Line(c, HeaderSearchStart(c))))
    ensures r.header == [] ==> r.start == 0 && r.end == 0
    ensures r.header != [] ==>
              && FindShebangEnd(c) <= r.start < r.end <= |c|
              && r.start == HeaderSearchStart(c)
              && r.header == c[r.start..r.end]
              && !IsBlank(Line(c, r.start))
              && AtLineBoundary(c, r.start, r.end)
              && (r.end == |c| || !IsHeaderLine(Line(c, r.end)))
              && LinesAccepted(c, r.start, r.end, IsHeaderLine)
  {
    var pos := HeaderSearchStart(c);
    var q := ScanLines(c, pos, IsHeaderLine);
    if q == pos then Region([], 0, 0) else Region(c[pos..q], pos, q)
  }

  /** A line that starts inside `[p, q)`, where `q` ends a line, ends no
      later than `q`. */
  lemma LineEndWithin(c: Bytes, p: nat, q: nat)
    requires p < q <= |c|
    requires AtLineBoundary(c, p, q)
    ensures LineEnd(c, p) <= q
  {
  }

  /** A slice that extends a non-blank slice is not blank. */
  lemma WiderSliceNotBlank(c: Bytes, s: nat, k: nat, e: nat)
    requires s <= k <= e <= |c|
    requires !IsBlank(c[s..k])
    ensures !IsBlank(c[s..e])
  {
    BlankIffAllSpace(c[s..k]);
    BlankIffAllSpace(c[s..e]);
    var j :| 0 <= j < k - s && !IsSpace(c[s..k][j]);
    assert c[s..e][j] == c[s..k][j];
  }

  /** A detected header always holds some non-blank text: its first line is
      not blank. */
  lemma DetectedHeaderNotBlank(c: Bytes)
    ensures DetectHeaderBlock(c).header != [] ==> !IsBlank(DetectHeaderBlock(c).header)
  {
    var r := DetectHeaderBlock(c);
    if r.header != [] {
      LineEndWithin(c, r.start, r.end);
      WiderSliceNotBlank(c, r.start, LineEnd(c, r.start), r.end);
    }
  }

  /** Every directive is also a comment line, which is why header collection
      has to exclude directives explicitly. */
  lemma DirectiveIsComment(line: Bytes)
    ensures IsGoPreambleDirective(line) ==> IsLineComment(line) && !IsBlank(line)
  {
  }

  /** Lines are classified on their trimmed text: indentation and trailing
      whitespace change neither comment nor directive status. */
  lemma IndentationIgnored(ws1: Bytes, line: Bytes, ws2: Bytes)
    requires AllSpace(ws1) && AllSpace(ws2)
    ensures TrimSpace(ws1 + line + ws2) == TrimSpace(line)
    ensures IsLineComment(ws1 + line + ws2) <==> IsLineComment(line)
    ensures IsGoPreambleDirective(ws1 + line + ws2) <==> IsGoPreambleDirective(line)
    ensures IsHeaderLine(ws1 + line + ws2) <==> IsHeaderLine(line)
  {
    TrimPadding(ws1, line, ws2, IsSpace);
  }
}

=== FILE: matcher.dfy ===
/** The header matcher: structural equality (equal once trailing CR/LF are
    dropped) and semantic equality (equal once variable-looking tokens are
    masked and whitespace runs collapsed).

    The five masking regular expressions are an abstract `Mask`; only the
    date pass is given concretely (`MaskDates`), and only on whole dates. */
module Matcher {
  import opened ByteStrings

  /** The masking step of the semantic comparison: dates, times, e-mail
      addresses, hex hashes and years replaced by placeholders. */
  type Mask = Bytes -> Bytes

  /** RE2's `\s`: tab, LF, FF, CR and space (vertical tab is not included). */
  predicate IsRegexSpace(b: Byte) {
    b == ' ' || b == '\t' || b == '\n' || b as int == 0x0C || b == '\r'
  }

  /** The bytes of `s` that are not `\s`, in order. */
  function NonSpace(s: Bytes): (r: Bytes)
    ensures |r| <= |s|
  {
    if s == [] then []
    else if IsRegexSpace(s[0]) then NonSpace(s[1..])
    else [s[0]] + NonSpace(s[1..])
  }

  lemma {:induction false} NonSpaceSkipsSpaceRun(s: Bytes)
    ensures NonSpace(TrimLeft(s, IsRegexSpace)) == NonSpace(s)
    decreases |s|
  {
    if |s| > 0 && IsRegexSpace(s[0]) {
      NonSpaceSkipsSpaceRun(s[1..]);
    }
  }

  /** `regexp.MustCompile(`\s+`).ReplaceAllString(text, " ")`. */
  function CollapseSpace(s: Bytes): (r: Bytes)
    ensures |s| > 0 ==> |r| > 0 && (r[0] == ' ' <==> IsRegexSpace(s[0]))
    ensures forall i :: 0 <= i < |r| ==> r[i] == ' ' || !IsRegexSpace(r[i])
    ensures forall i :: 0 < i < |r| && r[i] == ' ' ==> r[i - 1] != ' '
    ensures NonSpace(r) == NonSpace(s)
    decreases |s|
  {
    if s == [] then []
    else if IsRegexSpace(s[0]) then
      var t := TrimLeft(s, IsRegexSpace);
      assert |t| < |s|;
      NonSpaceSkipsSpaceRun(s);
      [' '] + CollapseSpace(t)
    else
      [s[0]] + CollapseSpace(s[1..])
  }

  lemma {:induction false} LeadingCutAppend(a: Bytes, t: Bytes, cut: Byte -> bool)
    requires |a| > 0 && !cut(a[|a| - 1])
    ensures LeadingCut(a + t, cut) == LeadingCut(a, cut)
    decreases |a|
  {
    if cut(a[0]) {
      assert (a + t)[1..] == a[1..] + t;
      LeadingCutAppend(a[1..], t, cut);
    }
  }

  /** A run made only of `\s` bytes collapses to one space. */
  lemma SpaceRunCollapses(t: Bytes)
    requires |t| > 0 && forall i :: 0 <= i < |t| ==> IsRegexSpace(t[i])
    ensures CollapseSpace(t) == " "
  {
    assert LeadingCut(t, IsRegexSpace) == |t|;
  }

  /** A trailing run of `\s` bytes collapses to one space, whatever its
      length. */
  lemma {:induction false} CollapseTrailingSpace(a: Bytes, t: Bytes)
    requires |a| > 0 && !IsRegexSpace(a[|a| - 1])
    requires |t| > 0 && forall i :: 0 <= i < |t| ==> IsRegexSpace(t[i])
    ensures CollapseSpace(a + t) == CollapseSpace(a) + " "
    decreases |a|, 1
  {
    if IsRegexSpace(a[0]) {
      CollapseTrailingAfterRun(a, t);
    } else if |a| == 1 {
      assert (a + t)[1..] == t;
      SpaceRunCollapses(t);
    } else {
      CollapseTrailingAfterWord(a, t);
    }
  }

  lemma {:induction false} CollapseTrailingAfterRun(a: Bytes, t: Bytes)
    requires |a| > 0 && IsRegexSpace(a[0]) && !IsRegexSpace(a[|a| - 1])
    requires |t| > 0 && forall i :: 0 <= i < |t| ==> IsRegexSpace(t[i])
    ensures CollapseSpace(a + t) == CollapseSpace(a) + " "
    decreases |a|, 0
  {
    LeadingCutAppend(a, t, IsRegexSpace);
    var n := LeadingCut(a, IsRegexSpace);
    assert 0 < n < |a|;
    assert (a + t)[n..] == a[n..] + t;
    CollapseTrailingSpace(a[n..], t);
  }

  lemma {:induction false} CollapseTrailingAfterWord(a: Bytes, t: Bytes)
    requires |a| > 1 && !IsRegexSpace(a[0]) && !IsRegexSpace(a[|a| - 1])
    requires |t| > 0 && forall i :: 0 <= i < |t| ==> IsRegexSpace(t[i])
    ensures CollapseSpace(a + t) == CollapseSpace(a) + " "
    decreases |a|, 0
  {
    assert (a + t)[1..] == a[1..] + t;
    CollapseTrailingSpace(a[1..], t);
  }

  /** A run of `\s` bytes between two non-space bytes (or at either end)
      becomes exactly one space, and the text on each side collapses on its
      own. */
  lemma {:induction false} CollapseInteriorSpace(a: Bytes, t: Bytes, b: Bytes)
    requires a == [] || !IsRegexSpace(a[|a| - 1])
    requires |t| > 0 && forall i :: 0 <= i < |t| ==> IsRegexSpace(t[i])
    requires b == [] || !IsRegexSpace(b[0])
    ensures CollapseSpace(a + t + b) == CollapseSpace(a) + " " + CollapseSpace(b)
    decreases |a|, 1
  {
    if a == [] {
      assert a + t + b == t + b;
      CollapseLeadingRun(t, b);
    } else if IsRegexSpace(a[0]) {
      CollapseInteriorAfterRun(a, t, b);
    } else {
      CollapseInteriorAfterWord(a, t, b);
    }
  }

  lemma {:induction false} CollapseInteriorAfterRun(a: Bytes, t: Bytes, b: Bytes)
    requires |a| > 0 && IsRegexSpace(a[0]) && !IsRegexSpace(a[|a| - 1])
    requires |t| > 0 && forall i :: 0 <= i < |t| ==> IsRegexSpace(t[i])
    requires b == [] || !IsRegexSpace(b[0])
    ensures CollapseSpace(a + t + b) == CollapseSpace(a) + " " + CollapseSpace(b)
    decreases |a|, 0
  {
    var n := LeadingCut(a, IsRegexSpace);
    CollapseStepSpace(a, t + b);
    var w := a[n..];
    assert w == [] || !IsRegexSpace(w[|w| - 1]);
    calc {
      CollapseSpace(a + t + b);
      == { Assoc(a, t, b); }
      CollapseSpace(a + (t + b));
      ==
      " " + CollapseSpace(w + (t + b));
      == { Assoc(w, t, b); }
      " " + CollapseSpace(w + t + b);
      == { CollapseInteriorSpace(w, t, b); }
      " " + (CollapseSpace(w) + " " + CollapseSpace(b));
      == { Regroup3(" ", CollapseSpace(w), CollapseSpace(b)); }
      (" " + CollapseSpace(w)) + " " + CollapseSpace(b);
      ==
      CollapseSpace(a) + " " + CollapseSpace(b);
    }
  }

  lemma {:induction false} CollapseInteriorAfterWord(a: Bytes, t: Bytes, b: Bytes)
    requires |a| > 0 && !IsRegexSpace(a[0]) && !IsRegexSpace(a[|a| - 1])
    requires |t| > 0 && forall i :: 0 <= i < |t| ==> IsRegexSpace(t[i])
    requires b == [] || !IsRegexSpace(b[0])
    ensures CollapseSpace(a + t + b) == CollapseSpace(a) + " " + CollapseSpace(b)
    decreases |a|, 0
  {
    var w := a[1..];
    assert w == [] || !IsRegexSpace(w[|w| - 1]);
    calc {
      CollapseSpace(a + t + b);
      == { Assoc(a, t, b); }
      CollapseSpace(a + (t + b));
      == { CollapseStepWord(a, t + b); }
      [a[0]] + CollapseSpace(w + (t + b));
      == { Assoc(w, t, b); }
      [a[0]] + CollapseSpace(w + t + b);
      == { CollapseInteriorSpace(w, t, b); }
      [a[0]] + (CollapseSpace(w) + " " + CollapseSpace(b));
      == { Regroup3([a[0]], CollapseSpace(w), CollapseSpace(b)); }
      ([a[0]] + CollapseSpace(w)) + " " + CollapseSpace(b);
      == { CollapseStepWord(a, t + b); }
      CollapseSpace(a) + " " + CollapseSpace(b);
    }
  }

  /** A leading `\s` run of `a`, which ends in a non-space byte, collapses
      alike whatever follows `a`. */
  lemma CollapseStepSpace(a: Bytes, rest: Bytes)
    requires |a| > 0 && IsRegexSpace(a[0]) && !IsRegexSpace(a[|a| - 1])
    ensures var n := LeadingCut(a, IsRegexSpace);
            && n < |a|
            && CollapseSpace(a + rest) == " " + CollapseSpace(a[n..] + rest)
            && CollapseSpace(a) == " " + CollapseSpace(a[n..])
  {
    var n := LeadingCut(a, IsRegexSpace);
    LeadingCutAppend(a, rest, IsRegexSpace);
    assert (a + rest)[n..] == a[n..] + rest;
  }

  /** A leading non-space byte is kept whatever follows. */
  lemma CollapseStepWord(a: Bytes, rest: Bytes)
    requires |a| > 0 && !IsRegexSpace(a[0])
    ensures CollapseSpace(a + rest) == [a[0]] + CollapseSpace(a[1..] + rest)
    ensures CollapseSpace(a) == [a[0]] + CollapseSpace(a[1..])
  {
    assert (a + rest)[1..] == a[1..] + rest;
  }

  lemma Regroup3(x: Bytes, y: Bytes, z: Bytes)
    ensures x + (y + " " + z) == (x + y) + " " + z
  {
  }

  /** A leading `\s` run collapses to one space in front of the rest. */
  lemma CollapseLeadingRun(t: Bytes, b: Bytes)
    requires |t| > 0 && forall i :: 0 <= i < |t| ==> IsRegexSpace(t[i])
    requires b == [] || !IsRegexSpace(b[0])
    ensures CollapseSpace(t + b) == " " + CollapseSpace(b)
  {
    LeadingCutOfRun(t, b);
    assert (t + b)[|t|..] == b;
  }

  /** A leading run of `\s` bytes followed by a non-space byte (or nothing)
      is cut whole. */
  lemma {:induction false} LeadingCutOfRun(t: Bytes, b: Bytes)
    requires forall i :: 0 <= i < |t| ==> IsRegexSpace(t[i])
    requires b == [] || !IsRegexSpace(b[0])
    ensures LeadingCut(t + b, IsRegexSpace) == |t|
    decreases |t|
  {
    if t == [] {
      assert t + b == b;
    } else {
      assert (t + b)[1..] == t[1..] + b;
      LeadingCutOfRun(t[1..], b);
    }
  }

  /** The `sanitize` closure of `headerSemanticallyMatches`. */
  function Sanitize(s: Bytes, mask: Mask): Bytes {
    TrimSpace(CollapseSpace(mask(s)))
  }

  /** `headerSemanticallyMatches`: never true for an empty argument;
      otherwise the sanitized forms are byte-equal. */
  function SemanticallyMatches(existing: Bytes, expected: Bytes, mask: Mask): (r: bool)
    ensures r ==> |existing| > 0 && |expected| > 0
    ensures r ==> Sanitize(existing, mask) == Sanitize(expected, mask)
    ensures |existing| > 0 && |expected| > 0 && Sanitize(existing, mask) == Sanitize(expected, mask) ==> r
  {
    if |existing| == 0 || |expected| == 0 then false
    else Sanitize(existing, mask) == Sanitize(expected, mask)
  }

  /** On non-empty headers semantic matching is an equivalence. */
  lemma SemanticMatchIsEquivalence(a: Bytes, b: Bytes, c: Bytes, mask: Mask)
    ensures |a| > 0 ==> SemanticallyMatches(a, a, mask)
    ensures SemanticallyMatches(a, b, mask) <==> SemanticallyMatches(b, a, mask)
    ensures SemanticallyMatches(a, b, mask) && SemanticallyMatches(b, c, mask) ==> SemanticallyMatches(a, c, mask)
    ensures !SemanticallyMatches([], a, mask) && !SemanticallyMatches(a, [], mask)
  {
  }

  /** Two headers that differ only in the whitespace between two words
      (spaces against a tab, one line break against several) match
      semantically. The masks are abstract; the lemma asks only what the
      real passes guarantee: none of their patterns matches whitespace, so a
      `\s` run between two texts survives masking and each side is masked
      on its own, and masking leaves no `\s` byte at the seam. */
  lemma InteriorSpaceRunsMatch(a: Bytes, t: Bytes, u: Bytes, b: Bytes, mask: Mask)
    requires mask(a) == [] || !IsRegexSpace(mask(a)[|mask(a)| - 1])
    requires mask(b) == [] || !IsRegexSpace(mask(b)[0])
    requires |t| > 0 && forall i :: 0 <= i < |t| ==> IsRegexSpace(t[i])
    requires |u| > 0 && forall i :: 0 <= i < |u| ==> IsRegexSpace(u[i])
    requires mask(a + t + b) == mask(a) + t + mask(b) && mask(a + u + b) == mask(a) + u + mask(b)
    ensures SemanticallyMatches(a + t + b, a + u + b, mask)
  {
    CollapseInteriorSpace(mask(a), t, mask(b));
    CollapseInteriorSpace(mask(a), u, mask(b));
  }

  /** Two headers that differ only in the length of their trailing
      whitespace run (say, one blank line more) match semantically, under
      the same whitespace law of the masks. */
  lemma TrailingBlankLinesMatch(a: Bytes, t: Bytes, u: Bytes, mask: Mask)
    requires |mask(a)| > 0 && !IsRegexSpace(mask(a)[|mask(a)| - 1])
    requires |t| > 0 && forall i :: 0 <= i < |t| ==> IsRegexSpace(t[i])
    requires |u| > 0 && forall i :: 0 <= i < |u| ==> IsRegexSpace(u[i])
    requires mask(a + t) == mask(a) + t && mask(a + u) == mask(a) + u
    ensures SemanticallyMatches(a + t, a + u, mask)
  {
    CollapseTrailingSpace(mask(a), t);
    CollapseTrailingSpace(mask(a), u);
  }

  /** `headersStructurallyEqual`: equal once trailing CR/LF bytes are
      dropped. */
  predicate StructurallyEqual(a: Bytes, b: Bytes) {
    TrimRight(a, IsCRLF) == TrimRight(b, IsCRLF)
  }

  predicate AllCRLF(s: Bytes) {
    forall i :: 0 <= i < |s| ==> IsCRLF(s[i])
  }

  /** Structural equality, characterized without trimming: the two headers
      share a prefix and each continues it with CR/LF bytes only. */
  lemma StructurallyEqualIff(a: Bytes, b: Bytes)
    ensures StructurallyEqual(a, b) <==>
              exists k :: 0 <= k <= |a| && k <= |b| && a[..k] == b[..k] && AllCRLF(a[k..]) && AllCRLF(b[k..])
  {
    if StructurallyEqual(a, b) {
      EqualTrimmedShareAPrefix(a, b);
    }
    if exists k :: 0 <= k <= |a| && k <= |b| && a[..k] == b[..k] && AllCRLF(a[k..]) && AllCRLF(b[k..]) {
      var k :| 0 <= k <= |a| && k <= |b| && a[..k] == b[..k] && AllCRLF(a[k..]) && AllCRLF(b[k..]);
      SharedPrefixEqualTrimmed(a, b, k);
    }
  }

  lemma EqualTrimmedShareAPrefix(a: Bytes, b: Bytes)
    requires StructurallyEqual(a, b)
    ensures var k := KeptLength(a, IsCRLF);
            k <= |b| && a[..k] == b[..k] && AllCRLF(a[k..]) && AllCRLF(b[k..])
  {
  }

  lemma SharedPrefixEqualTrimmed(a: Bytes, b: Bytes, k: nat)
    requires k <= |a| && k <= |b| && a[..k] == b[..k] && AllCRLF(a[k..]) && AllCRLF(b[k..])
    ensures StructurallyEqual(a, b)
  {
    TrailingNewlinesIgnored(a[..k], a[k..]);
    TrailingNewlinesIgnored(a[..k], b[k..]);
    assert a[..k] + a[k..] == a;
    assert b[..k] + b[k..] == b;
  }

  /** Appending any run of CR/LF bytes keeps a header structurally equal. */
  lemma {:induction false} TrailingNewlinesIgnored(a: Bytes, tail: Bytes)
    requires forall i :: 0 <= i < |tail| ==> IsCRLF(tail[i])
    ensures StructurallyEqual(a, a + tail)
    decreases |tail|
  {
    if tail != [] {
      var shorter := tail[..|tail| - 1];
      var x := a + tail;
      assert x[..|x| - 1] == a + shorter;
      assert IsCRLF(x[|x| - 1]);
      assert TrimRight(x, IsCRLF) == TrimRight(a + shorter, IsCRLF);
      TrailingNewlinesIgnored(a, shorter);
    } else {
      assert a + tail == a;
    }
  }

  /** Structural equality differs from byte equality only in trailing CR/LF:
      headers that do not end in CR or LF are structurally equal exactly when
      they are equal. */
  lemma StructuralIsExactWithoutTrailingNewline(a: Bytes, b: Bytes)
    requires a == [] || !IsCRLF(a[|a| - 1])
    requires b == [] || !IsCRLF(b[|b| - 1])
    ensures StructurallyEqual(a, b) <==> a == b
  {
  }

  // ---- The date pass of the mask: `\b\d{4}[-/]?\d{2}[-/]?\d{2}\b` -> "<DATE>" ----

  predicate IsDigit(b: Byte) {
    '0' <= b <= '9'
  }

  /** RE2's ASCII word characters, used by `\b`. */
  predicate IsWordByte(b: Byte) {
    IsDigit(b) || 'a' <= b <= 'z' || 'A' <= b <= 'Z' || b == '_'
  }

  /** `\b` at position `i`. */
  predicate WordBoundary(s: Bytes, i: nat)
    requires i <= |s|
  {
    (i > 0 && IsWordByte(s[i - 1])) != (i < |s| && IsWordByte(s[i]))
  }

  predicate DigitsAt(s: Bytes, i: nat, n: nat) {
    i + n <= |s| && forall k :: i <= k < i + n ==> IsDigit(s[k])
  }

  predicate SeparatorAt(s: Bytes, i: nat) {
    i < |s| && (s[i] == '-' || s[i] == '/')
  }

  /** Length of the leftmost-first date match starting at `i`, or 0. The
      greedy optional separators are tried taken-first, so the four shapes
      are tried in the order 4-2-2 with both separators, first only, second
      only, none. */
  function DateMatchAt(s: Bytes, i: nat): (n: nat)
    requires i <= |s|
    ensures n == 0 || (8 <= n <= 10 && i + n <= |s| && DigitsAt(s, i, 4) && WordBoundary(s, i))
  {
    if !(WordBoundary(s, i) && DigitsAt(s, i, 4)) then 0
    else if SeparatorAt(s, i + 4) && DigitsAt(s, i + 5, 2) && SeparatorAt(s, i + 7)
            && DigitsAt(s, i + 8, 2) && WordBoundary(s, i + 10) then 10
    else if SeparatorAt(s, i + 4) && DigitsAt(s, i + 5, 4) && WordBoundary(s, i + 9) then 9
    else if DigitsAt(s, i + 4, 2) && SeparatorAt(s, i + 6) && DigitsAt(s, i + 7, 2)
            && WordBoundary(s, i + 9) then 9
    else if DigitsAt(s, i + 4, 4) && WordBoundary(s, i + 8) then 8
    else 0
  }

  /** `ReplaceAllString` of the date expression from position `i`: matches
      are searched on the original text, each resuming where the last one
      ended. */
  function MaskDatesFrom(s: Bytes, i: nat): (r: Bytes)
    requires i <= |s|
    ensures (forall k :: i <= k < |s| ==> DateMatchAt(s, k) == 0) ==> r == s[i..]
    decreases |s| - i
  {
    if i == |s| then []
    else
      var n := DateMatchAt(s, i);
      if n > 0 then "<DATE>" + MaskDatesFrom(s, i + n)
      else [s[i]] + MaskDatesFrom(s, i + 1)
  }

  function MaskDates(s: Bytes): Bytes {
    MaskDatesFrom(s, 0)
  }

  /** A whole `yyyy-mm-dd` (or `yyyy/mm/dd`) date is masked to `<DATE>`. */
  lemma WholeDateMasked(d: Bytes)
    requires |d| == 10 && DigitsAt(d, 0, 4) && SeparatorAt(d, 4) && DigitsAt(d, 5, 2)
    requires SeparatorAt(d, 7) && DigitsAt(d, 8, 2)
    ensures MaskDates(d) == "<DATE>"
  {
    assert WordBoundary(d, 0) && WordBoundary(d, 10);
    assert DateMatchAt(d, 0) == 10;
    assert MaskDatesFrom(d, 10) == [];
  }

  /** Two such dates mask alike, so headers that differ only in one of
      them compare equal after the date pass. */
  lemma DatesMaskAlike(d1: Bytes, d2: Bytes)
    requires |d1| == 10 && DigitsAt(d1, 0, 4) && SeparatorAt(d1, 4) && DigitsAt(d1, 5, 2)
    requires SeparatorAt(d1, 7) && DigitsAt(d1, 8, 2)
    requires |d2| == 10 && DigitsAt(d2, 0, 4) && SeparatorAt(d2, 4) && DigitsAt(d2, 5, 2)
    requires SeparatorAt(d2, 7) && DigitsAt(d2, 8, 2)
    ensures MaskDates(d1) == MaskDates(d2)
  {
    WholeDateMasked(d1);
    WholeDateMasked(d2);
  }
}

=== FILE: planner.dfy ===
/** The rewrite planner: `normalizeNewlines`, the two simple splices
    `insertHeader` and `replaceHeader`, and `upsertHeaderBeforeDirectives`,
    which rebuilds a file as shebang, new header, directives, top-of-file
    comments, the demoted old header and the untouched rest. */
module Planner {
  import opened ByteStrings
  import opened Locator

  // ---- normalizeNewlines ----

  /** The bytes of `s` other than CR, in order. */
  function DropCR(s: Bytes): Bytes {
    if s == [] then []
    else if s[0] == '\r' then DropCR(s[1..])
    else [s[0]] + DropCR(s[1..])
  }

  /** `normalizeNewlines`: every CRLF becomes LF. */
  function NormalizeNewlines(b: Bytes): (r: Bytes)
    ensures !Contains(b, "\r\n") ==> r == b
  {
    ReplaceAll(b, "\r\n", "\n")
  }

  /** Normalizing only ever deletes CR bytes: every other byte survives, in
      order. */
  lemma {:induction false} NormalizeOnlyDropsCR(b: Bytes)
    ensures DropCR(NormalizeNewlines(b)) == DropCR(b)
    decreases |b|
  {
    if "\r\n" <= b {
      NormalizeOnlyDropsCR(b[2..]);
      assert b[1..][1..] == b[2..];
      assert NormalizeNewlines(b) == "\n" + NormalizeNewlines(b[2..]);
    } else if b != [] {
      NormalizeOnlyDropsCR(b[1..]);
      assert NormalizeNewlines(b) == [b[0]] + NormalizeNewlines(b[1..]);
    }
  }

  /** When every CR is the first half of a CRLF, no CR is left. */
  lemma {:induction false} NormalizeRemovesPairedCR(b: Bytes)
    requires forall i :: 0 <= i < |b| && b[i] == '\r' ==> i + 1 < |b| && b[i + 1] == '\n'
    ensures forall i :: 0 <= i < |NormalizeNewlines(b)| ==> NormalizeNewlines(b)[i] != '\r'
    decreases |b|
  {
    if "\r\n" <= b {
      var t := b[2..];
      assert forall i :: 0 <= i < |t| && t[i] == '\r' ==> i + 1 < |t| && t[i + 1] == '\n' by {
        forall i | 0 <= i < |t| && t[i] == '\r' ensures i + 1 < |t| && t[i + 1] == '\n' {
          assert b[i + 2] == '\r';
        }
      }
      NormalizeRemovesPairedCR(t);
      assert NormalizeNewlines(b) == "\n" + NormalizeNewlines(t);
    } else if b != [] {
      var t := b[1..];
      assert b[0] != '\r';
      assert forall i :: 0 <= i < |t| && t[i] == '\r' ==> i + 1 < |t| && t[i + 1] == '\n' by {
        forall i | 0 <= i < |t| && t[i] == '\r' ensures i + 1 < |t| && t[i + 1] == '\n' {
          assert b[i + 1] == '\r';
        }
      }
      NormalizeRemovesPairedCR(t);
      assert NormalizeNewlines(b) == [b[0]] + NormalizeNewlines(t);
    }
  }

  /** Normalizing goes piece by piece: two pieces normalize separately unless
      the first ends with the CR and the second starts with the LF of one
      CRLF. */
  lemma {:induction false} NormalizeAppend(a: Bytes, b: Bytes)
    requires !(|a| > 0 && a[|a| - 1] == '\r' && |b| > 0 && b[0] == '\n')
    ensures NormalizeNewlines(a + b) == NormalizeNewlines(a) + NormalizeNewlines(b)
    decreases |a|, 1
  {
    if a == [] {
      assert a + b == b;
    } else if "\r\n" <= a {
      NormalizeAppendCRLF(a, b);
    } else {
      NormalizeAppendOther(a, b);
    }
  }

  lemma {:induction false} NormalizeAppendCRLF(a: Bytes, b: Bytes)
    requires "\r\n" <= a
    requires !(|a| > 0 && a[|a| - 1] == '\r' && |b| > 0 && b[0] == '\n')
    ensures NormalizeNewlines(a + b) == NormalizeNewlines(a) + NormalizeNewlines(b)
    decreases |a|, 0
  {
    assert "\r\n" <= a + b by {
      assert (a + b)[..2] == a[..2];
    }
    assert (a + b)[2..] == a[2..] + b;
    NormalizeAppend(a[2..], b);
    Assoc("\n", NormalizeNewlines(a[2..]), NormalizeNewlines(b));
  }

  lemma {:induction false} NormalizeAppendOther(a: Bytes, b: Bytes)
    requires a != [] && !("\r\n" <= a)
    requires !(|a| > 0 && a[|a| - 1] == '\r' && |b| > 0 && b[0] == '\n')
    ensures NormalizeNewlines(a + b) == NormalizeNewlines(a) + NormalizeNewlines(b)
    decreases |a|, 0
  {
    assert !("\r\n" <= a + b) by {
      if |a| >= 2 {
        assert (a + b)[..2] == a[..2];
      }
    }
    assert (a + b)[1..] == a[1..] + b;
    NormalizeAppend(a[1..], b);
    Assoc([a[0]], NormalizeNewlines(a[1..]), NormalizeNewlines(b));
  }

  /** Every CRLF becomes one LF, whatever surrounds it. */
  lemma NormalizeCRLFAnywhere(a: Bytes, b: Bytes)
    ensures NormalizeNewlines(a + "\r\n" + b) == NormalizeNewlines(a) + "\n" + NormalizeNewlines(b)
  {
    var crlf: Bytes := "\r\n";
    assert NormalizeNewlines(crlf) == "\n" by {
      assert crlf[2..] == [];
    }
    NormalizeAppend(crlf, b);
    NormalizeAppend(a, crlf + b);
    assert a + crlf + b == a + (crlf + b);
  }

  /** Normalizing is not idempotent: a CR in front of a CRLF survives one
      pass and is removed by the next. */
  lemma NormalizeNotIdempotent()
    ensures NormalizeNewlines("\r\r\n") == "\r\n"
    ensures NormalizeNewlines(NormalizeNewlines("\r\r\n")) == "\n"
  {
    var s: Bytes := "\r\r\n";
    assert s[1] == '\r';
    assert !("\r\n" <= s);
    assert s[1..] == "\r\n";
    assert NormalizeNewlines(s[1..]) == "\n" + NormalizeNewlines([]);
  }

  // ---- insertHeader / replaceHeader ----

  /** The text after a splice point with its leading CR/LF bytes dropped. */
  function StripLeadingNewlines(s: Bytes): Bytes {
    TrimLeft(s, IsCRLF)
  }

  /** `insertHeader`: the header goes right after the shebang line (no blank
      line between), then one newline, then the rest without its leading
      CR/LF bytes. */
  function InsertHeader(c: Bytes, header: Bytes): (r: Bytes)
    ensures c[..FindShebangEnd(c)] + header + "\n" <= r
    ensures var k := FindShebangEnd(c) + |header| + 1;
            && IsSuffix(r[k..], c)
            && FindShebangEnd(c) <= |c| - |r[k..]|
            && (forall i :: FindShebangEnd(c) <= i < |c| - |r[k..]| ==> IsCRLF(c[i]))
            && (r[k..] == [] || !IsCRLF(r[k]))
  {
    var se := FindShebangEnd(c);
    PrefixThenStripped(c[..se] + header + "\n", c, se);
    c[..se] + header + "\n" + StripLeadingNewlines(c[se..])
  }

  /** `replaceHeader`: `content[:start]`, the header, one newline, then
      `content[end:]` without its leading CR/LF bytes. A header ending in a
      newline is therefore followed by exactly one blank line. */
  function ReplaceHeader(c: Bytes, start: nat, end: nat, header: Bytes): (r: Bytes)
    requires start <= |c| && end <= |c|
    ensures c[..start] + header + "\n" <= r
    ensures var k := start + |header| + 1;
            && IsSuffix(r[k..], c[end..])
            && (forall i :: end <= i < |c| - |r[k..]| ==> IsCRLF(c[i]))
            && (r[k..] == [] || !IsCRLF(r[k]))
  {
    PrefixThenStripped(c[..start] + header + "\n", c, end);
    c[..start] + header + "\n" + StripLeadingNewlines(c[end..])
  }

  /** A prefix followed by the tail of `base` from `off`, less its leading
      CR/LF bytes: the prefix is kept, and what follows it is a suffix of
      that tail that skipped only CR/LF bytes. */
  lemma PrefixThenStripped(pre: Bytes, base: Bytes, off: nat)
    requires off <= |base|
    ensures var x := (pre + StripLeadingNewlines(base[off..]))[|pre|..];
            && pre <= pre + StripLeadingNewlines(base[off..])
            && IsSuffix(x, base[off..]) && IsSuffix(x, base)
            && off <= |base| - |x|
            && (forall i :: off <= i < |base| - |x| ==> IsCRLF(base[i]))
            && (x == [] || !IsCRLF(x[0]))
  {
    var t := base[off..];
    var n := LeadingCut(t, IsCRLF);
    var x := t[n..];
    var r := pre + StripLeadingNewlines(t);
    assert r[..|pre|] == pre;
    assert r[|pre|..] == x;
    assert base[off + n..] == x;
    forall i | off <= i < off + n ensures IsCRLF(base[i]) {
      assert base[i] == t[i - off];
    }
  }

  /** Inserting is replacing the empty range right after the shebang line. */
  lemma InsertIsReplaceAtShebangEnd(c: Bytes, header: Bytes)
    ensures InsertHeader(c, header) == ReplaceHeader(c, FindShebangEnd(c), FindShebangEnd(c), header)
  {
  }

  // ---- upsertHeaderBeforeDirectives ----

  /** The first top-comment scan of the upsert: blank, or starting with
      `//`, `#`, `*` or an opening block-comment marker (unlike
      `isLineComment`, not `;`). */
  predicate IsTopCommentLine(line: Bytes) {
    var s := TrimSpace(line);
    s == [] || "//" <= s || "#" <= s || "/*" <= s || "*" <= s
  }

  /** The two top-comment scans differ exactly in `;` lines: the recomputed
      scan (which uses `isLineComment`) takes them, the first does not. */
  lemma TopCommentScansDiffer(line: Bytes)
    ensures IsTopCommentLine(line) ==> IsLineComment(line)
    ensures IsLineComment("; note\n") && !IsTopCommentLine("; note\n")
  {
    var s: Bytes := "; note\n";
    assert TrimLeft(s, IsSpace) == s;
    assert TrimSpace(s) == s[..6];
  }

  /** A file cut into shebang, leading blank/directive run, top-of-file
      comment run (lines accepted by `topLine`) and the rest. */
  datatype Parts = Parts(head: Bytes, directives: Bytes, topComments: Bytes, rest: Bytes)

  /** Where the top-comment run ends. The source scans `content[shebangEnd:]`;
      scanning the whole content from the same offset visits the same lines. */
  function TopCommentsEnd(c: Bytes, topLine: Bytes -> bool): (t: nat)
    ensures HeaderSearchStart(c) <= t <= |c|
  {
    ScanLines(c, HeaderSearchStart(c), topLine)
  }

  /** Cuts `c` at three ordered offsets. */
  function CutAt(c: Bytes, se: nat, d: nat, t: nat): (p: Parts)
    requires se <= d <= t <= |c|
    ensures p.head + p.directives + p.topComments + p.rest == c
    ensures p.head == c[..se] && p.rest == c[t..]
    ensures |p.head| + |p.directives| == d && |p.directives| + |p.topComments| == t - se
  {
    assert c[..se] + c[se..d] + c[d..t] + c[t..] == c;
    Parts(c[..se], c[se..d], c[d..t], c[t..])
  }

  /** The upsert's split: shebang line, leading blank/directive lines,
      top-of-file comment lines (as judged by `topLine`) and the rest. */
  function SplitTop(c: Bytes, topLine: Bytes -> bool): (p: Parts)
    ensures p.head + p.directives + p.topComments + p.rest == c
    ensures p.head == c[..FindShebangEnd(c)]
    ensures p.rest == c[TopCommentsEnd(c, topLine)..]
  {
    CutAt(c, FindShebangEnd(c), HeaderSearchStart(c), TopCommentsEnd(c, topLine))
  }

  /** A block trimmed of CR/LF and followed by one blank line, or nothing
      when only CR/LF remain. */
  function Block(b: Bytes): Bytes {
    var t := TrimCRLF(b);
    if |t| > 0 then t + "\n\n" else []
  }

  function ShebangGap(head: Bytes): Bytes {
    if |head| > 0 then "\n" else []
  }

  /** The newlines after the header: one blank line whether or not the
      header ends with a newline. */
  function HeaderGap(header: Bytes): Bytes {
    if IsSuffix("\n", header) then "\n" else "\n\n"
  }

  /** The preserved old header, CR/LF-trimmed and followed by a blank line,
      when it holds anything besides whitespace. */
  function Demoted(preserved: Bytes): Bytes {
    if !IsBlank(preserved) then TrimCRLF(preserved) + "\n\n" else []
  }

  /** A concatenation of eight parts starts with its first three and ends
      with its last. */
  lemma EmitFrame(a: Bytes, b: Bytes, c: Bytes, d: Bytes, e: Bytes, f: Bytes, g: Bytes, h: Bytes)
    ensures a + b + c <= a + b + c + d + e + f + g + h
    ensures IsSuffix(h, a + b + c + d + e + f + g + h)
  {
    var pre := a + b + c;
    var x := pre + d + e + f + g;
    assert x[..|pre|] == pre;
    assert (x + h)[..|pre|] == x[..|pre|];
    assert (x + h)[|x|..] == h;
  }

  /** The output assembly of the upsert. */
  function Emit(header: Bytes, p: Parts, preserved: Bytes): (out: Bytes)
    ensures IsSuffix(p.rest, out)
    ensures p.head + ShebangGap(p.head) + header <= out
  {
    EmitFrame(p.head, ShebangGap(p.head), header, HeaderGap(header),
              Block(p.directives), Block(p.topComments), Demoted(preserved), p.rest);
    p.head + ShebangGap(p.head) + header + HeaderGap(header)
      + Block(p.directives) + Block(p.topComments) + Demoted(preserved) + p.rest
  }

  /** The split the upsert works from. When a header was detected it is cut
      out and the split is recomputed on what remains, with `isLineComment`
      for the top-comment run; the rest then starts after the old header.
      Otherwise the content is split as is, with the narrower top-comment
      test, which never accepts the first line there: the top-comment run
      is empty. */
  function UpsertParts(c: Bytes): (p: Parts)
    ensures p.head == c[..FindShebangEnd(c)]
    ensures IsSuffix(p.rest, c)
    ensures var r := DetectHeaderBlock(c);
            r.header != [] ==> |p.rest| <= |c| - r.end
    ensures DetectHeaderBlock(c).header == [] ==>
              && p.directives == c[FindShebangEnd(c)..HeaderSearchStart(c)]
              && p.topComments == []
              && p.rest == c[HeaderSearchStart(c)..]
  {
    var r := DetectHeaderBlock(c);
    if |r.header| > 0 && r.start >= FindShebangEnd(c) then
      ReplaceParts(c, r.start, r.end)
    else
      NoHeaderTopCommentsEmpty(c);
      SplitTop(c, IsTopCommentLine)
  }

  /** When a header is detected, the upsert splits the content with that
      header cut out. */
  lemma UpsertPartsCutsHeader(c: Bytes)
    requires DetectHeaderBlock(c).header != []
    ensures var r := DetectHeaderBlock(c);
            UpsertParts(c) == SplitTop(c[..r.start] + c[r.end..], IsLineComment)
  {
    var r := DetectHeaderBlock(c);
    assert r.start == SkipBlankAndDirectives(c, FindShebangEnd(c));
    assert UpsertParts(c) == ReplaceParts(c, r.start, r.end);
  }

  /** The split after cutting out a header found at `[start, end)`. */
  function ReplaceParts(c: Bytes, start: nat, end: nat): (p: Parts)
    requires FindShebangEnd(c) <= start < end <= |c|
    requires AtLineBoundary(c, FindShebangEnd(c), start)
    requires LinesAccepted(c, FindShebangEnd(c), start, IsBlankOrDirective)
    requires end == |c| || !IsHeaderLine(Line(c, end))
    ensures p.head == c[..FindShebangEnd(c)]
    ensures IsSuffix(p.rest, c) && |p.rest| <= |c| - end
  {
    ReplacePartsShape(c, start, end);
    SplitTop(c[..start] + c[end..], IsLineComment)
  }

  /** The split of the cut content keeps the shebang line and ends with a
      suffix of what followed the cut. */
  lemma ReplacePartsShape(c: Bytes, start: nat, end: nat)
    requires FindShebangEnd(c) <= start < end <= |c|
    requires AtLineBoundary(c, FindShebangEnd(c), start)
    requires LinesAccepted(c, FindShebangEnd(c), start, IsBlankOrDirective)
    requires end == |c| || !IsHeaderLine(Line(c, end))
    ensures var p := SplitTop(c[..start] + c[end..], IsLineComment);
            && p.head == c[..FindShebangEnd(c)]
            && IsSuffix(p.rest, c) && |p.rest| <= |c| - end
  {
    var w := c[..start] + c[end..];
    CutHead(c, start, end);
    var t := TopCommentsEnd(w, IsLineComment);
    assert start <= t by {
      CutKeepsLeadingRun(c, start, end);
    }
    CutRest(c, start, end, t);
  }

  /** What follows a point past the cut is a suffix of the original no
      longer than what followed the cut. */
  lemma CutRest(c: Bytes, start: nat, end: nat, t: nat)
    requires start <= end <= |c|
    requires start <= t <= |c| - (end - start)
    ensures IsSuffix((c[..start] + c[end..])[t..], c)
    ensures |(c[..start] + c[end..])[t..]| <= |c| - end
  {
    SuffixAfterCut(c, start, end, t);
    var k := end + (t - start);
    assert c[|c| - |c[k..]|..] == c[k..];
  }

  /** Cutting a header out leaves the shebang line in front. */
  lemma CutHead(c: Bytes, start: nat, end: nat)
    requires FindShebangEnd(c) <= start < end <= |c|
    requires AtLineBoundary(c, FindShebangEnd(c), start)
    requires end == |c| || !IsHeaderLine(Line(c, end))
    ensures SplitTop(c[..start] + c[end..], IsLineComment).head == c[..FindShebangEnd(c)]
  {
    var w := c[..start] + c[end..];
    var se := FindShebangEnd(c);
    ShebangSurvivesCut(c, start, end);
    assert w[..se] == c[..se];
  }

  /** The old header to demote: the detected header when asked to keep it,
      nothing otherwise. */
  function Preserved(c: Bytes, preserveExisting: bool): Bytes {
    if preserveExisting then DetectHeaderBlock(c).header else []
  }

  /** `upsertHeaderBeforeDirectives`: the shebang line, a newline when there
      is one, then the new header start the output. */
  function UpsertHeaderBeforeDirectives(c: Bytes, header: Bytes, preserveExisting: bool): (out: Bytes)
    ensures c[..FindShebangEnd(c)] <= out
    ensures FindShebangEnd(c) > 0 ==> c[..FindShebangEnd(c)] + "\n" + header <= out
    ensures FindShebangEnd(c) == 0 ==> header <= out
  {
    var p := UpsertParts(c);
    var out := Emit(header, p, Preserved(c, preserveExisting));
    EmitPrefix(p.head, ShebangGap(p.head), header, out);
    out
  }

  /** The parts a prefix is built from are prefixes too. */
  lemma EmitPrefix(head: Bytes, gap: Bytes, header: Bytes, out: Bytes)
    requires head + gap + header <= out
    ensures head <= out
    ensures head == [] && gap == [] ==> header <= out
  {
    assert (head + gap + header)[..|head|] == head;
    if head == [] && gap == [] {
      assert head + gap + header == header;
    }
  }

  // ---- Facts the upsert relies on ----

  /** Two contents that agree up to the newline ending at `k` agree on the
      end of every line that starts before `k`. */
  lemma LineEndPrefix(c: Bytes, c': Bytes, p: nat, k: nat)
    requires p < k <= |c| && k <= |c'|
    requires c[..k] == c'[..k]
    requires c[k - 1] == '\n'
    ensures LineEnd(c, p) == LineEnd(c', p) <= k
    ensures Line(c, p) == Line(c', p)
  {
    var e := LineEnd(c, p);
    LineEndWithin(c, p, k);
    assert forall i :: 0 <= i < k ==> c[i] == c'[i] by {
      forall i | 0 <= i < k ensures c[i] == c'[i] {
        assert c[..k][i] == c'[..k][i];
      }
    }
    var e' := LineEnd(c', p);
    assert c[e - 1] == '\n';
    assert c'[e - 1] == '\n';
    assert Line(c, p) == c[..k][p..e];
  }

  /** A line starting with `#!` is a comment and no directive, so header
      collection never stops in front of one. */
  lemma ShebangLineIsHeaderLine(line: Bytes)
    requires "#!" <= line
    ensures IsHeaderLine(line)
  {
    assert TrimLeft(line, IsSpace) == line;
    var s := TrimSpace(line);
    assert !IsSpace(line[1]);
    assert |s| >= 2 && s[0] == '#' && s[1] == '!';
    var u := s[1..];
    TrimKeepsFirstByte(u, IsSpace);
    assert ToLower(TrimSpace(u))[0] == '!';
  }

  /** Cutting out a block that starts on a line boundary after the shebang
      line, and is not followed by a header line, leaves the shebang line
      where it was. */
  lemma ShebangSurvivesCut(c: Bytes, start: nat, end: nat)
    requires FindShebangEnd(c) <= start < end <= |c|
    requires AtLineBoundary(c, FindShebangEnd(c), start)
    requires end == |c| || !IsHeaderLine(Line(c, end))
    ensures FindShebangEnd(c[..start] + c[end..]) == FindShebangEnd(c)
  {
    if "#!" <= c {
      ShebangKeptByCut(c, start, end);
    } else if start >= 2 {
      NoShebangKeptByCut(c, start, end);
    } else if start == 1 {
      var c' := c[..start] + c[end..];
      assert c'[0] == c[0] == '\n';
    } else {
      CutFromTop(c, end);
    }
  }

  /** A cut after the shebang line keeps that line whole. */
  lemma ShebangKeptByCut(c: Bytes, start: nat, end: nat)
    requires "#!" <= c && FindShebangEnd(c) <= start <= end <= |c|
    ensures FindShebangEnd(c[..start] + c[end..]) == FindShebangEnd(c)
  {
    var c' := c[..start] + c[end..];
    var se := FindShebangEnd(c);
    assert c'[..start] == c[..start];
    assert c[..2] == c'[..2];
    if se < |c| {
      assert c[se - 1] == '\n';
      LineEndPrefix(c, c', 0, se);
    } else {
      assert c' == c;
    }
  }

  /** A cut from the third byte on leaves a content that does not start
      with `#!` as it was. */
  lemma NoShebangKeptByCut(c: Bytes, start: nat, end: nat)
    requires !("#!" <= c) && 2 <= start <= end <= |c|
    ensures FindShebangEnd(c[..start] + c[end..]) == 0
  {
    var c' := c[..start] + c[end..];
    assert c[..2] == c'[..2];
  }

  /** A cut from the very top leaves no shebang line unless the next line
      is a header line. */
  lemma CutFromTop(c: Bytes, end: nat)
    requires 0 < end <= |c|
    requires end == |c| || !IsHeaderLine(Line(c, end))
    ensures FindShebangEnd(c[..0] + c[end..]) == 0
  {
    var c' := c[..0] + c[end..];
    assert c' == c[end..];
    if end < |c| && "#!" <= c' {
      ShebangStartsLine(c, end);
      ShebangLineIsHeaderLine(Line(c, end));
    }
  }

  /** A line whose first two bytes are `#!` starts with `#!`. */
  lemma ShebangStartsLine(c: Bytes, p: nat)
    requires p < |c| && "#!" <= c[p..]
    ensures "#!" <= Line(c, p)
  {
    assert c[p] == '#' && c[p + 1] == '!';
    assert LineEnd(c, p) == LineEnd(c, p + 1);
    assert Line(c, p)[..2] == c[p..p + 2];
  }

  /** A scan whose lines before the newline ending at `k` were all accepted
      gets at least as far on content that agrees up to `k`. */
  lemma {:induction false} ScanPrefixStable(c: Bytes, c': Bytes, p: nat, k: nat, accept: Bytes -> bool)
    requires p <= k <= |c| && k <= |c'|
    requires c[..k] == c'[..k]
    requires k == p || c[k - 1] == '\n'
    requires LinesAccepted(c, p, k, accept)
    ensures k <= ScanLines(c', p, accept)
    decreases k - p
  {
    if p < k {
      var e := LineEnd(c, p);
      LineEndPrefix(c, c', p, k);
      assert accept(Line(c, p));
      assert c[e - 1] == '\n';
      assert LinesAccepted(c, e, k, accept) by {
        forall i | e <= i < k && (i == e || c[i - 1] == '\n') ensures accept(Line(c, i)) {
          assert p <= i < k && c[i - 1] == '\n';
        }
      }
      ScanPrefixStable(c, c', e, k, accept);
    }
  }

  /** Cutting `[start, end)` out of the content keeps the leading run of
      blank and directive lines before `start`. */
  lemma CutKeepsLeadingRun(c: Bytes, start: nat, end: nat)
    requires FindShebangEnd(c) <= start < end <= |c|
    requires AtLineBoundary(c, FindShebangEnd(c), start)
    requires LinesAccepted(c, FindShebangEnd(c), start, IsBlankOrDirective)
    requires end == |c| || !IsHeaderLine(Line(c, end))
    ensures start <= HeaderSearchStart(c[..start] + c[end..])
  {
    var w := c[..start] + c[end..];
    ShebangSurvivesCut(c, start, end);
    assert w[..start] == c[..start];
    ScanPrefixStable(c, w, FindShebangEnd(c), start, IsBlankOrDirective);
  }

  /** A suffix of the cut content that begins at or after the cut point is
      a suffix of the original that begins at or after the cut's end. */
  lemma SuffixAfterCut(c: Bytes, start: nat, end: nat, t: nat)
    requires start <= end <= |c|
    requires start <= t <= |c| - (end - start)
    ensures (c[..start] + c[end..])[t..] == c[end + (t - start)..]
  {
  }

  /** With no header detected, the first line after the leading directives
      is not a comment, so the top-comment run is empty. */
  lemma NoHeaderTopCommentsEmpty(c: Bytes)
    requires DetectHeaderBlock(c).header == []
    ensures TopCommentsEnd(c, IsTopCommentLine) == HeaderSearchStart(c)
  {
    var d := HeaderSearchStart(c);
    if d < |c| {
      TopCommentScansDiffer(Line(c, d));
      assert !IsTopCommentLine(Line(c, d));
    }
  }

  /** Where the verbatim tail of the upsert output begins in the input. */
  function UpsertTail(c: Bytes): (k: nat)
    ensures k <= |c| && c[k..] == UpsertParts(c).rest
  {
    |c| - |UpsertParts(c).rest|
  }

  /** Without a detected header the output is the shebang line, the new
      header, one blank line, the leading blank and directive lines trimmed
      of CR/LF and followed by a blank line, and then the content from the
      first other line on, unchanged. */
  lemma UpsertWithoutHeader(c: Bytes, header: Bytes, preserveExisting: bool)
    requires DetectHeaderBlock(c).header == []
    ensures var se := FindShebangEnd(c);
            var d := HeaderSearchStart(c);
            UpsertHeaderBeforeDirectives(c, header, preserveExisting)
              == c[..se] + ShebangGap(c[..se]) + header + HeaderGap(header) + Block(c[se..d]) + c[d..]
  {
    var p := UpsertParts(c);
    EmitWithoutTopOrDemoted(header, p);
  }

  /** With a detected header the output is laid out on the content `w` that
      remains once that header is cut out: the shebang line, its separator,
      the new header, one blank line, the leading blank/directive lines of
      `w` and then its top-of-file comment lines (each block trimmed of
      CR/LF and followed by a blank line when not empty), the old header when
      preserved, and the rest of `w`, unchanged. */
  lemma UpsertWithHeader(c: Bytes, header: Bytes, preserveExisting: bool)
    requires DetectHeaderBlock(c).header != []
    ensures var r := DetectHeaderBlock(c);
            var w := c[..r.start] + c[r.end..];
            var se := FindShebangEnd(c);
            var d := HeaderSearchStart(w);
            var t := TopCommentsEnd(w, IsLineComment);
            && se <= d <= t <= |w|
            && UpsertHeaderBeforeDirectives(c, header, preserveExisting)
               == c[..se] + ShebangGap(c[..se]) + header + HeaderGap(header) + Block(w[se..d]) + Block(w[d..t])
                  + Demoted(Preserved(c, preserveExisting)) + w[t..]
  {
    var r := DetectHeaderBlock(c);
    var w := c[..r.start] + c[r.end..];
    var se := FindShebangEnd(c);
    UpsertPartsCutsHeader(c);
    assert FindShebangEnd(w) == se by {
      assert r.start == SkipBlankAndDirectives(c, se);
      ShebangSurvivesCut(c, r.start, r.end);
    }
    assert w[..se] == c[..se];
    var p := UpsertParts(c);
    assert p == CutAt(w, se, HeaderSearchStart(w), TopCommentsEnd(w, IsLineComment));
  }

  lemma EmitWithoutTopOrDemoted(header: Bytes, p: Parts)
    requires p.topComments == []
    ensures Emit(header, p, []) == p.head + ShebangGap(p.head) + header + HeaderGap(header) + Block(p.directives) + p.rest
  {
    assert Block([]) == [];
    assert Demoted([]) == [];
  }

  /** The output always ends with the input from `UpsertTail` on. That tail
      starts after a replaced header, and right at the first line after the
      leading directives when there was no header. */
  lemma UpsertKeepsTail(c: Bytes, header: Bytes, preserveExisting: bool)
    ensures IsSuffix(c[UpsertTail(c)..], UpsertHeaderBeforeDirectives(c, header, preserveExisting))
    ensures DetectHeaderBlock(c).header == [] ==> UpsertTail(c) == HeaderSearchStart(c)
    ensures DetectHeaderBlock(c).header != [] ==> DetectHeaderBlock(c).end <= UpsertTail(c)
  {
    var p := UpsertParts(c);
    assert IsSuffix(p.rest, Emit(header, p, Preserved(c, preserveExisting)));
  }

  /** With a header detected and kept, the old header, trimmed of CR/LF (and
      not empty after trimming), comes right before the verbatim tail,
      followed by a blank line. */
  lemma UpsertDemotesOldHeader(c: Bytes, header: Bytes)
    requires DetectHeaderBlock(c).header != []
    ensures var prev := DetectHeaderBlock(c).header;
            var k := UpsertTail(c);
            && TrimCRLF(prev) != []
            && Demoted(prev) == TrimCRLF(prev) + "\n\n"
            && IsSuffix(Demoted(prev) + c[k..], UpsertHeaderBeforeDirectives(c, header, true))
  {
    var prev := DetectHeaderBlock(c).header;
    var p := UpsertParts(c);
    assert UpsertHeaderBeforeDirectives(c, header, true) == Emit(header, p, prev);
    DetectedHeaderNotBlank(c);
    DemotedHeader(header, p, prev);
  }

  /** A non-blank old header is demoted right in front of the rest. */
  lemma DemotedHeader(header: Bytes, p: Parts, prev: Bytes)
    requires !IsBlank(prev)
    ensures TrimCRLF(prev) != []
    ensures Demoted(prev) == TrimCRLF(prev) + "\n\n"
    ensures IsSuffix(Demoted(prev) + p.rest, Emit(header, p, prev))
  {
    NonBlankSurvivesCRLFTrim(prev);
    var pre := p.head + ShebangGap(p.head) + header + HeaderGap(header) + Block(p.directives) + Block(p.topComments);
    assert Emit(header, p, prev) == pre + (Demoted(prev) + p.rest);
  }
}

=== FILE: policy.dfy ===
/** The per-file decision policy: `processFile` once the file has been read,
    with `isTemplatePath`, `relativePath`, `handleNonUTF8File`,
    `findMatchingTemplateIndex`, `shouldSkipDueToGit`, `handleMatchedHeader`
    and `handleNoMatch`.

    File reading and writing are not performed: the content read (or its
    failure) comes in as an argument, whether the write-back succeeds is a
    flag, and the bytes that would be written come out in the `Decision`. */
module Policy {
  import opened ByteStrings
  import opened Locator
  import opened Matcher
  import opened Planner
  import opened Rules
  import opened Render

  datatype Action = ActionNone | ActionInsert | ActionReplace | ActionRemove

  datatype Failure = ReadFailed | WriteFailed

  /** A `FileResult` without its path: either an action (with an optional
      warning, empty when absent) or an error. */
  datatype FileResult = Checked(action: Action, warning: Bytes) | Failed(failure: Failure)

  /** The engine's options as `New` stores them. */
  datatype Engine = Engine(root: Bytes, rules: seq<Rule>, force: bool, respectGit: bool, git: GitMeta)

  /** The library functions the policy consults: `filepath.Clean`,
      `filepath.Rel` (`None` on error), the include/exclude matcher,
      `utf8.Valid`, and the masking passes of the semantic comparison. */
  datatype Env = Env(
    clean: Bytes -> Bytes,
    relative: (Bytes, Bytes) -> Option<Bytes>,
    matches: MatchFn,
    validUtf8: Bytes -> bool,
    mask: Mask)

  /** The outcome for one file and the bytes written back, if any. */
  datatype Decision = Decision(result: FileResult, write: Option<Bytes>)

  const NonUtf8Warning: Bytes := "non-UTF8/binary file, forced to check"

  const Unchanged: Decision := Decision(Checked(ActionNone, []), None)

  /** `isTemplatePath`: the path names one of the template files. */
  predicate IsTemplatePath(e: Engine, env: Env, path: Bytes) {
    exists i :: 0 <= i < |e.rules| && env.clean(path) == env.clean(e.rules[i].templatePath)
  }

  /** `relativePath`: relative to the root, or the path itself when that
      fails. */
  function RelativePath(e: Engine, env: Env, path: Bytes): Bytes {
    match env.relative(e.root, path)
    case None => path
    case Some(rel) => rel
  }

  /** `handleNonUTF8File`: `None` lets processing go on; otherwise the early
      result, which carries the warning only when forced. */
  function HandleNonUTF8File(e: Engine, env: Env, content: Bytes): (r: Option<FileResult>)
    ensures r.None? <==> env.validUtf8(content)
    ensures r.Some? ==> r.value.Checked? && r.value.action == ActionNone
    ensures r.Some? ==> (r.value.warning != [] <==> e.force)
  {
    if env.validUtf8(content) then None
    else if e.force then Some(Checked(ActionNone, NonUtf8Warning))
    else Some(Checked(ActionNone, []))
  }

  /** A rendered rule that applies to `rel` and whose body semantically
      matches the current header. */
  predicate Eligible(r: Rule, rel: Bytes, header: Bytes, env: Env) {
    Applies(r, rel, env.matches) && SemanticallyMatches(header, r.content, env.mask)
  }

  /** `findMatchingTemplateIndex`: the first eligible rule, or -1. */
  function FindMatchingTemplateIndex(rel: Bytes, trules: seq<Rule>, header: Bytes, env: Env): (i: int)
    ensures -1 <= i < |trules|
    ensures i >= 0 ==> Eligible(trules[i], rel, header, env)
    ensures forall j :: 0 <= j < |trules| && (i < 0 || j < i) ==> !Eligible(trules[j], rel, header, env)
  {
    FindFrom(rel, trules, header, env, 0)
  }

  function FindFrom(rel: Bytes, trules: seq<Rule>, header: Bytes, env: Env, k: nat): (i: int)
    requires k <= |trules|
    ensures i == -1 || k <= i < |trules|
    ensures i >= 0 ==> Eligible(trules[i], rel, header, env)
    ensures forall j :: k <= j < |trules| && (i < 0 || j < i) ==> !Eligible(trules[j], rel, header, env)
    decreases |trules| - k
  {
    if k == |trules| then -1
    else if Eligible(trules[k], rel, header, env) then k
    else FindFrom(rel, trules, header, env, k + 1)
  }

  /** `shouldSkipDueToGit`: only when Git is respected and the file is not
      touched. */
  function ShouldSkipDueToGit(e: Engine, path: Bytes): (skip: bool)
    ensures skip <==> e.respectGit && !Ask(e.git, path).touched
    ensures e.git.Disabled? ==> !skip
  {
    e.respectGit && !Ask(e.git, path).touched
  }

  /** Writing `bytes` back: the given action on success, an error
      otherwise. */
  function WriteBack(bytes: Bytes, action: Action, writeSucceeds: bool): (d: Decision)
    ensures d.write == Some(bytes)
    ensures writeSucceeds ==> d.result == Checked(action, [])
    ensures !writeSucceeds ==> d.result == Failed(WriteFailed)
  {
    Decision(if writeSucceeds then Checked(action, []) else Failed(WriteFailed), Some(bytes))
  }

  /** `handleMatchedHeader`. */
  function HandleMatchedHeader(e: Engine, env: Env, path: Bytes, fix: bool, header: Bytes,
                               rendered: Rule, content: Bytes, writeSucceeds: bool): Decision
  {
    if !fix then Unchanged
    else if header == rendered.content then Unchanged
    else if StructurallyEqual(header, rendered.content) then Unchanged
    else if SemanticallyMatches(header, rendered.content, env.mask) && ShouldSkipDueToGit(e, path) then Unchanged
    else WriteBack(UpsertHeaderBeforeDirectives(content, rendered.content, true), ActionReplace, writeSucceeds)
  }

  /** `handleMatchedHeader` without its semantic re-check. */
  function HandleMatchedHeaderWithoutRecheck(e: Engine, path: Bytes, fix: bool, header: Bytes,
                                             rendered: Rule, content: Bytes, writeSucceeds: bool): Decision
  {
    if !fix || header == rendered.content || StructurallyEqual(header, rendered.content)
       || ShouldSkipDueToGit(e, path) then Unchanged
    else WriteBack(UpsertHeaderBeforeDirectives(content, rendered.content, true), ActionReplace, writeSucceeds)
  }

  /** The semantic re-check in `handleMatchedHeader` always passes: the
      header only reaches it after matching the same rendered body. */
  lemma MatchedRecheckIsRedundant(e: Engine, env: Env, path: Bytes, fix: bool, header: Bytes,
                                  rendered: Rule, content: Bytes, writeSucceeds: bool)
    requires SemanticallyMatches(header, rendered.content, env.mask)
    ensures HandleMatchedHeader(e, env, path, fix, header, rendered, content, writeSucceeds)
            == HandleMatchedHeaderWithoutRecheck(e, path, fix, header, rendered, content, writeSucceeds)
  {
  }

  /** `handleNoMatch`. */
  function HandleNoMatch(fix: bool, header: Bytes, content: Bytes, trules: seq<Rule>, writeSucceeds: bool): Decision {
    if |trules| == 0 then Unchanged
    else if fix then
      WriteBack(UpsertHeaderBeforeDirectives(content, trules[0].content, true),
                if |header| > 0 then ActionReplace else ActionInsert, writeSucceeds)
    else if |header| > 0 then Decision(Checked(ActionReplace, []), None)
    else Decision(Checked(ActionInsert, []), None)
  }

  /** The rendered rules that apply to the file. */
  function ApplicableRules(e: Engine, env: Env, path: Bytes): seq<Rule> {
    FilterTemplatesForPath(RelativePath(e, env, path), RenderTemplates(e.rules, e.git, path), env.matches)
  }

  /** The part of `processFile` after the UTF-8 check: render and filter
      the rules, detect the current header, then take the matched or the
      no-match branch. */
  function Reconcile(e: Engine, env: Env, path: Bytes, content: Bytes, fix: bool, writeSucceeds: bool): (d: Decision)
    ensures d.write.Some? ==> fix
    ensures d.result != Failed(ReadFailed)
    ensures d.result.Checked? ==> d.result.warning == [] && d.result.action != ActionRemove
    ensures d.result == Failed(WriteFailed) <==> d.write.Some? && !writeSucceeds
  {
    var rel := RelativePath(e, env, path);
    var trules := ApplicableRules(e, env, path);
    if |trules| == 0 then Unchanged
    else
      var header := DetectHeaderBlock(content).header;
      var idx := FindMatchingTemplateIndex(rel, trules, header, env);
      if idx >= 0 then HandleMatchedHeader(e, env, path, fix, header, trules[idx], content, writeSucceeds)
      else HandleNoMatch(fix, header, content, trules, writeSucceeds)
  }

  /** `processFile`: `read` is what reading the file gave (`None` when it
      failed). Nothing is written in check mode, and no path leads to
      `ActionRemove`. */
  function ProcessFile(e: Engine, env: Env, path: Bytes, read: Option<Bytes>, fix: bool, writeSucceeds: bool): (d: Decision)
    ensures d.write.Some? ==> fix
    ensures d.result.Checked? ==> d.result.action != ActionRemove
    ensures d.result == Failed(WriteFailed) <==> d.write.Some? && !writeSucceeds
  {
    if IsTemplatePath(e, env, path) then Unchanged
    else if !HasAnyTemplateForPath(e.rules, RelativePath(e, env, path), env.matches) then Unchanged
    else if read.None? then Decision(Failed(ReadFailed), None)
    else
      match HandleNonUTF8File(e, env, read.value)
      case Some(early) => Decision(early, None)
      case None => Reconcile(e, env, path, read.value, fix, writeSucceeds)
  }

  /** `processFile` gets past its early exits: not a template file, some
      rule applies, the read succeeded and the content is valid UTF-8. */
  predicate Reaches(e: Engine, env: Env, path: Bytes, read: Option<Bytes>) {
    !IsTemplatePath(e, env, path)
    && HasAnyTemplateForPath(e.rules, RelativePath(e, env, path), env.matches)
    && read.Some? && env.validUtf8(read.value)
  }

  /** The early exits of `processFile`, in order, and the hand-over to the
      reconciliation once none applies. None of them writes. */
  lemma ProcessFileEarlyExits(e: Engine, env: Env, path: Bytes, read: Option<Bytes>, fix: bool, writeSucceeds: bool)
    ensures IsTemplatePath(e, env, path) ==> ProcessFile(e, env, path, read, fix, writeSucceeds) == Unchanged
    ensures !HasAnyTemplateForPath(e.rules, RelativePath(e, env, path), env.matches)
            ==> ProcessFile(e, env, path, read, fix, writeSucceeds) == Unchanged
    ensures (!IsTemplatePath(e, env, path) && HasAnyTemplateForPath(e.rules, RelativePath(e, env, path), env.matches)
             && read.None?) ==> ProcessFile(e, env, path, read, fix, writeSucceeds) == Decision(Failed(ReadFailed), None)
    ensures (!IsTemplatePath(e, env, path) && HasAnyTemplateForPath(e.rules, RelativePath(e, env, path), env.matches)
             && read.Some? && !env.validUtf8(read.value))
            ==> ProcessFile(e, env, path, read, fix, writeSucceeds)
                == Decision(Checked(ActionNone, if e.force then NonUtf8Warning else []), None)
    ensures Reaches(e, env, path, read)
            ==> ProcessFile(e, env, path, read, fix, writeSucceeds) == Reconcile(e, env, path, read.value, fix, writeSucceeds)
  {
  }

  /** The rendered, filtered rules are non-empty exactly when
      `hasAnyTemplateForPath` holds: rendering keeps patterns, so the
      `len(trules) == 0` exit of `processFile` and the one of
      `handleNoMatch` are never taken once the early exits are passed. */
  lemma ApplicableRulesNonEmpty(e: Engine, env: Env, path: Bytes)
    ensures ApplicableRules(e, env, path) != []
            <==> HasAnyTemplateForPath(e.rules, RelativePath(e, env, path), env.matches)
  {
    var rel := RelativePath(e, env, path);
    RenderThenFilter(e.rules, ResolveVars(Ask(e.git, path)), rel, env.matches);
    FilterNonEmptyIffAny(rel, e.rules, env.matches);
  }

  /** Check mode reports, and never writes: no action when some applicable
      rule semantically matches the current header, otherwise replace when
      there is a header and insert when there is none. */
  lemma CheckModeReports(e: Engine, env: Env, path: Bytes, read: Option<Bytes>, writeSucceeds: bool)
    requires Reaches(e, env, path, read)
    ensures ProcessFile(e, env, path, read, false, writeSucceeds).write == None
    ensures var trules := ApplicableRules(e, env, path);
            var header := DetectHeaderBlock(read.value).header;
            var matched := exists i :: 0 <= i < |trules| && Eligible(trules[i], RelativePath(e, env, path), header, env);
            ProcessFile(e, env, path, read, false, writeSucceeds).result
            == Checked(if matched then ActionNone else if |header| > 0 then ActionReplace else ActionInsert, [])
  {
    ApplicableRulesNonEmpty(e, env, path);
  }

  /** Fix mode with a matching rule: the file is left alone exactly when the
      header is structurally equal to the rendered body or Git says it was
      not touched; otherwise it is rewritten with that body. */
  lemma FixMatchedOutcome(e: Engine, env: Env, path: Bytes, read: Option<Bytes>, writeSucceeds: bool)
    requires Reaches(e, env, path, read)
    requires var header := DetectHeaderBlock(read.value).header;
             FindMatchingTemplateIndex(RelativePath(e, env, path), ApplicableRules(e, env, path), header, env) >= 0
    ensures var header := DetectHeaderBlock(read.value).header;
            var trules := ApplicableRules(e, env, path);
            var t := trules[FindMatchingTemplateIndex(RelativePath(e, env, path), trules, header, env)];
            ProcessFile(e, env, path, read, true, writeSucceeds)
            == if StructurallyEqual(header, t.content) || ShouldSkipDueToGit(e, path) then Unchanged
               else WriteBack(UpsertHeaderBeforeDirectives(read.value, t.content, true), ActionReplace, writeSucceeds)
  {
    var header := DetectHeaderBlock(read.value).header;
    var trules := ApplicableRules(e, env, path);
    var t := trules[FindMatchingTemplateIndex(RelativePath(e, env, path), trules, header, env)];
    MatchedRecheckIsRedundant(e, env, path, true, header, t, read.value, writeSucceeds);
  }

  /** Fix mode with no matching rule: the first applicable rule's body is
      written, reported as a replace when a header was present and as an
      insert otherwise. */
  lemma FixNoMatchOutcome(e: Engine, env: Env, path: Bytes, read: Option<Bytes>, writeSucceeds: bool)
    requires Reaches(e, env, path, read)
    requires var header := DetectHeaderBlock(read.value).header;
             FindMatchingTemplateIndex(RelativePath(e, env, path), ApplicableRules(e, env, path), header, env) < 0
    ensures ApplicableRules(e, env, path) != []
    ensures var header := DetectHeaderBlock(read.value).header;
            ProcessFile(e, env, path, read, true, writeSucceeds)
            == WriteBack(UpsertHeaderBeforeDirectives(read.value, ApplicableRules(e, env, path)[0].content, true),
                         if |header| > 0 then ActionReplace else ActionInsert, writeSucceeds)
  {
    ApplicableRulesNonEmpty(e, env, path);
  }

  /** A file without a header is never matched (semantic matching rejects
      an empty header), so fix mode inserts the first applicable rule's
      body and check mode reports an insert. */
  lemma MissingHeaderIsInserted(e: Engine, env: Env, path: Bytes, read: Option<Bytes>, writeSucceeds: bool)
    requires Reaches(e, env, path, read)
    requires DetectHeaderBlock(read.value).header == []
    ensures ApplicableRules(e, env, path) != []
    ensures ProcessFile(e, env, path, read, true, writeSucceeds)
            == WriteBack(UpsertHeaderBeforeDirectives(read.value, ApplicableRules(e, env, path)[0].content, true),
                         ActionInsert, writeSucceeds)
    ensures ProcessFile(e, env, path, read, false, writeSucceeds) == Decision(Checked(ActionInsert, []), None)
  {
    var trules := ApplicableRules(e, env, path);
    var rel := RelativePath(e, env, path);
    assert FindMatchingTemplateIndex(rel, trules, [], env) < 0;
    FixNoMatchOutcome(e, env, path, read, writeSucceeds);
    CheckModeReports(e, env, path, read, writeSucceeds);
  }

  /** Whatever is written is the file content upserted with the rendered
      body of one of the rules that apply to it. */
  lemma WritesAreUpserts(e: Engine, env: Env, path: Bytes, read: Option<Bytes>, fix: bool, writeSucceeds: bool)
    ensures var d := ProcessFile(e, env, path, read, fix, writeSucceeds);
            d.write.Some? ==> read.Some? && (exists i :: 0 <= i < |ApplicableRules(e, env, path)| &&
                                               d.write.value == UpsertHeaderBeforeDirectives(read.value, ApplicableRules(e, env, path)[i].content, true))
  {
    var d := ProcessFile(e, env, path, read, fix, writeSucceeds);
    if d.write.Some? {
      assert Reaches(e, env, path, read);
      var trules := ApplicableRules(e, env, path);
      var header := DetectHeaderBlock(read.value).header;
      var idx := FindMatchingTemplateIndex(RelativePath(e, env, path), trules, header, env);
      if idx >= 0 {
        assert d.write.value == UpsertHeaderBeforeDirectives(read.value, trules[idx].content, true);
      } else {
        assert d.write.value == UpsertHeaderBeforeDirectives(read.value, trules[0].content, true);
      }
    }
  }

  /** In fix mode an insert or a replace is reported exactly when bytes were
      written back and the write succeeded; every other outcome writes
      nothing or fails. */
  lemma FixReportsOnlyWrites(e: Engine, env: Env, path: Bytes, read: Option<Bytes>, writeSucceeds: bool)
    ensures var d := ProcessFile(e, env, path, read, true, writeSucceeds);
            (d.result == Checked(ActionInsert, []) || d.result == Checked(ActionReplace, []))
            <==> d.write.Some? && writeSucceeds
    ensures var d := ProcessFile(e, env, path, read, true, writeSucceeds);
            d.write.None? ==> d.result == Failed(ReadFailed) || d.result.action == ActionNone
  {
    var d := ProcessFile(e, env, path, read, true, writeSucceeds);
    if Reaches(e, env, path, read) {
      var trules := ApplicableRules(e, env, path);
      ApplicableRulesNonEmpty(e, env, path);
      var header := DetectHeaderBlock(read.value).header;
      var idx := FindMatchingTemplateIndex(RelativePath(e, env, path), trules, header, env);
      if idx >= 0 {
        FixMatchedOutcome(e, env, path, read, writeSucceeds);
      } else {
        FixNoMatchOutcome(e, env, path, read, writeSucceeds);
      }
    }
  }

  /** `New`: rules whose template path is blank are dropped; every other
      template is read and its line endings normalized. A read failure fails
      the whole construction. */
  function LoadRules(rules: seq<Rule>, readFile: Bytes -> Option<Bytes>): (r: Option<seq<Rule>>)
    ensures r.None? <==> exists i :: 0 <= i < |rules| && !IsBlank(rules[i].templatePath)
                                      && readFile(rules[i].templatePath).None?
    ensures r.Some? ==> |r.value| <= |rules|
    ensures r.Some? ==> forall i :: 0 <= i < |r.value| ==>
              !IsBlank(r.value[i].templatePath) && readFile(r.value[i].templatePath).Some?
              && r.value[i].content == NormalizeNewlines(readFile(r.value[i].templatePath).value)
  {
    if rules == [] then Some([])
    else
      var tail := LoadRules(rules[1..], readFile);
      assert forall i :: 1 <= i < |rules| ==> rules[i] == rules[1..][i - 1];
      var r := rules[0];
      if IsBlank(r.templatePath) then tail
      else match readFile(r.templatePath)
        case None => None
        case Some(b) =>
          if tail.None? then None
          else Some([r.(content := NormalizeNewlines(b))] + tail.value)
  }

  /** Loading a concatenation loads each part and joins the results in
      order, failing when either part fails: with `LoadOneRule`, the loaded
      rules are the non-blank ones, in their order, each with its template
      read once. */
  lemma {:induction false} LoadRulesAppend(a: seq<Rule>, b: seq<Rule>, readFile: Bytes -> Option<Bytes>)
    ensures LoadRules(a + b, readFile)
            == if LoadRules(a, readFile).Some? && LoadRules(b, readFile).Some?
               then Some(LoadRules(a, readFile).value + LoadRules(b, readFile).value)
               else None
    decreases |a|, 1
  {
    if a == [] {
      assert a + b == b;
      var none: seq<Rule> := [];
      if LoadRules(b, readFile).Some? {
        assert none + LoadRules(b, readFile).value == LoadRules(b, readFile).value;
      }
    } else {
      LoadRulesAppendCons(a, b, readFile);
    }
  }

  lemma {:induction false} LoadRulesAppendCons(a: seq<Rule>, b: seq<Rule>, readFile: Bytes -> Option<Bytes>)
    requires a != []
    ensures LoadRules(a + b, readFile)
            == if LoadRules(a, readFile).Some? && LoadRules(b, readFile).Some?
               then Some(LoadRules(a, readFile).value + LoadRules(b, readFile).value)
               else None
    decreases |a|, 0
  {
    assert (a + b)[0] == a[0];
    assert (a + b)[1..] == a[1..] + b;
    LoadRulesAppend(a[1..], b, readFile);
    var ta := LoadRules(a[1..], readFile);
    var tb := LoadRules(b, readFile);
    if !IsBlank(a[0].templatePath) && readFile(a[0].templatePath).Some? && ta.Some? && tb.Some? {
      var h := [a[0].(content := NormalizeNewlines(readFile(a[0].templatePath).value))];
      RulesAssoc(h, ta.value, tb.value);
    }
  }

  lemma RulesAssoc(x: seq<Rule>, y: seq<Rule>, z: seq<Rule>)
    ensures x + (y + z) == (x + y) + z
  {
  }

  /** One rule: dropped when its template path is blank, failing when the
      template cannot be read, and otherwise kept with the template's
      normalized bytes as its content. */
  lemma LoadOneRule(r: Rule, readFile: Bytes -> Option<Bytes>)
    ensures IsBlank(r.templatePath) ==> LoadRules([r], readFile) == Some([])
    ensures !IsBlank(r.templatePath) && readFile(r.templatePath).None? ==> LoadRules([r], readFile) == None
    ensures !IsBlank(r.templatePath) && readFile(r.templatePath).Some?
            ==> LoadRules([r], readFile) == Some([r.(content := NormalizeNewlines(readFile(r.templatePath).value))])
  {
    assert [r][1..] == [];
    if !IsBlank(r.templatePath) && readFile(r.templatePath).Some? {
      var x := r.(content := NormalizeNewlines(readFile(r.templatePath).value));
      assert [x] + [] == [x];
    }
  }
}

=== FILE: public.dfy ===
/** The exported helpers of the engine package used by the analyzer.

    `DetectHeaderBlock`, `HeaderSemanticallyMatches`, `InsertHeader`,
    `ReplaceHeader` and `NormalizeNewlines` return exactly what the
    unexported function they wrap returns, so they are the functions of the
    same names in `Locator`, `Matcher` and `Planner`. The remaining four are
    given here. */
module Public {
  import opened ByteStrings
  import opened Rules
  import opened Render
  import opened Policy

  /** Replacing a one-byte pattern maps every byte independently. */
  lemma {:induction false} ReplaceSingleByte(s: Bytes, x: Byte, y: Byte)
    ensures |ReplaceAll(s, [x], [y])| == |s|
    ensures forall i :: 0 <= i < |s| ==> ReplaceAll(s, [x], [y])[i] == (if s[i] == x then y else s[i])
    decreases |s|
  {
    if s != [] {
      ReplaceSingleByte(s[1..], x, y);
      var t := ReplaceAll(s[1..], [x], [y]);
      if [x] <= s {
        assert ReplaceAll(s, [x], [y]) == [y] + t;
      } else {
        assert ReplaceAll(s, [x], [y]) == [s[0]] + t;
      }
    }
  }

  /** `ConcatLines`: every line feed becomes a space, nothing else moves, so
      the result is a single line of the same length. */
  function ConcatLines(b: Bytes): (r: Bytes)
    ensures |r| == |b|
    ensures forall i :: 0 <= i < |b| ==> r[i] == (if b[i] == '\n' then ' ' else b[i])
    ensures forall i :: 0 <= i < |r| ==> r[i] != '\n'
  {
    ReplaceSingleByte(b, '\n', ' ');
    ReplaceAll(b, "\n", " ")
  }

  /** The bodies of a list of rules, in order. */
  function Contents(rules: seq<Rule>): (bodies: seq<Bytes>)
    ensures |bodies| == |rules|
    ensures forall i :: 0 <= i < |rules| ==> bodies[i] == rules[i].content
  {
    seq(|rules|, i requires 0 <= i < |rules| => rules[i].content)
  }

  /** `RenderTemplatesFor`: one rendered body per configured rule, in the
      configured order, with the variables Git reports for `path`. */
  function RenderTemplatesFor(e: Engine, path: Bytes): (bodies: seq<Bytes>)
    ensures |bodies| == |e.rules|
    ensures forall i :: 0 <= i < |e.rules| ==>
              bodies[i] == RenderBody(e.rules[i].content, ResolveVars(Ask(e.git, path)))
  {
    Contents(RenderTemplates(e.rules, e.git, path))
  }

  /** `AcceptsPath`: some rule applies to the path relative to the root. */
  function AcceptsPath(e: Engine, env: Env, path: Bytes): (b: bool)
    ensures b <==> exists i :: 0 <= i < |e.rules| && Applies(e.rules[i], RelativePath(e, env, path), env.matches)
  {
    HasAnyTemplateForPath(e.rules, RelativePath(e, env, path), env.matches)
  }

  /** `RenderTemplatesForFiltered`: the rendered bodies of the rules that
      apply to the path. */
  function RenderTemplatesForFiltered(e: Engine, env: Env, path: Bytes): (bodies: seq<Bytes>)
    ensures |bodies| <= |e.rules|
  {
    Contents(ApplicableRules(e, env, path))
  }

  /** The filtered bodies are the applicable configured rules, rendered: a
      rule's body never decides whether it applies. They are non-empty
      exactly when the path is accepted. */
  lemma FilteredIsRenderedApplicable(e: Engine, env: Env, path: Bytes)
    ensures RenderTemplatesForFiltered(e, env, path)
            == Contents(RenderAll(FilterTemplatesForPath(RelativePath(e, env, path), e.rules, env.matches),
                                  ResolveVars(Ask(e.git, path))))
    ensures RenderTemplatesForFiltered(e, env, path) != [] <==> AcceptsPath(e, env, path)
  {
    RenderThenFilter(e.rules, ResolveVars(Ask(e.git, path)), RelativePath(e, env, path), env.matches);
    ApplicableRulesNonEmpty(e, env, path);
  }

  /** Filtering selects from the unfiltered rendering: every filtered body
      is one of the bodies `RenderTemplatesFor` returns. */
  lemma FilteredBodiesAreRendered(e: Engine, env: Env, path: Bytes)
    ensures forall b :: b in RenderTemplatesForFiltered(e, env, path) ==> b in RenderTemplatesFor(e, path)
  {
    var rendered := RenderTemplates(e.rules, e.git, path);
    var filtered := ApplicableRules(e, env, path);
    forall b | b in Contents(filtered) ensures b in Contents(rendered) {
      var i :| 0 <= i < |filtered| && Contents(filtered)[i] == b;
      assert filtered[i] in filtered;
      var j :| 0 <= j < |rendered| && rendered[j] == filtered[i];
      assert Contents(rendered)[j] == b;
    }
  }
}

=== FILE: render.dfy ===
/** Template rendering (`renderTemplates`) and the Git collaborator it asks
    for variable values. */
module Render {
  import opened ByteStrings
  import opened Rules

  /** What the Git collaborator reports for one file. Errors are ignored by
      every caller, so an answer that failed is just the value returned with
      the error (empty text, or not touched). */
  datatype GitAnswers = GitAnswers(author: Bytes, creationDate: Bytes, lastUpdateDate: Bytes, touched: bool)

  /** The `GitMetadata` collaborator: disabled, or a repository that answers
      per path. */
  datatype GitMeta = Disabled | Repo(lookup: Bytes -> GitAnswers)

  /** The answers for `path`. A disabled collaborator reports empty text and
      treats every file as touched. */
  function Ask(g: GitMeta, path: Bytes): (a: GitAnswers)
    ensures g.Disabled? ==> a == GitAnswers([], [], [], true)
  {
    match g
    case Disabled => GitAnswers([], [], [], true)
    case Repo(lookup) => lookup(path)
  }

  /** The values substituted for the three placeholders. */
  datatype Vars = Vars(author: Bytes, creationDate: Bytes, lastUpdateDate: Bytes)

  /** The variable gathering of `renderTemplates`: an empty author becomes
      "unknown"; the dates are used as reported, empty or not. */
  function ResolveVars(a: GitAnswers): (v: Vars)
    ensures v.author != []
    ensures a.author != [] ==> v.author == a.author
    ensures a.author == [] ==> v.author == "unknown"
    ensures v.creationDate == a.creationDate && v.lastUpdateDate == a.lastUpdateDate
  {
    Vars(if a.author == [] then "unknown" else a.author, a.creationDate, a.lastUpdateDate)
  }

  const AuthorPlaceholder: Bytes := "%author%"
  const CreationDatePlaceholder: Bytes := "%creation_date%"
  const LastUpdateDatePlaceholder: Bytes := "%last_update_date%"

  /** The three substitutions, applied in the source's order. */
  function RenderBody(body: Bytes, v: Vars): (r: Bytes)
    ensures (!Contains(body, AuthorPlaceholder) && !Contains(body, CreationDatePlaceholder)
             && !Contains(body, LastUpdateDatePlaceholder)) ==> r == body
  {
    var s1 := ReplaceAll(body, AuthorPlaceholder, v.author);
    var s2 := ReplaceAll(s1, CreationDatePlaceholder, v.creationDate);
    ReplaceAll(s2, LastUpdateDatePlaceholder, v.lastUpdateDate)
  }

  /** A name without `%` between two `%` bytes. */
  predicate PercentDelimited(p: Bytes) {
    |p| >= 2 && p[0] == '%' && p[|p| - 1] == '%' && Lacks(p[1..|p| - 1], '%')
  }

  lemma AuthorShape() ensures PercentDelimited(AuthorPlaceholder) && |AuthorPlaceholder| == 8 {
    assert AuthorPlaceholder[1..7] == "author";
  }

  lemma CreationDateShape() ensures PercentDelimited(CreationDatePlaceholder) && |CreationDatePlaceholder| == 15 {
    assert CreationDatePlaceholder[1..14] == "creation_date";
  }

  lemma LastUpdateDateShape() ensures PercentDelimited(LastUpdateDatePlaceholder) && |LastUpdateDatePlaceholder| == 18 {
    assert LastUpdateDatePlaceholder[1..17] == "last_update_date";
  }

  /** The three placeholders are all `%`-delimited names, and distinct. */
  lemma PlaceholderShapes()
    ensures PercentDelimited(AuthorPlaceholder) && PercentDelimited(CreationDatePlaceholder)
            && PercentDelimited(LastUpdateDatePlaceholder)
    ensures AuthorPlaceholder != CreationDatePlaceholder && CreationDatePlaceholder != LastUpdateDatePlaceholder
    ensures LastUpdateDatePlaceholder != AuthorPlaceholder
  {
    AuthorShape();
    CreationDateShape();
    LastUpdateDateShape();
  }

  lemma LacksJoin(a: Bytes, x: Bytes, b: Bytes, m: Byte)
    requires Lacks(a, m) && Lacks(x, m) && Lacks(b, m)
    ensures Lacks(a + x + b, m)
  {
  }

  /** Text without any `%` renders to itself. */
  lemma RenderWithoutPercent(s: Bytes, v: Vars)
    requires Lacks(s, '%')
    ensures RenderBody(s, v) == s
  {
    AuthorShape();
    CreationDateShape();
    LastUpdateDateShape();
    LacksFirstByte(s, AuthorPlaceholder);
    LacksFirstByte(s, CreationDatePlaceholder);
    LacksFirstByte(s, LastUpdateDatePlaceholder);
  }

  /** A placeholder in text with no other `%` is replaced in place by its
      value, and nothing else changes. */
  lemma PlaceholderRenderedInPlace(a: Bytes, b: Bytes, v: Vars)
    requires Lacks(a, '%') && Lacks(b, '%')
    requires Lacks(v.author, '%') && Lacks(v.creationDate, '%') && Lacks(v.lastUpdateDate, '%')
    ensures RenderBody(a + AuthorPlaceholder + b, v) == a + v.author + b
    ensures RenderBody(a + CreationDatePlaceholder + b, v) == a + v.creationDate + b
    ensures RenderBody(a + LastUpdateDatePlaceholder + b, v) == a + v.lastUpdateDate + b
  {
    AuthorRendered(a, b, v);
    CreationDateRendered(a, b, v);
    LastUpdateDateRendered(a, b, v);
  }

  lemma AuthorRendered(a: Bytes, b: Bytes, v: Vars)
    requires Lacks(a, '%') && Lacks(b, '%') && Lacks(v.author, '%')
    ensures RenderBody(a + AuthorPlaceholder + b, v) == a + v.author + b
  {
    AuthorShape();
    CreationDateShape();
    LastUpdateDateShape();
    var s := a + v.author + b;
    ReplaceLoneOccurrence(a, AuthorPlaceholder, v.author, b);
    LacksJoin(a, v.author, b, '%');
    LacksFirstByte(s, CreationDatePlaceholder);
    LacksFirstByte(s, LastUpdateDatePlaceholder);
  }

  lemma CreationDateRendered(a: Bytes, b: Bytes, v: Vars)
    requires Lacks(a, '%') && Lacks(b, '%') && Lacks(v.creationDate, '%')
    ensures RenderBody(a + CreationDatePlaceholder + b, v) == a + v.creationDate + b
  {
    AuthorShape();
    CreationDateShape();
    LastUpdateDateShape();
    var s := a + v.creationDate + b;
    OtherDelimitedAbsent(a, CreationDatePlaceholder, b, AuthorPlaceholder, '%');
    ReplaceLoneOccurrence(a, CreationDatePlaceholder, v.creationDate, b);
    LacksJoin(a, v.creationDate, b, '%');
    LacksFirstByte(s, LastUpdateDatePlaceholder);
  }

  lemma LastUpdateDateRendered(a: Bytes, b: Bytes, v: Vars)
    requires Lacks(a, '%') && Lacks(b, '%') && Lacks(v.lastUpdateDate, '%')
    ensures RenderBody(a + LastUpdateDatePlaceholder + b, v) == a + v.lastUpdateDate + b
  {
    AuthorShape();
    CreationDateShape();
    LastUpdateDateShape();
    OtherDelimitedAbsent(a, LastUpdateDatePlaceholder, b, AuthorPlaceholder, '%');
    OtherDelimitedAbsent(a, LastUpdateDatePlaceholder, b, CreationDatePlaceholder, '%');
    ReplaceLoneOccurrence(a, LastUpdateDatePlaceholder, v.lastUpdateDate, b);
  }

  /** With Git disabled every file renders alike: the author is `unknown`
      and both dates are empty, whatever the path. */
  lemma DisabledGitRendering(rules: seq<Rule>, path: Bytes, other: Bytes)
    ensures RenderTemplates(rules, Disabled, path) == RenderAll(rules, Vars("unknown", [], []))
    ensures RenderTemplates(rules, Disabled, path) == RenderTemplates(rules, Disabled, other)
  {
  }

  /** With Git disabled a placeholder date renders as nothing and the
      author as `unknown`. */
  lemma DisabledGitPlaceholders(a: Bytes, b: Bytes)
    requires Lacks(a, '%') && Lacks(b, '%')
    ensures var v := ResolveVars(Ask(Disabled, []));
            && RenderBody(a + AuthorPlaceholder + b, v) == a + "unknown" + b
            && RenderBody(a + CreationDatePlaceholder + b, v) == a + b
            && RenderBody(a + LastUpdateDatePlaceholder + b, v) == a + b
  {
    var v := Vars("unknown", [], []);
    assert ResolveVars(Ask(Disabled, [])) == v;
    UnknownLacksPercent();
    AuthorRendered(a, b, v);
    CreationDateRendered(a, b, v);
    LastUpdateDateRendered(a, b, v);
    assert a + [] + b == a + b;
  }

  lemma UnknownLacksPercent() ensures Lacks("unknown", '%') {
  }

  /** Rendering with every variable set to its own placeholder changes
      nothing: substitution is purely literal. */
  lemma RenderWithPlaceholdersIsIdentity(body: Bytes)
    ensures RenderBody(body, Vars(AuthorPlaceholder, CreationDatePlaceholder, LastUpdateDatePlaceholder)) == body
  {
    ReplaceBySelf(body, AuthorPlaceholder);
    ReplaceBySelf(body, CreationDatePlaceholder);
    ReplaceBySelf(body, LastUpdateDatePlaceholder);
  }

  /** One rule with its body rendered; path and patterns are kept. */
  function RenderRule(r: Rule, v: Vars): (out: Rule)
    ensures out.templatePath == r.templatePath
    ensures out.includePattern == r.includePattern && out.excludePattern == r.excludePattern
  {
    r.(content := RenderBody(r.content, v))
  }

  /** The loop of `renderTemplates` over the configured rules. */
  function RenderAll(rules: seq<Rule>, v: Vars): (out: seq<Rule>)
    ensures |out| == |rules|
    ensures forall i :: 0 <= i < |rules| ==> out[i] == RenderRule(rules[i], v)
  {
    if rules == [] then [] else [RenderRule(rules[0], v)] + RenderAll(rules[1..], v)
  }

  /** `renderTemplates`: one rendered rule per configured rule, in order,
      rendered with the variables Git reports for `path`. */
  function RenderTemplates(rules: seq<Rule>, g: GitMeta, path: Bytes): seq<Rule> {
    RenderAll(rules, ResolveVars(Ask(g, path)))
  }

  /** Rendering does not change which rules apply to a path, so rendering
      then filtering is filtering then rendering. */
  lemma {:induction false} RenderThenFilter(rules: seq<Rule>, v: Vars, rel: Bytes, matches: MatchFn)
    ensures FilterTemplatesForPath(rel, RenderAll(rules, v), matches)
            == RenderAll(FilterTemplatesForPath(rel, rules, matches), v)
    decreases |rules|
  {
    if rules != [] {
      RenderThenFilter(rules[1..], v, rel, matches);
      var tail := FilterTemplatesForPath(rel, rules[1..], matches);
      if Applies(rules[0], rel, matches) {
        assert ([rules[0]] + tail)[1..] == tail;
      }
    }
  }
}

=== FILE: rules.dfy ===
/** Template rules and their include/exclude selection
    (`hasAnyTemplateForPath`, `filterTemplatesForPath`).

    Include and exclude are regular expressions in the source; here they
    are `Pattern`s judged by an abstract `MatchFn`, so every property below
    holds whatever the regular-expression engine decides. */
module Rules {
  import opened ByteStrings

  /** A compiled include or exclude expression, kept as its source text. */
  datatype Pattern = Pattern(source: Bytes)

  /** `(*regexp.Regexp).MatchString`. */
  type MatchFn = (Pattern, Bytes) -> bool

  /** A `TemplateRule`: template file, optional include and exclude
      expressions, and the template body. */
  datatype Rule = Rule(templatePath: Bytes, includePattern: Option<Pattern>, excludePattern: Option<Pattern>, content: Bytes)

  /** The include/exclude test shared by `hasAnyTemplateForPath`,
      `filterTemplatesForPath` and `findMatchingTemplateIndex`: rejected by
      a matching exclude, or by an include that does not match; a missing
      expression rejects nothing. */
  predicate Applies(r: Rule, rel: Bytes, matches: MatchFn) {
    !(r.excludePattern.Some? && matches(r.excludePattern.value, rel))
    && !(r.includePattern.Some? && !matches(r.includePattern.value, rel))
  }

  /** `hasAnyTemplateForPath`. */
  function HasAnyTemplateForPath(rules: seq<Rule>, rel: Bytes, matches: MatchFn): (b: bool)
    ensures b <==> exists i :: 0 <= i < |rules| && Applies(rules[i], rel, matches)
  {
    if rules == [] then false
    else if Applies(rules[0], rel, matches) then true
    else
      assert forall i :: 1 <= i < |rules| ==> rules[i] == rules[1..][i - 1];
      HasAnyTemplateForPath(rules[1..], rel, matches)
  }

  /** `filterTemplatesForPath`: the rules that apply to `rel`, in order. */
  function FilterTemplatesForPath(rel: Bytes, rules: seq<Rule>, matches: MatchFn): (out: seq<Rule>)
    ensures |out| <= |rules|
    ensures forall r :: r in out <==> r in rules && Applies(r, rel, matches)
  {
    if rules == [] then []
    else
      var tail := FilterTemplatesForPath(rel, rules[1..], matches);
      assert forall r :: r in rules <==> r == rules[0] || r in rules[1..];
      if Applies(rules[0], rel, matches) then [rules[0]] + tail else tail
  }

  /** Filtering distributes over concatenation, which makes it an order-
      preserving selection: the applicable rules of a prefix come first. */
  lemma {:induction false} FilterAppend(rel: Bytes, a: seq<Rule>, b: seq<Rule>, matches: MatchFn)
    ensures FilterTemplatesForPath(rel, a + b, matches)
            == FilterTemplatesForPath(rel, a, matches) + FilterTemplatesForPath(rel, b, matches)
    decreases |a|
  {
    if a != [] {
      assert (a + b)[1..] == a[1..] + b;
      FilterAppend(rel, a[1..], b, matches);
    } else {
      assert a + b == b;
    }
  }

  /** Filtering twice is filtering once. */
  lemma {:induction false} FilterIdempotent(rel: Bytes, rules: seq<Rule>, matches: MatchFn)
    ensures FilterTemplatesForPath(rel, FilterTemplatesForPath(rel, rules, matches), matches)
            == FilterTemplatesForPath(rel, rules, matches)
    decreases |rules|
  {
    if rules != [] {
      FilterIdempotent(rel, rules[1..], matches);
      var tail := FilterTemplatesForPath(rel, rules[1..], matches);
      if Applies(rules[0], rel, matches) {
        assert ([rules[0]] + tail)[1..] == tail;
      }
    }
  }

  /** Some rule applies exactly when the filtered list is non-empty. */
  lemma FilterNonEmptyIffAny(rel: Bytes, rules: seq<Rule>, matches: MatchFn)
    ensures FilterTemplatesForPath(rel, rules, matches) != [] <==> HasAnyTemplateForPath(rules, rel, matches)
  {
    var out := FilterTemplatesForPath(rel, rules, matches);
    if out != [] {
      assert out[0] in out;
    }
    if HasAnyTemplateForPath(rules, rel, matches) {
      var i :| 0 <= i < |rules| && Applies(rules[i], rel, matches);
      assert rules[i] in rules;
    }
  }
}

=== FILE: scenarios.dfy ===
module Scenarios {
  import opened ByteStrings
  import opened Locator
  import opened Matcher
  import opened Planner
  import opened Rules
  import opened Render
  import opened Policy

  // ---- Contents written line by line ----

  /** The content made of `lines`, each carrying its own newline. */
  function Text(lines: seq<Bytes>): Bytes {
    if lines == [] then [] else lines[0] + Text(lines[1..])
  }

  /** A line with exactly one newline, at its end. */
  predicate OneLine(l: Bytes) {
    |l| > 0 && l[|l| - 1] == '\n' && '\n' !in l[..|l| - 1]
  }

  predicate WellFormed(lines: seq<Bytes>) {
    lines == [] || (OneLine(lines[0]) && WellFormed(lines[1..]))
  }

  /** Where line `k` starts. */
  function Pos(lines: seq<Bytes>, k: nat): (p: nat)
    requires k <= |lines|
    ensures p <= |Text(lines)|
  {
    assert lines == lines[..k] + lines[k..];
    TextAppend(lines[..k], lines[k..]);
    |Text(lines[..k])|
  }

  lemma {:induction false} TextAppend(a: seq<Bytes>, b: seq<Bytes>)
    ensures Text(a + b) == Text(a) + Text(b)
    decreases |a|
  {
    if a == [] {
      assert a + b == b;
    } else {
      assert (a + b)[1..] == a[1..] + b;
      TextAppend(a[1..], b);
    }
  }

  lemma {:induction false} WellFormedAt(lines: seq<Bytes>, k: nat)
    requires WellFormed(lines) && k < |lines|
    ensures OneLine(lines[k])
    decreases k
  {
    if k > 0 {
      WellFormedAt(lines[1..], k - 1);
    }
  }

  /** The text splits around line `k`. */
  lemma TextAround(lines: seq<Bytes>, k: nat)
    requires k < |lines|
    ensures Text(lines) == Text(lines[..k]) + lines[k] + Text(lines[k + 1..])
    ensures Pos(lines, k + 1) == Pos(lines, k) + |lines[k]|
  {
    assert lines == lines[..k] + lines[k..];
    TextAppend(lines[..k], lines[k..]);
    assert lines[k..][1..] == lines[k + 1..];
    assert lines[..k + 1] == lines[..k] + [lines[k]];
    TextAppend(lines[..k], [lines[k]]);
    assert [lines[k]][1..] == lines[k + 1..k + 1];
  }

  lemma LineAt(pre: Bytes, l: Bytes, post: Bytes)
    requires OneLine(l)
    ensures LineEnd(pre + l + post, |pre|) == |pre| + |l|
    ensures Line(pre + l + post, |pre|) == l
  {
    var c := pre + l + post;
    var e := LineEnd(c, |pre|);
    assert c[|pre| + |l| - 1] == '\n';
    forall i | |pre| <= i < |pre| + |l| - 1 ensures c[i] != '\n' {
      assert c[i] == l[..|l| - 1][i - |pre|];
      assert l[..|l| - 1][i - |pre|] in l[..|l| - 1];
    }
    assert c[|pre|..e] == l;
  }

  /** Line `k` of the text is `lines[k]`. */
  lemma LineOfText(lines: seq<Bytes>, k: nat)
    requires WellFormed(lines) && k < |lines|
    ensures Pos(lines, k) < Pos(lines, k + 1) <= |Text(lines)|
    ensures LineEnd(Text(lines), Pos(lines, k)) == Pos(lines, k + 1)
    ensures Line(Text(lines), Pos(lines, k)) == lines[k]
  {
    TextAround(lines, k);
    WellFormedAt(lines, k);
    LineAt(Text(lines[..k]), lines[k], Text(lines[k + 1..]));
  }

  lemma PosEnd(lines: seq<Bytes>)
    ensures Pos(lines, |lines|) == |Text(lines)|
  {
    assert lines[..|lines|] == lines;
  }

  /** One step of a line scan over the text. */
  lemma ScanStep(lines: seq<Bytes>, k: nat, accept: Bytes -> bool)
    requires WellFormed(lines) && k < |lines|
    ensures accept(lines[k]) ==> ScanLines(Text(lines), Pos(lines, k), accept) == ScanLines(Text(lines), Pos(lines, k + 1), accept)
    ensures !accept(lines[k]) ==> ScanLines(Text(lines), Pos(lines, k), accept) == Pos(lines, k)
  {
    LineOfText(lines, k);
  }

  lemma ScanEnd(lines: seq<Bytes>, accept: Bytes -> bool)
    ensures ScanLines(Text(lines), Pos(lines, |lines|), accept) == |Text(lines)|
  {
    PosEnd(lines);
  }

  /** Lines `i` to `n - 1` are all accepted. */
  predicate AllAccepted(lines: seq<Bytes>, i: nat, n: nat, accept: Bytes -> bool)
    requires i <= n <= |lines|
  {
    forall k :: i <= k < n ==> accept(lines[k])
  }

  lemma AcceptTwo(lines: seq<Bytes>, i: nat, accept: Bytes -> bool)
    requires i + 2 <= |lines| && accept(lines[i]) && accept(lines[i + 1])
    ensures AllAccepted(lines, i, i + 2, accept)
  {
    forall k | i <= k < i + 2 ensures accept(lines[k]) {
      if k == i {
      } else {
      }
    }
  }

  lemma AcceptThree(lines: seq<Bytes>, i: nat, accept: Bytes -> bool)
    requires i + 3 <= |lines| && accept(lines[i]) && accept(lines[i + 1]) && accept(lines[i + 2])
    ensures AllAccepted(lines, i, i + 3, accept)
  {
    forall k | i <= k < i + 3 ensures accept(lines[k]) {
      if k == i {
      } else if k == i + 1 {
      } else {
      }
    }
  }

  /** A scan started on line `i` stops at the first line from `i` on that
      is not accepted. */
  lemma {:induction false} ScanRun(lines: seq<Bytes>, i: nat, j: nat, accept: Bytes -> bool)
    requires WellFormed(lines) && i <= j <= |lines|
    requires AllAccepted(lines, i, j, accept)
    requires j == |lines| || !accept(lines[j])
    ensures ScanLines(Text(lines), Pos(lines, i), accept) == Pos(lines, j)
    decreases j - i
  {
    if i < j {
      ScanStep(lines, i, accept);
      ScanRun(lines, i + 1, j, accept);
    } else if j < |lines| {
      ScanStep(lines, j, accept);
    } else {
      ScanEnd(lines, accept);
      PosEnd(lines);
    }
  }

  /** A text whose header search starts on line `i`, where lines `i` to
      `n - 1` are comment lines and line `n` is not: the detected header is
      exactly those lines. */
  lemma DetectRunAt(ls: seq<Bytes>, i: nat, n: nat)
    requires WellFormed(ls) && i < n <= |ls|
    requires HeaderSearchStart(Text(ls)) == Pos(ls, i)
    requires AllAccepted(ls, i, n, IsHeaderLine)
    requires n == |ls| || !IsHeaderLine(ls[n])
    ensures DetectHeaderBlock(Text(ls)) == Region(Text(ls[i..n]), Pos(ls, i), Pos(ls, n))
  {
    var c := Text(ls);
    assert ScanLines(c, Pos(ls, i), IsHeaderLine) == Pos(ls, n) by {
      ScanRun(ls, i, n, IsHeaderLine);
    }
    assert Pos(ls, i) < Pos(ls, n) by {
      LineOfText(ls, i);
      SliceOfText(ls, i + 1, n);
    }
    SliceOfText(ls, i, n);
  }

  /** The same with the search starting on the first line. */
  lemma DetectRun(ls: seq<Bytes>, n: nat)
    requires WellFormed(ls) && 0 < n <= |ls| && FindShebangEnd(Text(ls)) == 0
    requires !IsBlankOrDirective(ls[0])
    requires AllAccepted(ls, 0, n, IsHeaderLine)
    requires n == |ls| || !IsHeaderLine(ls[n])
    ensures DetectHeaderBlock(Text(ls)) == Region(Text(ls[..n]), 0, Pos(ls, n))
  {
    assert Pos(ls, 0) == 0;
    assert HeaderSearchStart(Text(ls)) == 0 by {
      ScanRun(ls, 0, 0, IsBlankOrDirective);
    }
    DetectRunAt(ls, 0, n);
    assert ls[0..n] == ls[..n];
  }

  /** A text that opens with a shebang line followed by a line that is
      neither blank nor a directive: the search starts on that second line. */
  lemma ShebangThenLine(ls: seq<Bytes>)
    requires WellFormed(ls) && |ls| > 1 && "#!" <= ls[0] && !IsBlankOrDirective(ls[1])
    ensures FindShebangEnd(Text(ls)) == Pos(ls, 1)
    ensures HeaderSearchStart(Text(ls)) == Pos(ls, 1)
  {
    assert FindShebangEnd(Text(ls)) == Pos(ls, 1) by {
      PrefixOfText(ls, "#!");
      LineOfText(ls, 0);
      assert Pos(ls, 0) == 0;
    }
    ScanStep(ls, 1, IsBlankOrDirective);
  }

  /** The text of lines `i` to `j`. */
  lemma SliceOfText(lines: seq<Bytes>, i: nat, j: nat)
    requires i <= j <= |lines|
    ensures Pos(lines, i) <= Pos(lines, j) <= |Text(lines)|
    ensures Text(lines)[Pos(lines, i)..Pos(lines, j)] == Text(lines[i..j])
  {
    assert lines == lines[..i] + lines[i..j] + lines[j..];
    TextAppend(lines[..i] + lines[i..j], lines[j..]);
    TextAppend(lines[..i], lines[i..j]);
    assert lines[..j] == lines[..i] + lines[i..j];
  }

  lemma PrefixOfText(lines: seq<Bytes>, p: Bytes)
    requires |lines| > 0 && p <= lines[0]
    ensures p <= Text(lines)
  {
  }

  /** A text whose first line starts with `/` has no shebang line. */
  lemma SlashStart(lines: seq<Bytes>)
    requires |lines| > 0 && "/" <= lines[0]
    ensures FindShebangEnd(Text(lines)) == 0
  {
    PrefixOfText(lines, "/");
  }

  lemma TextCons(x: Bytes, rest: seq<Bytes>)
    ensures Text([x] + rest) == x + Text(rest)
  {
    assert ([x] + rest)[1..] == rest;
  }

  /** The text of a literal list of one to six lines. */
  lemma TextOfOne(a: Bytes)
    ensures Text([a]) == a
  {
    TextCons(a, []);
    assert [a] + [] == [a];
  }

  lemma TextOfTwo(a: Bytes, b: Bytes)
    ensures Text([a, b]) == a + b
  {
    TextOfOne(b);
    TextCons(a, [b]);
    assert [a] + [b] == [a, b];
  }

  lemma TextOfThree(a: Bytes, b: Bytes, c: Bytes)
    ensures Text([a, b, c]) == a + b + c
  {
    TextOfTwo(b, c);
    TextCons(a, [b, c]);
    assert [a] + [b, c] == [a, b, c];
  }

  lemma TextOfFour(a: Bytes, b: Bytes, c: Bytes, d: Bytes)
    ensures Text([a, b, c, d]) == a + b + c + d
  {
    TextOfThree(b, c, d);
    TextCons(a, [b, c, d]);
    assert [a] + [b, c, d] == [a, b, c, d];
  }

  lemma TextOfFive(a: Bytes, b: Bytes, c: Bytes, d: Bytes, e: Bytes)
    ensures Text([a, b, c, d, e]) == a + b + c + d + e
  {
    TextOfFour(b, c, d, e);
    TextCons(a, [b, c, d, e]);
    assert [a] + [b, c, d, e] == [a, b, c, d, e];
  }

  lemma TextOfSix(a: Bytes, b: Bytes, c: Bytes, d: Bytes, e: Bytes, f: Bytes)
    ensures Text([a, b, c, d, e, f]) == a + b + c + d + e + f
  {
    TextOfFive(b, c, d, e, f);
    TextCons(a, [b, c, d, e, f]);
    assert [a] + [b, c, d, e, f] == [a, b, c, d, e, f];
  }

  /** Trimming CR/LF from a body that neither starts nor ends with one drops
      exactly the trailing newlines. */
  lemma TrimCRLFOfBody(a: Bytes, b: Bytes)
    requires |a| > 0 && !IsCRLF(a[0]) && !IsCRLF(a[|a| - 1])
    requires forall i :: 0 <= i < |b| ==> IsCRLF(b[i])
    ensures TrimCRLF(a + b) == a
  {
    var s := a + b;
    assert LeadingCut(s, IsCRLF) == 0;
    assert TrimLeft(s, IsCRLF) == s;
    var n := KeptLength(s, IsCRLF);
    assert !IsCRLF(s[|a| - 1]);
    assert n == |a|;
    assert s[..n] == a;
  }

  lemma TrimSpaceOfBody(a: Bytes, b: Bytes)
    requires |a| > 0 && !IsSpace(a[0]) && !IsSpace(a[|a| - 1])
    requires forall i :: 0 <= i < |b| ==> IsSpace(b[i])
    ensures TrimSpace(a + b) == a
  {
    var s := a + b;
    assert LeadingCut(s, IsSpace) == 0;
    assert TrimLeft(s, IsSpace) == s;
    var n := KeptLength(s, IsSpace);
    assert !IsSpace(s[|a| - 1]);
    assert n == |a|;
    assert s[..n] == a;
  }

  /** An indented word-bounded text trims to itself. */
  lemma TrimSpaceOfIndented(ws: Bytes, a: Bytes)
    requires |a| > 0 && !IsSpace(a[0]) && !IsSpace(a[|a| - 1])
    requires forall i :: 0 <= i < |ws| ==> IsSpace(ws[i])
    ensures TrimSpace(ws + a) == a
  {
    TrimPadding(ws, a, [], IsSpace);
    assert ws + a + [] == ws + a;
    TrimSpaceOfBody(a, []);
    assert a + [] == a;
  }

  lemma StripNothing(s: Bytes)
    requires |s| > 0 && !IsCRLF(s[0])
    ensures StripLeadingNewlines(s) == s
  {
  }

  // ---- Classifying concrete lines ----

  /** A `//` comment whose text (after the slashes and any spaces) starts
      with none of the directive markers `go:`, `+build`, `nolint`, `lint:`;
      the text may be empty. */
  lemma SlashComment(line: Bytes, s: Bytes, t: Bytes)
    requires TrimSpace(line) == s && |s| >= 2 && s[0] == '/' && s[1] == '/'
    requires TrimSpace(s[2..]) == t && !("go:" <= t || "+build" <= t || "nolint" <= t || "lint:" <= t)
    ensures IsHeaderLine(line) && !IsBlankOrDirective(line) && IsTopCommentLine(line)
  {
    assert "//" <= s;
  }

  /** A `#` comment whose text (after the `#` and any spaces) does not start
      with `shellcheck` in any letter case; the text may be empty. */
  lemma HashComment(line: Bytes, s: Bytes, t: Bytes)
    requires TrimSpace(line) == s && |s| >= 1 && s[0] == '#'
    requires TrimSpace(s[1..]) == t && !("shellcheck" <= ToLower(t))
    ensures IsHeaderLine(line) && !IsBlankOrDirective(line) && IsTopCommentLine(line)
  {
    assert "#" <= s;
    assert !("//" <= s);
  }

  lemma BlankLine(line: Bytes)
    requires TrimSpace(line) == []
    ensures IsHeaderLine(line) && IsBlankOrDirective(line) && IsTopCommentLine(line)
  {
  }

  /** A line that is neither blank nor a comment: its trimmed text starts
      with none of the markers, though it may start with a single `/`. */
  lemma CodeLine(line: Bytes, s: Bytes)
    requires TrimSpace(line) == s && s != [] && !("//" <= s) && !("/*" <= s)
    requires s[0] != '#' && s[0] != ';' && s[0] != '*'
    ensures !IsHeaderLine(line) && !IsBlankOrDirective(line) && !IsTopCommentLine(line) && !IsLineComment(line)
  {
  }

  /** A `//go:` or `//nolint` directive. */
  lemma SlashDirective(line: Bytes, t: Bytes)
    requires TrimSpace(line) == "//" + t && TrimSpace(t) == t && ("go:" <= t || "nolint" <= t)
    ensures IsBlankOrDirective(line) && !IsHeaderLine(line) && IsTopCommentLine(line)
  {
    var s := "//" + t;
    assert s[2..] == t;
    assert "//" <= s;
  }

  // ---- Scenarios ----

  const ShebangScript: seq<Bytes> := ["#!/usr/bin/env bash\n", "# header line\n", "\n", "echo hi\n"]

  lemma TrimHashHeaderLine() ensures TrimSpace("# header line\n") == "#" + " header line" {
    var a: Bytes := "#" + " header line";
    assert "# header line\n" == a + "\n";
    TrimSpaceOfBody(a, "\n");
  }
  lemma TrimHeaderLineText() ensures TrimSpace(" header line") == "header line" {
    assert " header line" == " " + "header line";
    TrimSpaceOfIndented(" ", "header line");
  }
  lemma TrimEchoLine() ensures TrimSpace("echo hi\n") == "echo hi" {
    var a: Bytes := "echo hi";
    assert "echo hi\n" == a + "\n";
    TrimSpaceOfBody(a, "\n");
  }
  lemma TrimNewlineOnly() ensures TrimSpace("\n") == [] {}

  lemma ShebangScriptWellFormed() ensures WellFormed(ShebangScript) {}

  lemma ShebangHeaderText() ensures Text(ShebangScript[1..3]) == "# header line\n\n" {
    assert ShebangScript[1..3] == ["# header line\n", "\n"];
    assert Text(["# header line\n", "\n"]) == "# header line\n" + "\n";
  }

  lemma ShebangScriptPositions(ls: seq<Bytes>)
    requires ls == ShebangScript
    ensures Pos(ls, 1) == 20 && Pos(ls, 3) == 35
  {
    assert Pos(ls, 0) == 0;
    TextAround(ls, 0);
    TextAround(ls, 1);
    TextAround(ls, 2);
  }

  /** Text whose first byte is not `s` in either case does not start with
      `shellcheck`. */
  lemma NotShellcheck(t: Bytes)
    requires |t| > 0 && LowerByte(t[0]) != 's'
    ensures !("shellcheck" <= ToLower(t))
  {
    assert ToLower(t)[0] != "shellcheck"[0];
  }

  /** A `#` line whose text after the `#` trims to something not starting
      with `s` or `S` is a header line. */
  lemma HashWordLine(l: Bytes, u: Bytes, t: Bytes)
    requires TrimSpace(l) == "#" + u && TrimSpace(u) == t
    requires |t| > 0 && LowerByte(t[0]) != 's'
    ensures IsHeaderLine(l) && !IsBlankOrDirective(l)
  {
    var s: Bytes := "#" + u;
    assert s[1..] == u;
    NotShellcheck(t);
    HashComment(l, s, t);
  }

  lemma HashHeaderLine(l: Bytes)
    requires l == "# header line\n"
    ensures IsHeaderLine(l) && !IsBlankOrDirective(l)
  {
    TrimHashHeaderLine(); TrimHeaderLineText();
    HashWordLine(l, " header line", "header line");
  }

  lemma EmptyLine(l: Bytes)
    requires l == "\n"
    ensures IsHeaderLine(l) && IsBlankOrDirective(l) && IsTopCommentLine(l)
  {
    TrimNewlineOnly();
    BlankLine(l);
  }

  lemma EchoLine(l: Bytes)
    requires l == "echo hi\n"
    ensures !IsHeaderLine(l)
  {
    TrimEchoLine();
    CodeLine(l, "echo hi");
  }

  lemma ShebangScriptLines(ls: seq<Bytes>)
    requires ls == ShebangScript
    ensures WellFormed(ls) && |ls| == 4 && "#!" <= ls[0]
    ensures IsHeaderLine(ls[1]) && !IsBlankOrDirective(ls[1])
    ensures IsHeaderLine(ls[2]) && !IsHeaderLine(ls[3])
  {
    ShebangScriptWellFormed();
    HashHeaderLine(ls[1]);
    EmptyLine(ls[2]);
    EchoLine(ls[3]);
  }

  /** A shebang line, then two header lines, then a line that is not: the
      header is the middle two lines. */
  lemma HeaderAfterShebang(ls: seq<Bytes>)
    requires WellFormed(ls) && |ls| == 4 && "#!" <= ls[0]
    requires IsHeaderLine(ls[1]) && !IsBlankOrDirective(ls[1])
    requires IsHeaderLine(ls[2]) && !IsHeaderLine(ls[3])
    ensures DetectHeaderBlock(Text(ls)) == Region(Text(ls[1..3]), Pos(ls, 1), Pos(ls, 3))
  {
    assert HeaderSearchStart(Text(ls)) == Pos(ls, 1) by {
      ShebangThenLine(ls);
    }
    AcceptTwo(ls, 1, IsHeaderLine);
    DetectRunAt(ls, 1, 3);
  }

  lemma DetectAfterShebangFor(ls: seq<Bytes>)
    requires ls == ShebangScript
    ensures DetectHeaderBlock(Text(ls)) == Region(Text(ls[1..3]), Pos(ls, 1), Pos(ls, 3))
  {
    ShebangScriptLines(ls);
    HeaderAfterShebang(ls);
  }

  /** The header after a shebang line is found, and starts after it
      (engine_test.go, `TestDetectHeaderBlock_WithShebang`). */
  lemma DetectAfterShebang()
    ensures DetectHeaderBlock(Text(ShebangScript)) == Region("# header line\n\n", 20, 35)
  {
    DetectAfterShebangFor(ShebangScript);
    ShebangScriptPositions(ShebangScript);
    ShebangHeaderText();
  }

  // `insertHeader` keeps the shebang line on top.

  const ShebangEcho: seq<Bytes> := ["#!/usr/bin/env bash\n", "echo hi\n"]

  /** A first line starting with `#!` is the shebang line. */
  lemma ShebangEndOf(a: Bytes, b: Bytes)
    requires OneLine(a) && "#!" <= a
    ensures FindShebangEnd(a + b) == |a|
  {
    LineAt([], a, b);
    assert [] + a + b == a + b;
    assert (a + b)[..2] == a[..2];
  }

  lemma InsertAfterShebangFor(ls: seq<Bytes>)
    requires ls == ShebangEcho
    ensures InsertHeader(Text(ls), "# header\n") == Text(["#!/usr/bin/env bash\n", "# header\n", "\n", "echo hi\n"])
  {
    var a, b := ls[0], ls[1];
    TextOfTwo(a, b);
    assert ls == [a, b];
    assert OneLine(a);
    ShebangEndOf(a, b);
    assert (a + b)[..|a|] == a && (a + b)[|a|..] == b;
    StripNothing(b);
    TextOfFour(a, "# header\n", "\n", b);
  }

  lemma InsertAfterShebang()
    ensures InsertHeader(Text(ShebangEcho), "# header\n") == Text(["#!/usr/bin/env bash\n", "# header\n", "\n", "echo hi\n"])
  {
    InsertAfterShebangFor(ShebangEcho);
  }

  // `replaceHeader` leaves exactly one blank line after the new header.

  const OldHeaderFile: seq<Bytes> := ["// old\n", "\n", "package x\n"]

  lemma TrimOldLine() ensures TrimSpace("// old\n") == "//" + " old" {
    var a: Bytes := "//" + " old";
    assert "// old\n" == a + "\n";
    TrimSpaceOfBody(a, "\n");
  }
  lemma TrimOldText() ensures TrimSpace(" old") == "old" {
    assert " old" == " " + "old";
    TrimSpaceOfIndented(" ", "old");
  }
  lemma TrimPackageXLine() ensures TrimSpace("package x\n") == "package x" {
    var a: Bytes := "package x";
    assert "package x\n" == a + "\n";
    TrimSpaceOfBody(a, "\n");
  }

  lemma OldLine(l: Bytes)
    requires l == "// old\n"
    ensures IsHeaderLine(l) && !IsBlankOrDirective(l)
  {
    TrimOldLine(); TrimOldText();
    var s: Bytes := "//" + " old";
    assert s[2..] == " old";
    SlashComment(l, s, "old");
  }

  lemma PackageXLine(l: Bytes)
    requires l == "package x\n"
    ensures !IsHeaderLine(l)
  {
    TrimPackageXLine();
    CodeLine(l, "package x");
  }

  lemma OldHeaderWellFormed() ensures WellFormed(OldHeaderFile) {}

  lemma OldHeaderLines(ls: seq<Bytes>)
    requires ls == OldHeaderFile
    ensures WellFormed(ls) && |ls| == 3 && FindShebangEnd(Text(ls)) == 0
    ensures !IsBlankOrDirective(ls[0]) && IsHeaderLine(ls[0]) && IsHeaderLine(ls[1]) && !IsHeaderLine(ls[2])
  {
    OldHeaderWellFormed();
    assert FindShebangEnd(Text(ls)) == 0 by {
      SlashStart(ls);
    }
    OldLine(ls[0]);
    EmptyLine(ls[1]);
    PackageXLine(ls[2]);
  }

  lemma OldHeaderDetectFor(ls: seq<Bytes>)
    requires ls == OldHeaderFile
    ensures DetectHeaderBlock(Text(ls)) == Region(Text(ls[0..2]), 0, Pos(ls, 2))
  {
    OldHeaderLines(ls);
    DetectFirstTwo(ls);
    assert ls[0..2] == ls[..2];
  }

  lemma OldHeaderShape(ls: seq<Bytes>)
    requires ls == OldHeaderFile
    ensures Pos(ls, 2) == 8 && Text(ls[0..2]) == "// old\n\n"
  {
    assert Pos(ls, 0) == 0;
    TextAround(ls, 0);
    TextAround(ls, 1);
    assert ls[0..2] == [ls[0], ls[1]];
    TextOfTwo(ls[0], ls[1]);
  }

  /** Replacing a block that starts the content keeps what follows it,
      when that does not start with a newline. */
  lemma ReplaceLeadingBlock(a: Bytes, c: Bytes, h: Bytes)
    requires |c| > 0 && !IsCRLF(c[0])
    ensures ReplaceHeader(a + c, 0, |a|, h) == h + "\n" + c
  {
    assert (a + c)[..0] == [];
    assert (a + c)[|a|..] == c;
    StripNothing(c);
  }

  lemma OldHeaderReplaceFor(ls: seq<Bytes>)
    requires ls == OldHeaderFile
    ensures |Text(ls)| == 18
    ensures ReplaceHeader(Text(ls), 0, 8, "// new\n") == Text(["// new\n", "\n", "package x\n"])
  {
    var a, b, c := ls[0], ls[1], ls[2];
    assert ls == [a, b, c];
    TextOfThree(a, b, c);
    assert |a + b| == 8;
    ReplaceLeadingBlock(a + b, c, "// new\n");
    TextOfThree("// new\n", "\n", c);
  }

  const NewHeader: Bytes := "// new\n"
  const ReplacedFile: seq<Bytes> := ["// new\n", "\n", "package x\n"]

  lemma ReplaceOldHeaderFor(ls: seq<Bytes>)
    requires ls == OldHeaderFile
    ensures |Text(ls)| == 18
    ensures DetectHeaderBlock(Text(ls)) == Region("// old\n\n", 0, 8)
    ensures ReplaceHeader(Text(ls), 0, 8, NewHeader) == Text(ReplacedFile)
  {
    OldHeaderDetectFor(ls);
    OldHeaderShape(ls);
    OldHeaderReplaceFor(ls);
  }

  /** engine_test.go, `TestReplaceHeader_EnsuresOneBlankLine`. */
  lemma ReplaceOldHeader()
    ensures |Text(OldHeaderFile)| == 18
    ensures DetectHeaderBlock(Text(OldHeaderFile)) == Region("// old\n\n", 0, 8)
    ensures ReplaceHeader(Text(OldHeaderFile), 0, 8, NewHeader) == Text(ReplacedFile)
  {
    ReplaceOldHeaderFor(OldHeaderFile);
  }

  // ---- The upsert on whole files ----

  /** Two lines followed by a blank line, as a block: trimming drops the
      newlines, the block adds them back. */
  lemma TwoLineBlock(l0: Bytes, d: Bytes)
    requires |l0| > 0 && !IsSpace(l0[0]) && |d| > 0 && !IsCRLF(d[|d| - 1])
    ensures TrimCRLF(l0 + (d + "\n") + "\n") == l0 + d
    ensures Block(l0 + (d + "\n") + "\n") == l0 + (d + "\n") + "\n"
    ensures Demoted(l0 + (d + "\n") + "\n") == l0 + (d + "\n") + "\n"
  {
    var x := l0 + (d + "\n") + "\n";
    assert x == (l0 + d) + "\n\n";
    TrimCRLFOfBody(l0 + d, "\n\n");
    NewlinePair(l0 + d);
    TrimKeepsFirstByte(x, IsSpace);
  }

  lemma NewlinePair(x: Bytes)
    ensures x + "\n\n" == (x + "\n") + "\n"
  {
  }

  const GoDirectivesFile: seq<Bytes> := ["//go:build go1.22\n", "//nolint:errcheck\n", "\n", "package main\n"]
  const HeaderLine: Bytes := "// Header\n"
  const GoDirectivesFixed: seq<Bytes> :=
    ["// Header\n", "\n", "//go:build go1.22\n", "//nolint:errcheck\n", "\n", "package main\n"]

  lemma TrimGoBuildLine() ensures TrimSpace("//go:build go1.22\n") == "//" + "go:build go1.22" {
    var a: Bytes := "//" + "go:build go1.22";
    assert "//go:build go1.22\n" == a + "\n";
    TrimSpaceOfBody(a, "\n");
  }
  lemma TrimGoBuildText() ensures TrimSpace("go:build go1.22") == "go:build go1.22" {
    var a: Bytes := "go:build go1.22";
    assert a + [] == a;
    TrimSpaceOfBody(a, []);
  }
  lemma TrimNolintLine() ensures TrimSpace("//nolint:errcheck\n") == "//" + "nolint:errcheck" {
    var a: Bytes := "//" + "nolint:errcheck";
    assert "//nolint:errcheck\n" == a + "\n";
    TrimSpaceOfBody(a, "\n");
  }
  lemma TrimNolintText() ensures TrimSpace("nolint:errcheck") == "nolint:errcheck" {
    var a: Bytes := "nolint:errcheck";
    assert a + [] == a;
    TrimSpaceOfBody(a, []);
  }
  lemma TrimPackageMainLine() ensures TrimSpace("package main\n") == "package main" {
    var a: Bytes := "package main";
    assert "package main\n" == a + "\n";
    TrimSpaceOfBody(a, "\n");
  }

  lemma GoBuildLine(l: Bytes)
    requires l == "//go:build go1.22\n"
    ensures IsBlankOrDirective(l) && !IsHeaderLine(l)
  {
    TrimGoBuildLine(); TrimGoBuildText();
    SlashDirective(l, "go:build go1.22");
  }

  lemma NolintLine(l: Bytes)
    requires l == "//nolint:errcheck\n"
    ensures IsBlankOrDirective(l) && !IsHeaderLine(l)
  {
    TrimNolintLine(); TrimNolintText();
    SlashDirective(l, "nolint:errcheck");
  }

  lemma MainLine(l: Bytes)
    requires l == "package main\n"
    ensures !IsHeaderLine(l) && !IsBlankOrDirective(l) && !IsTopCommentLine(l) && !IsLineComment(l)
  {
    TrimPackageMainLine();
    CodeLine(l, "package main");
  }

  lemma GoDirectivesLines(ls: seq<Bytes>)
    requires ls == GoDirectivesFile
    ensures IsBlankOrDirective(ls[0]) && IsBlankOrDirective(ls[1]) && IsBlankOrDirective(ls[2])
    ensures !IsBlankOrDirective(ls[3]) && !IsHeaderLine(ls[3])
  {
    GoBuildLine(ls[0]);
    NolintLine(ls[1]);
    EmptyLine(ls[2]);
    MainLine(ls[3]);
  }

  /** A file that opens with three blank or directive lines followed by
      a code line has no header. */
  lemma DirectivesThenCode(ls: seq<Bytes>)
    requires WellFormed(ls) && |ls| == 4 && FindShebangEnd(Text(ls)) == 0
    requires IsBlankOrDirective(ls[0]) && IsBlankOrDirective(ls[1]) && IsBlankOrDirective(ls[2])
    requires !IsBlankOrDirective(ls[3]) && !IsHeaderLine(ls[3])
    ensures HeaderSearchStart(Text(ls)) == Pos(ls, 3)
    ensures DetectHeaderBlock(Text(ls)).header == []
  {
    assert Pos(ls, 0) == 0;
    AcceptThree(ls, 0, IsBlankOrDirective);
    assert HeaderSearchStart(Text(ls)) == Pos(ls, 3) by {
      ScanRun(ls, 0, 3, IsBlankOrDirective);
    }
    ScanRun(ls, 3, 3, IsHeaderLine);
  }

  lemma GoDirectivesNoHeaderFor(ls: seq<Bytes>)
    requires ls == GoDirectivesFile
    ensures WellFormed(ls)
    ensures FindShebangEnd(Text(ls)) == 0
    ensures HeaderSearchStart(Text(ls)) == Pos(ls, 3)
    ensures DetectHeaderBlock(Text(ls)).header == []
  {
    GoDirectivesWellFormed();
    assert FindShebangEnd(Text(ls)) == 0 by {
      SlashStart(ls);
    }
    GoDirectivesLines(ls);
    DirectivesThenCode(ls);
  }

  lemma GoDirectivesWellFormed() ensures WellFormed(GoDirectivesFile) {}

  const Nolint: Bytes := "//nolint:errcheck"

  /** The first three lines and the last line of a four-line text. */
  lemma FourLines(ls: seq<Bytes>)
    requires |ls| == 4
    ensures Pos(ls, 3) <= |Text(ls)|
    ensures Text(ls)[0..Pos(ls, 3)] == ls[0] + ls[1] + ls[2]
    ensures Text(ls)[Pos(ls, 3)..] == ls[3]
  {
    var c := Text(ls);
    assert Pos(ls, 0) == 0;
    SliceOfText(ls, 0, 3);
    assert ls[0..3] == [ls[0], ls[1], ls[2]];
    TextOfThree(ls[0], ls[1], ls[2]);
    SliceOfText(ls, 3, 4);
    PosEnd(ls);
    assert Pos(ls, 4) == |c|;
    assert ls[3..4] == [ls[3]];
    TextOfOne(ls[3]);
  }

  /** The upsert of a file made of two directive lines, a blank line and a
      code line. */
  lemma UpsertAboveDirectives(ls: seq<Bytes>, h: Bytes, d: Bytes)
    requires WellFormed(ls) && |ls| == 4 && FindShebangEnd(Text(ls)) == 0
    requires HeaderSearchStart(Text(ls)) == Pos(ls, 3) && DetectHeaderBlock(Text(ls)).header == []
    requires IsSuffix("\n", h) && ls[1] == d + "\n" && ls[2] == "\n"
    requires |ls[0]| > 0 && !IsSpace(ls[0][0]) && |d| > 0 && !IsCRLF(d[|d| - 1])
    ensures UpsertHeaderBeforeDirectives(Text(ls), h, true) == Text([h, "\n", ls[0], ls[1], "\n", ls[3]])
  {
    var c := Text(ls);
    var l0, l1, l2, l3 := ls[0], ls[1], ls[2], ls[3];
    var d3 := Pos(ls, 3);
    assert d3 <= |c|;
    assert UpsertHeaderBeforeDirectives(c, h, true)
           == c[..0] + ShebangGap(c[..0]) + h + HeaderGap(h) + Block(c[0..d3]) + c[d3..] by {
      UpsertWithoutHeader(c, h, true);
    }
    FourLines(ls);
    assert Block(c[0..d3]) == l0 + l1 + "\n" by {
      TwoLineBlock(l0, d);
    }
    assert c[..0] == [] && ShebangGap([]) == [] && HeaderGap(h) == "\n";
    var nl: Bytes := "\n";
    Regroup(h, nl, l0, l1, nl, l3);
    TextOfSix(h, nl, l0, l1, nl, l3);
  }

  lemma Regroup(a: Bytes, b: Bytes, c: Bytes, d: Bytes, e: Bytes, f: Bytes)
    ensures [] + [] + a + b + (c + d + e) + f == a + b + c + d + e + f
  {
  }

  lemma GoDirectivesShape(ls: seq<Bytes>)
    requires ls == GoDirectivesFile
    ensures ls[1] == Nolint + "\n" && ls[2] == "\n"
    ensures |ls[0]| > 0 && !IsSpace(ls[0][0]) && |Nolint| > 0 && !IsCRLF(Nolint[|Nolint| - 1])
    ensures IsSuffix("\n", HeaderLine)
    ensures GoDirectivesFixed == [HeaderLine, "\n", ls[0], ls[1], "\n", ls[3]]
  {
  }

  lemma GoDirectivesUpsertFor(ls: seq<Bytes>)
    requires ls == GoDirectivesFile
    ensures UpsertHeaderBeforeDirectives(Text(ls), HeaderLine, true) == Text(GoDirectivesFixed)
  {
    GoDirectivesShape(ls);
    GoDirectivesNoHeaderFor(ls);
    UpsertAboveDirectives(ls, HeaderLine, Nolint);
  }

  /** Inserting a header in front of build and lint directives moves them
      below it, each block followed by one blank line (engine_test.go,
      `TestGoDirectives_AreMovedBelowHeader_OnInsert`). */
  lemma GoDirectivesUpsert()
    ensures DetectHeaderBlock(Text(GoDirectivesFile)).header == []
    ensures UpsertHeaderBeforeDirectives(Text(GoDirectivesFile), HeaderLine, true) == Text(GoDirectivesFixed)
  {
    GoDirectivesNoHeaderFor(GoDirectivesFile);
    GoDirectivesUpsertFor(GoDirectivesFile);
  }

  // The leading comments of a file are its header: the upsert demotes them
  // below the new one.

  /** A file that opens with two comment lines and a blank line, followed
      by a code line, has those three lines as its header. */
  lemma CommentsThenCode(ls: seq<Bytes>)
    requires WellFormed(ls) && |ls| == 4 && FindShebangEnd(Text(ls)) == 0
    requires !IsBlankOrDirective(ls[0])
    requires IsHeaderLine(ls[0]) && IsHeaderLine(ls[1]) && IsHeaderLine(ls[2]) && !IsHeaderLine(ls[3])
    ensures DetectHeaderBlock(Text(ls)) == Region(ls[0] + ls[1] + ls[2], 0, Pos(ls, 3))
  {
    AcceptThree(ls, 0, IsHeaderLine);
    DetectRun(ls, 3);
    assert DetectHeaderBlock(Text(ls)) == Region(Text(ls[..3]), 0, Pos(ls, 3));
    FirstThreeLines(ls);
  }

  /** The text of the first three lines. */
  lemma FirstThreeLines(ls: seq<Bytes>)
    requires |ls| >= 3
    ensures Text(ls[..3]) == ls[0] + ls[1] + ls[2]
  {
    assert ls[..3] == [ls[0], ls[1], ls[2]];
    TextOfThree(ls[0], ls[1], ls[2]);
  }

  /** A content made of one code line splits into nothing but its rest. */
  lemma CodeOnly(l: Bytes)
    requires OneLine(l) && l[0] != '#' && !IsBlankOrDirective(l) && !IsLineComment(l)
    ensures SplitTop(l, IsLineComment) == Parts([], [], [], l)
  {
    LineAt([], l, []);
    assert [] + l + [] == l;
    assert FindShebangEnd(l) == 0;
    assert HeaderSearchStart(l) == 0;
    assert TopCommentsEnd(l, IsLineComment) == 0;
  }

  lemma UpsertBelowLeadingComments(ls: seq<Bytes>, h: Bytes, d: Bytes)
    requires WellFormed(ls) && |ls| == 4 && FindShebangEnd(Text(ls)) == 0
    requires DetectHeaderBlock(Text(ls)) == Region(ls[0] + ls[1] + ls[2], 0, Pos(ls, 3))
    requires SplitTop(ls[3], IsLineComment) == Parts([], [], [], ls[3])
    requires IsSuffix("\n", h) && ls[1] == d + "\n" && ls[2] == "\n"
    requires |ls[0]| > 0 && !IsSpace(ls[0][0]) && |d| > 0 && !IsCRLF(d[|d| - 1])
    ensures UpsertHeaderBeforeDirectives(Text(ls), h, true) == Text([h, "\n", ls[0], ls[1], "\n", ls[3]])
  {
    var c := Text(ls);
    var p := Parts([], [], [], ls[3]);
    var prev := ls[0] + ls[1] + ls[2];
    UpsertPartsAfterBlock(ls);
    assert Preserved(c, true) == prev;
    assert UpsertHeaderBeforeDirectives(c, h, true) == Emit(h, p, prev);
    EmitBelowHeader(h, ls[0], d, ls[3]);
  }

  /** With the header detected at the top of a four-line text, the upsert
      works from the last line alone. */
  lemma UpsertPartsAfterBlock(ls: seq<Bytes>)
    requires |ls| == 4 && |ls[0]| > 0 && FindShebangEnd(Text(ls)) == 0
    requires DetectHeaderBlock(Text(ls)) == Region(ls[0] + ls[1] + ls[2], 0, Pos(ls, 3))
    requires SplitTop(ls[3], IsLineComment) == Parts([], [], [], ls[3])
    ensures UpsertParts(Text(ls)) == Parts([], [], [], ls[3])
  {
    FourLines(ls);
    UpsertPartsAfterTopHeader(Text(ls), Pos(ls, 3), ls[3]);
  }

  /** A header detected at the very top is cut out, and the split is taken
      of what follows it. */
  lemma UpsertPartsAfterTopHeader(c: Bytes, e: nat, rest: Bytes)
    requires FindShebangEnd(c) == 0 && e <= |c| && c[e..] == rest
    requires DetectHeaderBlock(c).header != [] && DetectHeaderBlock(c).start == 0 && DetectHeaderBlock(c).end == e
    requires SplitTop(rest, IsLineComment) == Parts([], [], [], rest)
    ensures UpsertParts(c) == Parts([], [], [], rest)
  {
    UpsertPartsCutsHeader(c);
    assert c[..0] + c[e..] == rest;
  }

  /** The new header, a blank line, the old two-line header and the rest. */
  lemma EmitBelowHeader(h: Bytes, l0: Bytes, d: Bytes, l3: Bytes)
    requires IsSuffix("\n", h)
    requires |l0| > 0 && !IsSpace(l0[0]) && |d| > 0 && !IsCRLF(d[|d| - 1])
    ensures Emit(h, Parts([], [], [], l3), l0 + (d + "\n") + "\n") == Text([h, "\n", l0, d + "\n", "\n", l3])
  {
    var nl: Bytes := "\n";
    var prev := l0 + (d + "\n") + "\n";
    assert Demoted(prev) == prev by {
      TwoLineBlock(l0, d);
    }
    assert Block([]) == [] && ShebangGap([]) == [] && HeaderGap(h) == nl;
    assert Emit(h, Parts([], [], [], l3), prev) == [] + [] + h + nl + [] + [] + prev + l3;
    RegroupAfterEmpty(h, nl, l0, d + "\n", nl, l3);
    TextOfSix(h, nl, l0, d + "\n", nl, l3);
  }

  lemma RegroupAfterEmpty(a: Bytes, b: Bytes, c: Bytes, d: Bytes, e: Bytes, f: Bytes)
    ensures [] + [] + a + b + [] + [] + (c + d + e) + f == a + b + c + d + e + f
  {
  }

  const TopCommentsFile: seq<Bytes> := ["// random top comment\n", "// another\n", "\n", "package main\n"]
  const ShortHeader: Bytes := "// H\n"
  const Another: Bytes := "// another"
  const TopCommentsFixed: seq<Bytes> :=
    ["// H\n", "\n", "// random top comment\n", "// another\n", "\n", "package main\n"]

  lemma TrimRandomCommentLine() ensures TrimSpace("// random top comment\n") == "//" + " random top comment" {
    var a: Bytes := "//" + " random top comment";
    assert "// random top comment\n" == a + "\n";
    TrimSpaceOfBody(a, "\n");
  }
  lemma TrimRandomCommentText() ensures TrimSpace(" random top comment") == "random top comment" {
    assert " random top comment" == " " + "random top comment";
    TrimSpaceOfIndented(" ", "random top comment");
  }
  lemma TrimAnotherLine() ensures TrimSpace("// another\n") == "//" + " another" {
    var a: Bytes := "//" + " another";
    assert "// another\n" == a + "\n";
    TrimSpaceOfBody(a, "\n");
  }
  lemma TrimAnotherText() ensures TrimSpace(" another") == "another" {
    assert " another" == " " + "another";
    TrimSpaceOfIndented(" ", "another");
  }

  lemma RandomTopLine(l: Bytes)
    requires l == "// random top comment\n"
    ensures IsHeaderLine(l) && !IsBlankOrDirective(l)
  {
    TrimRandomCommentLine(); TrimRandomCommentText();
    var s: Bytes := "//" + " random top comment";
    assert s[2..] == " random top comment";
    SlashComment(l, s, "random top comment");
  }

  lemma AnotherLine(l: Bytes)
    requires l == "// another\n"
    ensures IsHeaderLine(l)
  {
    TrimAnotherLine(); TrimAnotherText();
    var s: Bytes := "//" + " another";
    assert s[2..] == " another";
    SlashComment(l, s, "another");
  }

  lemma TopCommentsLines(ls: seq<Bytes>)
    requires ls == TopCommentsFile
    ensures !IsBlankOrDirective(ls[0])
    ensures IsHeaderLine(ls[0]) && IsHeaderLine(ls[1]) && IsHeaderLine(ls[2])
    ensures !IsHeaderLine(ls[3]) && !IsBlankOrDirective(ls[3]) && !IsLineComment(ls[3])
  {
    RandomTopLine(ls[0]);
    AnotherLine(ls[1]);
    EmptyLine(ls[2]);
    MainLine(ls[3]);
  }

  lemma TopCommentsWellFormed() ensures WellFormed(TopCommentsFile) {}

  lemma TopCommentsShape(ls: seq<Bytes>)
    requires ls == TopCommentsFile
    ensures WellFormed(ls) && "/" <= ls[0]
    ensures ls[1] == Another + "\n" && ls[2] == "\n" && OneLine(ls[3]) && ls[3][0] != '#'
    ensures |ls[0]| > 0 && !IsSpace(ls[0][0]) && |Another| > 0 && !IsCRLF(Another[|Another| - 1])
    ensures IsSuffix("\n", ShortHeader)
    ensures TopCommentsFixed == [ShortHeader, "\n", ls[0], ls[1], "\n", ls[3]]
  {
    TopCommentsWellFormed();
  }

  lemma TopCommentsUpsertFor(ls: seq<Bytes>)
    requires ls == TopCommentsFile
    ensures DetectHeaderBlock(Text(ls)).header == ls[0] + ls[1] + ls[2]
    ensures UpsertHeaderBeforeDirectives(Text(ls), ShortHeader, true) == Text(TopCommentsFixed)
  {
    TopCommentsShape(ls);
    TopCommentsLines(ls);
    SlashStart(ls);
    CommentsThenCode(ls);
    CodeOnly(ls[3]);
    UpsertBelowLeadingComments(ls, ShortHeader, Another);
  }

  /** Comments at the top of a file with no directives are taken as its
      header; with the old header kept, they reappear below the new one
      (engine_test.go, `TestTopOfFileComments_MovedBelowHeader`). */
  lemma TopCommentsUpsert()
    ensures DetectHeaderBlock(Text(TopCommentsFile)).header == TopCommentsFile[0] + TopCommentsFile[1] + TopCommentsFile[2]
    ensures UpsertHeaderBeforeDirectives(Text(TopCommentsFile), ShortHeader, true) == Text(TopCommentsFixed)
  {
    TopCommentsUpsertFor(TopCommentsFile);
  }

  // ---- Whole-file runs of the check/fix policy ----

  /** A content of one code line has no shebang and no header. */
  lemma CodeLineHasNoHeader(l: Bytes)
    requires OneLine(l) && l[0] != '#' && !IsBlankOrDirective(l) && !IsHeaderLine(l)
    ensures FindShebangEnd(l) == 0 && HeaderSearchStart(l) == 0 && DetectHeaderBlock(l).header == []
  {
    LineAt([], l, []);
    assert [] + l + [] == l;
    assert HeaderSearchStart(l) == 0;
  }

  const PackageMain: Bytes := "package main\n"

  lemma PackageMainLine()
    ensures OneLine(PackageMain) && PackageMain[0] != '#'
    ensures !IsBlankOrDirective(PackageMain) && !IsHeaderLine(PackageMain)
  {
    PackageMainShape();
    MainLine(PackageMain);
  }

  lemma PackageMainShape() ensures OneLine(PackageMain) && PackageMain[0] != '#' {}

  /** A file holding only `package main` gets the first applicable rendered
      header in front of it, reported as an insertion (engine_test.go,
      `TestProcess_InsertWhenMissing`). */
  lemma InsertWhenMissing(e: Engine, env: Env, path: Bytes, writeSucceeds: bool)
    requires Reaches(e, env, path, Some(PackageMain))
    ensures ApplicableRules(e, env, path) != []
    ensures var d := ProcessFile(e, env, path, Some(PackageMain), true, writeSucceeds);
            && d.write.Some?
            && ApplicableRules(e, env, path)[0].content <= d.write.value
            && (writeSucceeds ==> d.result == Checked(ActionInsert, []))
  {
    PackageMainLine();
    CodeLineHasNoHeader(PackageMain);
    InsertedAtTop(e, env, path, PackageMain, writeSucceeds);
  }

  /** A content with neither a shebang line nor a header gets the first
      applicable body written at its very top, reported as an insertion. */
  lemma InsertedAtTop(e: Engine, env: Env, path: Bytes, c: Bytes, writeSucceeds: bool)
    requires Reaches(e, env, path, Some(c)) && FindShebangEnd(c) == 0 && DetectHeaderBlock(c).header == []
    ensures ApplicableRules(e, env, path) != []
    ensures var d := ProcessFile(e, env, path, Some(c), true, writeSucceeds);
            && d.write.Some?
            && ApplicableRules(e, env, path)[0].content <= d.write.value
            && (writeSucceeds ==> d.result == Checked(ActionInsert, []))
  {
    MissingHeaderIsInserted(e, env, path, Some(c), writeSucceeds);
  }

  /** The template of `TestProcess_InsertWhenMissing` and its rendering
      for the author Alice. */
  const AuthorTemplate: Bytes := "// Header\n// Author: %author%\n"
  const AuthorLead: Bytes := "// Header\n// Author: "
  const AliceHeader: Bytes := "// Header\n// Author: Alice\n"
  const AliceFile: Bytes := AliceHeader + "\n" + PackageMain

  /** The author placeholder of the template is replaced by the author Git
      reports; the dates, absent from the template, do not matter. */
  lemma AliceRendered(a: GitAnswers)
    requires a.author == "Alice"
    ensures RenderBody(AuthorTemplate, ResolveVars(a)) == AliceHeader
  {
    AuthorTemplateParts();
    AliceHeaderParts();
    AuthorRendered(AuthorLead, "\n", ResolveVars(a));
  }

  lemma AuthorTemplateParts()
    ensures AuthorTemplate == AuthorLead + AuthorPlaceholder + "\n"
    ensures Lacks(AuthorLead, '%') && Lacks("\n", '%')
  {
  }

  lemma AliceHeaderParts()
    ensures AuthorLead + "Alice" + "\n" == AliceHeader && Lacks("Alice", '%')
  {
  }

  /** The rules of an engine with the one template above, as rendered for
      a file Git attributes to Alice. */
  lemma AliceRules(e: Engine, env: Env, path: Bytes, tp: Bytes, inc: Option<Pattern>, exc: Option<Pattern>)
    requires e.rules == [Rule(tp, inc, exc, AuthorTemplate)]
    requires Ask(e.git, path).author == "Alice"
    requires HasAnyTemplateForPath(e.rules, RelativePath(e, env, path), env.matches)
    ensures ApplicableRules(e, env, path) == [Rule(tp, inc, exc, AliceHeader)]
  {
    var x := Rule(tp, inc, exc, AliceHeader);
    AliceRendered(Ask(e.git, path));
    assert RenderTemplates(e.rules, e.git, path) == [x];
    ApplicableRulesNonEmpty(e, env, path);
    var out := ApplicableRules(e, env, path);
    assert out[0] in out;
  }

  /** Any header goes in front of a lone code line, separated as the
      header itself requires. */
  lemma CodeLineUpsert(l: Bytes, header: Bytes)
    requires OneLine(l) && l[0] != '#' && !IsBlankOrDirective(l) && !IsHeaderLine(l)
    ensures UpsertHeaderBeforeDirectives(l, header, true) == header + HeaderGap(header) + l
  {
    CodeLineHasNoHeader(l);
    UpsertWithoutHeader(l, header, true);
    var none: Bytes := [];
    assert l[..0] == none && l[0..0] == none && l[0..] == l;
    assert ShebangGap(none) == none;
    assert Block(none) == none by { assert TrimCRLF(none) == none; }
    var g := HeaderGap(header);
    assert none + none + header == header;
    assert header + g + none == header + g;
  }

  /** `TestProcess_InsertWhenMissing` end to end: with the template
      `// Header` / `// Author: %author%` and Git reporting Alice, fix mode
      writes the rendered header, one blank line and then `package main`,
      and reports an insertion. */
  lemma InsertRenderedWhenMissing(e: Engine, env: Env, path: Bytes, tp: Bytes, inc: Option<Pattern>,
                                  exc: Option<Pattern>, writeSucceeds: bool)
    requires e.rules == [Rule(tp, inc, exc, AuthorTemplate)]
    requires Ask(e.git, path).author == "Alice"
    requires Reaches(e, env, path, Some(PackageMain))
    ensures ProcessFile(e, env, path, Some(PackageMain), true, writeSucceeds)
            == WriteBack(AliceFile, ActionInsert, writeSucceeds)
  {
    AliceRules(e, env, path, tp, inc, exc);
    PackageMainLine();
    CodeLineHasNoHeader(PackageMain);
    MissingHeaderIsInserted(e, env, path, Some(PackageMain), writeSucceeds);
    CodeLineUpsert(PackageMain, AliceHeader);
    assert IsSuffix("\n", AliceHeader);
  }

  /** The directive file of `GoDirectivesUpsert`, run through the policy: in
      fix mode the header lands above the directives and the change is an
      insertion; in check mode the same insertion is reported and nothing
      is written. */
  lemma DirectivesFileGetsHeader(e: Engine, env: Env, path: Bytes, writeSucceeds: bool)
    requires Reaches(e, env, path, Some(Text(GoDirectivesFile)))
    requires ApplicableRules(e, env, path) != [] && ApplicableRules(e, env, path)[0].content == HeaderLine
    ensures ProcessFile(e, env, path, Some(Text(GoDirectivesFile)), true, writeSucceeds)
            == WriteBack(Text(GoDirectivesFixed), ActionInsert, writeSucceeds)
    ensures ProcessFile(e, env, path, Some(Text(GoDirectivesFile)), false, writeSucceeds)
            == Decision(Checked(ActionInsert, []), None)
  {
    GoDirectivesUpsert();
    MissingHeaderIsInserted(e, env, path, Some(Text(GoDirectivesFile)), writeSucceeds);
  }

  /** The text of the first two lines. */
  lemma FirstTwoLines(ls: seq<Bytes>)
    requires |ls| >= 2
    ensures Text(ls[..2]) == ls[0] + ls[1]
  {
    assert ls[..2] == [ls[0], ls[1]];
    TextOfTwo(ls[0], ls[1]);
  }

  /** A text whose first two lines are header lines, the first neither
      blank nor a directive, and whose third is not: the header is the first
      two lines. */
  lemma DetectFirstTwo(ls: seq<Bytes>)
    requires WellFormed(ls) && |ls| >= 3 && FindShebangEnd(Text(ls)) == 0
    requires !IsBlankOrDirective(ls[0])
    requires IsHeaderLine(ls[0]) && IsHeaderLine(ls[1]) && !IsHeaderLine(ls[2])
    ensures DetectHeaderBlock(Text(ls)) == Region(Text(ls[..2]), 0, Pos(ls, 2))
  {
    AcceptTwo(ls, 0, IsHeaderLine);
    DetectRun(ls, 2);
  }

  /** A file whose first two lines are header lines and whose third is
      code has those two lines as its header. */
  lemma HeaderThenCode(ls: seq<Bytes>)
    requires WellFormed(ls) && |ls| == 3 && FindShebangEnd(Text(ls)) == 0
    requires !IsBlankOrDirective(ls[0])
    requires IsHeaderLine(ls[0]) && IsHeaderLine(ls[1]) && !IsHeaderLine(ls[2])
    ensures DetectHeaderBlock(Text(ls)).header == ls[0] + ls[1]
  {
    DetectFirstTwo(ls);
    FirstTwoLines(ls);
  }

  const NoopFile: seq<Bytes> := ["// H\n", "\n", "package main\n"]
  const ShortText: Bytes := "// H"

  lemma TrimShortHeaderLine() ensures TrimSpace("// H\n") == "//" + " H" {
    var a: Bytes := "//" + " H";
    assert "// H\n" == a + "\n";
    TrimSpaceOfBody(a, "\n");
  }
  lemma TrimShortHeaderText() ensures TrimSpace(" H") == "H" {
    assert " H" == " " + "H";
    TrimSpaceOfIndented(" ", "H");
  }

  lemma NoopWellFormed() ensures WellFormed(NoopFile) {}

  lemma NoopShape(ls: seq<Bytes>)
    requires ls == NoopFile
    ensures WellFormed(ls) && "/" <= ls[0]
    ensures ls[0] == ShortHeader && ls[1] == "\n" && ShortHeader == ShortText + "\n"
    ensures |ShortText| > 0 && !IsRegexSpace(ShortText[|ShortText| - 1])
  {
    NoopWellFormed();
  }

  lemma HLine(l: Bytes)
    requires l == "// H\n"
    ensures IsHeaderLine(l) && !IsBlankOrDirective(l)
  {
    TrimShortHeaderLine(); TrimShortHeaderText();
    var s: Bytes := "//" + " H";
    assert s[2..] == " H";
    SlashComment(l, s, "H");
  }

  lemma NoopLines(ls: seq<Bytes>)
    requires ls == NoopFile
    ensures !IsBlankOrDirective(ls[0]) && IsHeaderLine(ls[0]) && IsHeaderLine(ls[1]) && !IsHeaderLine(ls[2])
  {
    HLine(ls[0]);
    EmptyLine(ls[1]);
    MainLine(ls[2]);
  }

  lemma NoopDetectFor(ls: seq<Bytes>)
    requires ls == NoopFile
    ensures DetectHeaderBlock(Text(ls)).header == ShortText + "\n\n"
  {
    NoopShape(ls);
    assert FindShebangEnd(Text(ls)) == 0 by {
      SlashStart(ls);
    }
    NoopLines(ls);
    HeaderThenCode(ls);
    NewlinePair(ShortText);
  }

  /** A header that differs from a rendered body only in its run of
      trailing line breaks (say, one blank line more) matches that body,
      semantically and structurally, so the first rule that applies is the
      one matched. The masks need only keep the trailing line breaks, as
      the real passes do. */
  lemma TrailingBreaksMatchBody(rel: Bytes, trules: seq<Rule>, env: Env, a: Bytes, t: Bytes, u: Bytes)
    requires |env.mask(a)| > 0 && !IsRegexSpace(env.mask(a)[|env.mask(a)| - 1])
    requires |t| > 0 && forall i :: 0 <= i < |t| ==> IsCRLF(t[i])
    requires |u| > 0 && forall i :: 0 <= i < |u| ==> IsCRLF(u[i])
    requires trules != [] && trules[0].content == a + t && Applies(trules[0], rel, env.matches)
    requires env.mask(a + t) == env.mask(a) + t && env.mask(a + u) == env.mask(a) + u
    ensures FindMatchingTemplateIndex(rel, trules, a + u, env) == 0
    ensures StructurallyEqual(a + u, trules[0].content)
  {
    assert Eligible(trules[0], rel, a + u, env) by {
      TrailingBlankLinesMatch(a, u, t, env.mask);
    }
    assert FindMatchingTemplateIndex(rel, trules, a + u, env) == 0;
    TrailingNewlinesIgnored(a, t);
    TrailingNewlinesIgnored(a, u);
  }

  /** Such a header is kept in both modes. */
  lemma TrailingBreaksHeaderIsKept(e: Engine, env: Env, path: Bytes, content: Bytes, a: Bytes, t: Bytes, u: Bytes,
                                   writeSucceeds: bool)
    requires Reaches(e, env, path, Some(content))
    requires |env.mask(a)| > 0 && !IsRegexSpace(env.mask(a)[|env.mask(a)| - 1])
    requires |t| > 0 && forall i :: 0 <= i < |t| ==> IsCRLF(t[i])
    requires |u| > 0 && forall i :: 0 <= i < |u| ==> IsCRLF(u[i])
    requires DetectHeaderBlock(content).header == a + u
    requires ApplicableRules(e, env, path) != [] && ApplicableRules(e, env, path)[0].content == a + t
    requires env.mask(a + t) == env.mask(a) + t && env.mask(a + u) == env.mask(a) + u
    ensures ProcessFile(e, env, path, Some(content), true, writeSucceeds) == Unchanged
    ensures ProcessFile(e, env, path, Some(content), false, writeSucceeds) == Unchanged
  {
    var trules := ApplicableRules(e, env, path);
    var rel := RelativePath(e, env, path);
    assert trules[0] in trules;
    TrailingBreaksMatchBody(rel, trules, env, a, t, u);
    assert ProcessFile(e, env, path, Some(content), true, writeSucceeds) == Unchanged by {
      FixMatchedOutcome(e, env, path, Some(content), writeSucceeds);
    }
    assert ProcessFile(e, env, path, Some(content), false, writeSucceeds) == Unchanged by {
      CheckModeReports(e, env, path, Some(content), writeSucceeds);
    }
  }

  /** A file already carrying the rendered header, followed by a blank
      line, is left alone in both modes (engine_test.go,
      `TestNoop_WhenHeaderAlreadyCorrect`). The masks of the semantic
      comparison are abstract here, so the lemma asks that they leave the
      three texts alone, as the real ones do: neither holds a date, time,
      e-mail address, hash or year. */
  lemma NoopWhenHeaderAlreadyCorrect(e: Engine, env: Env, path: Bytes, writeSucceeds: bool)
    requires Reaches(e, env, path, Some(Text(NoopFile)))
    requires ApplicableRules(e, env, path) != [] && ApplicableRules(e, env, path)[0].content == ShortHeader
    requires env.mask(ShortText) == ShortText
    requires env.mask(ShortHeader) == ShortHeader && env.mask(ShortText + "\n\n") == ShortText + "\n\n"
    ensures ProcessFile(e, env, path, Some(Text(NoopFile)), true, writeSucceeds) == Unchanged
    ensures ProcessFile(e, env, path, Some(Text(NoopFile)), false, writeSucceeds) == Unchanged
  {
    NoopShape(NoopFile);
    NoopDetectFor(NoopFile);
    NoopBreaks(env.mask);
    TrailingBreaksHeaderIsKept(e, env, path, Text(NoopFile), ShortText, OneBreak, TwoBreaks, writeSucceeds);
  }

  const OneBreak: Bytes := "\n"
  const TwoBreaks: Bytes := "\n\n"

  /** The two trailing runs of the no-op scenario, and what the masks do
      with them. */
  lemma NoopBreaks(mask: Mask)
    requires mask(ShortText) == ShortText
    requires mask(ShortHeader) == ShortHeader && mask(ShortText + "\n\n") == ShortText + "\n\n"
    ensures |OneBreak| > 0 && forall i :: 0 <= i < |OneBreak| ==> IsCRLF(OneBreak[i])
    ensures |TwoBreaks| > 0 && forall i :: 0 <= i < |TwoBreaks| ==> IsCRLF(TwoBreaks[i])
    ensures ShortHeader == ShortText + OneBreak
    ensures mask(ShortText + OneBreak) == mask(ShortText) + OneBreak
    ensures mask(ShortText + TwoBreaks) == mask(ShortText) + TwoBreaks
  {
  }
}
